=== FILE: README.md ===
# Aural Player playlist core, modelled in Dafny

This project models the logic at the heart of the Aural Player macOS audio
player:

- **The flat playlist store.** An ordered list of tracks plus a map from file
  path to track, which rejects duplicate paths. The model covers adding,
  removing, peeking, clearing, looking up an index, moving selected tracks up
  and down, searching, sorting, reordering and the persistent state.
- **The grouping view controller's pure logic.** Inverting a selection of
  outline rows, splitting selected rows into tracks and groups, and the guards
  in front of removing, moving and cropping.
- **`StringUtils`.** Clock and word formats for durations, camel-case
  splitting and joining, thousands separators and the blank-string test.
- **The time-stretch presets.** The system presets, and the map of presets
  keyed by name with its load, add, delete and rename operations.
- **The sort options.** Field, order and the "sort tracks in groups" flag.

Every module is a pure functional model:

- A mutating Swift method becomes a function from the old value to the new
  one.
- A Swift loop becomes a method with loop invariants, or a recursive function
  with a matching lemma.

Modules:

| file | module | models |
|---|---|---|
| text.dfy | `Text` | characters, ASCII case mapping, decimal numerals, prefix/suffix/substring tests |
| sort_options.dfy | `SortOptions` | `Sort`, `SortField`, `SortOrder`, `SortOptions` |
| playlist.dfy | `Playlist` | the track store and its invariant `Valid` |
| playlist_moves.dfy | `PlaylistMoves` | `moveTracksUp` / `moveTracksDown` |
| playlist_search.dfy | `PlaylistSearch` | `search`, `trackMatchesQuery`, `compare` |
| playlist_sort.dfy | `PlaylistSort` | `sort` and its comparators |
| grouping_view.dfy | `GroupingView` | the grouping view controller's selection logic |
| string_utils.dfy | `StringUtils` | `StringUtils` |
| time_presets.dfy | `TimePresets` | `TimePresets`, `TimePreset`, `SystemDefinedTimePresets` |

## Conventions

**The store invariant.** `Playlist.Valid(p)` says three things:

- no two tracks share a path;
- the path map holds exactly the tracks of the sequence;
- each path maps to the track that carries it.

Every operation preserves it.

**Integer arithmetic.**

- Swift's `/` and `%` truncate toward zero. `StringUtils.Quot` and
  `StringUtils.Rem` model them, and the proofs relate them to Dafny's
  Euclidean operators for non-negative operands.
- `%02d` is `StringUtils.Pad2`.
- `Int64` is a bounded newtype for `readableLongInteger`.

**Search and sort.** "Case-insensitive" means ASCII lower-casing of both
sides. Sorting by name compares display names character by character.

**Presets.** Preset rates and overlaps are integers in hundredths (1.15 is
115), so the constants stay exact.

**Index preconditions.**

- Out-of-range indexes make the Swift code trap (an array subscript, or the
  range `0...-1` in `search` on an empty playlist).
- The model turns each trap into a `requires` on the caller.

**Selection inversion.**

- Inverting a selection is not self-inverse:
  `GroupingView.InvertTwiceCounterexample` exhibits an expanded group whose
  inversion, inverted again, does not give back the original selection.
- Three inversions equal one (`GroupingView.InvertThrice`). That is the
  property the model proves.

## Model

| member | source | states |
|---|---|---|
| SortOptions.DefaultSort | Aural/Sort.swift:8-35 | a new sort request sorts by name, ascending, with tracks inside groups sorted too |
| Playlist.Empty | Aural/Playlist.swift:7-12 | a new playlist has no tracks and satisfies the store invariant |
| Playlist.PeekTrackAt | Aural/Playlist.swift:18-21 | a track comes back exactly when the optional index is present and in range, paired with that index and the track stored there |
| Playlist.AddTrack | Aural/Playlist.swift:42-56 | -1 is returned exactly when a track with the same path is already stored, and then nothing changes; otherwise the track is appended at index old-size, the earlier tracks stay put, its path joins the map, and the invariant is kept |
| Playlist.TrackExistsAgrees | Aural/Playlist.swift:59-61 | for a valid store, `trackExists` answers yes exactly when some stored track has the path: the map look-up agrees with the sequence in both directions |
| Playlist.AddTracksKeepsValid | Aural/Playlist.swift:42-56 | adding any list of tracks one by one keeps the store invariant |
| Playlist.AddTracksKeepsPrefix | Aural/Playlist.swift:42-56 | adding tracks never disturbs the tracks already stored; it only appends |
| Playlist.AddTracksPaths | Aural/Playlist.swift:42-56 | after adding a list of tracks, the stored paths are the old paths together with the added ones |
| Playlist.AddTracksSize | Aural/Playlist.swift:23-25 | after adding a list of tracks, the size is the number of distinct paths among old and new tracks (duplicates are dropped) |
| Playlist.RemoveTrack | Aural/Playlist.swift:63-69 | removing index i shortens the playlist by one, keeps the tracks before i, shifts the later ones down by one, drops the removed path from the map, and keeps the invariant |
| Playlist.WithoutMap | Aural/Playlist.swift:63-69 | the path map of the shortened sequence is the old map minus the removed path, so the two removals in `removeTrack` agree |
| Playlist.RemoveTracks | Aural/Playlist.swift:71-80 | removing a set of distinct in-range indexes, highest first, leaves exactly the tracks at unselected positions, in their old order, and keeps the invariant |
| Playlist.RemoveAbove | Aural/Playlist.swift:71-80 | the descending removal loop, after handling every selected index at or above k, leaves the tracks not selected at or above k, and keeps the invariant |
| Playlist.RemoveBelowDropped | Aural/Playlist.swift:71-80 | removing a position below every position already removed acts on the survivors at that same position; this is why removing from the highest index down is correct |
| Playlist.Clear | Aural/Playlist.swift:91-94 | clearing leaves no tracks and an empty path map, which is valid |
| Playlist.IndexOfTrack | Aural/Playlist.swift:82-89 | a missing track gives no index; an index that comes back holds the track and is its first occurrence; no index means the track is not stored |
| Playlist.IndexOfStoredTrack | Aural/Playlist.swift:82-89 | in a valid store, looking up the track at position i gives back i |
| Playlist.PersistentState | Aural/Playlist.swift:336-345 | the saved state lists the track paths in playlist order; for a valid store they are distinct and are exactly the keys of the path map |
| Playlist.ReorderTracks | Aural/Playlist.swift:318-333 | running a reorder program keeps the length, and every slot no operation writes keeps its track |
| Playlist.ApplyOp | Aural/Playlist.swift:324-331 | one operation writes its destination slot with the copied slot's track (copy) or the given track (overwrite), and every other slot is kept |
| Playlist.ReorderSnoc | Aural/Playlist.swift:321-332 | the operations run in sequence: running one more operation is applying it to the result of the ones before |
| Playlist.ReorderSplit | Aural/Playlist.swift:321-332 | a program runs as its first operations followed by the rest |
| Playlist.ReorderLastWrite | Aural/Playlist.swift:321-332 | the last operation writing a slot decides it: an overwrite leaves its track there, and a copy leaves what its source slot held just before it ran |
| Playlist.ReorderProvenance | Aural/Playlist.swift:318-333 | after a reorder program every slot holds a track that was in the playlist or one written by an `Overwrite` operation |
| Playlist.PermutationKeepsValid | Aural/Playlist.swift:318-333 | a reorder that ends in a permutation of the tracks leaves the store valid, although it never touches the path map |
| PlaylistMoves.Swap | Aural/Playlist.swift:178-180 | swapping exchanges the two tracks, leaves every other position alone and keeps the multiset of tracks |
| PlaylistMoves.MoveTracksUp | Aural/Playlist.swift:101-142 | selected tracks in the block at the top stay put; every other selected track moves up one place past its unselected neighbour; the path map is unchanged, the tracks are permuted, the invariant is kept, and the returned mapping sends each selected index to its new index |
| PlaylistMoves.RaiseSelected | Aural/Playlist.swift:116-142 | the swap loop places each track where `UpTarget` says, permutes the tracks, and records the shift of every selected index |
| PlaylistMoves.RunLenShape | Aural/Playlist.swift:122-130 | the unmovable top block is the longest run of selected indexes starting at 0 |
| PlaylistMoves.MoveTracksDown | Aural/Playlist.swift:144-175 | the mirror image of moving up: selected tracks in the block at the bottom stay put, every other selected track moves down one place, and the mapping sends each selected index to its new index |
| PlaylistMoves.LowerSelected | Aural/Playlist.swift:144-175 | the descending swap loop places each track where `DownTarget` says, permutes the tracks, and records the shift of every selected index |
| PlaylistMoves.DownUndoesUp | Aural/Playlist.swift:116-175 | when the first track is not selected, moving down the moved-up positions sends every position back where it started |
| PlaylistMoves.MoveUpThenDown | Aural/Playlist.swift:116-175 | moving a selection without index 0 up and then moving the resulting indexes down restores the playlist |
| PlaylistSearch.ScanPrefix | Aural/Playlist.swift:260-278 | the character scan answers "begins with" exactly when the query is a prefix |
| PlaylistSearch.ScanSuffix | Aural/Playlist.swift:260-278 | the character scan answers "ends with" exactly when the query is a suffix |
| PlaylistSearch.ScanFrom | Aural/Playlist.swift:260-278 | the character scan answers "contains" exactly when the query occurs at some position |
| PlaylistSearch.Compare | Aural/Playlist.swift:260-278 | for each of the four search types, a value matches exactly when, after folding case for case-insensitive queries, it begins with, ends with, equals or contains the query text |
| PlaylistSearch.CompareIgnoresCase | Aural/Playlist.swift:260-278 | a case-insensitive comparison gives the same answer when either the value or the query is lower-cased beforehand |
| PlaylistSearch.TrackMatchSpec | Aural/Playlist.swift:202-258 | a track matches exactly when one of the fields the query selects matches, and the reported field is the first matching one in the fixed order: file name, display name, artist, title, album |
| PlaylistSearch.FirstMatchAppend | Aural/Playlist.swift:202-258 | looking through two groups of fields in turn finds the first group's match if there is one, and otherwise the second's |
| PlaylistSearch.Search | Aural/Playlist.swift:182-199 | results are numbered from 1 in order, refer to tracks in increasing playlist order, each carries the match its track produces, and every matching track appears |
| PlaylistSort.NotBeforeTrans | Aural/Playlist.swift:302-316 | each of the four comparators is a strict weak order, so "need not come after" is transitive |
| PlaylistSort.InsertionSortCorrect | Aural/Playlist.swift:280-298 | the sort result is ordered under the chosen comparator and is a permutation of its input |
| PlaylistSort.Sort | Aural/Playlist.swift:280-316 | sorting keeps the path map and the multiset of tracks and the invariant, and orders tracks by name or duration, ascending or descending, as the sort request asks |
| GroupingView.ItemAt | Aural/GroupingPlaylistViewController.swift:351-418 | each visible row is either a group's own row or, for an expanded group, the row of one of its tracks, at the position the outline layout gives it |
| GroupingView.GetInvertedSelection | Aural/GroupingPlaylistViewController.swift:351-418 | the walk over groups builds exactly the inverted selection; no row of it was selected and every row is visible |
| GroupingView.AddUnselectedChildren | Aural/GroupingPlaylistViewController.swift:391-399 | adding a group's unselected track rows adds exactly the unselected rows among the group's track rows |
| GroupingView.InvertedWithinGroup | Aural/GroupingPlaylistViewController.swift:351-418 | per group: a selected group contributes nothing; an unselected collapsed group contributes its own row; an unselected expanded group with no selected tracks contributes its own row only; one with selected tracks contributes exactly its unselected track rows |
| GroupingView.InvertedDisjointVisible | Aural/GroupingPlaylistViewController.swift:351-418 | the inverted selection never contains a selected row and only contains visible rows |
| GroupingView.InvertThrice | Aural/GroupingPlaylistViewController.swift:351-418 | inverting three times gives the same rows as inverting once |
| GroupingView.InvertTwiceCounterexample | Aural/GroupingPlaylistViewController.swift:351-418 | with one expanded group of two tracks, selecting the group and its first track inverts to nothing, and inverting that gives the group row alone: inversion is not self-inverse |
| GroupingView.CollectTracksAndGroups | Aural/GroupingPlaylistViewController.swift:111-129 | selected rows are split into ascending track rows and ascending group rows; a selected row lands in the first list exactly when it is a track row and in the second exactly when it is a group row |
| GroupingView.CountGroupsSelected | Aural/GroupingPlaylistViewController.swift:137-147 | the number of selected group rows equals the number of groups exactly when every group row is selected |
| GroupingView.RemoveSelection | Aural/GroupingPlaylistViewController.swift:131-150 | an empty selection removes nothing; a selection holding every group clears the playlist; otherwise exactly the selected rows are removed, passed on as a list of track rows and a list of group rows |
| GroupingView.MoveSelection | Aural/GroupingPlaylistViewController.swift:199-202 | a move is ignored exactly when the selection mixes tracks and groups; otherwise it carries exactly the selected rows, all of one kind, as a list of track rows and a list of group rows |
| GroupingView.CropSelection | Aural/GroupingPlaylistViewController.swift:430-456 | cropping removes exactly the inverted selection, so no selected row is removed; it does nothing when the inversion is empty; it clears the playlist exactly when there are groups and no visible row was selected; otherwise the rows go on as a list of track rows and a list of group rows |
| StringUtils.Rem | Aural/StringUtils.swift:32-34 | Swift's `%` with its `/`: quotient times divisor plus remainder gives back the dividend, and the remainder has the dividend's sign and is smaller than the divisor, which is division truncating toward zero for either sign |
| StringUtils.Pad2Digits | Aural/StringUtils.swift:28-37 | `%02d` of a number below 100 is two digits whose value is that number |
| StringUtils.ClockRoundTrip | Aural/StringUtils.swift:28-37 | for non-negative whole seconds, the clock format parses back to the same number of seconds; it has three fields from one hour up and two below; the minus flag only prepends "-" |
| StringUtils.ClockExamples | Aural/StringUtils.swift:24 | 500 seconds gives "8:20" and 3675 seconds gives "1:01:15", as documented |
| StringUtils.MinSecRoundTrip | Aural/StringUtils.swift:39-46 | the minutes-and-seconds phrase lists a "min" part only when there is a whole minute and a "sec" part only when needed, and reading the phrase back gives the duration |
| StringUtils.MinSecExamples | Aural/StringUtils.swift:39 | 500 gives "8 min 20 sec", 120 gives "2 min" and 36 gives "36 sec", as documented |
| StringUtils.HrMinSecRoundTrip | Aural/StringUtils.swift:48-80 | the words of the hours, minutes and seconds phrase are the expected parts, reading the phrase back gives the duration, and the phrase is empty exactly for zero seconds |
| StringUtils.HrMinSecEmpty | Aural/StringUtils.swift:61-67 | only a zero duration gives the empty text, because the seconds part is dropped when there are no seconds |
| StringUtils.HrMinSecTrailingSpace | Aural/StringUtils.swift:48-80 | as written, 120 seconds gives "2 min " and 3600 gives "1 hr ", with a trailing space |
| StringUtils.HrMinSecTrimmedCorrect | Aural/StringUtils.swift:48-80 | the corrected format has the same words, reads back to the duration and never ends in a space |
| StringUtils.HrMinSecTrimmedExamples | Aural/StringUtils.swift:48 | the corrected format gives "8 min 20 sec", "2 min" and "36 sec" for 500, 120 and 36 |
| StringUtils.SplitCamelCaseWordLayout | Aural/StringUtils.swift:82-121 | for either value of the flag: the first character is lower-cased if it is a capital and the flag is off, and capitalised otherwise; every later character keeps its place in order, shifted right by one for each earlier later capital, with a space just before each later capital, and capitals are lower-cased when the flag is off; the length is the word's plus one per later capital |
| StringUtils.SplitCamelCaseWordSpaces | Aural/StringUtils.swift:82-121 | for either value of the flag, dropping the spaces of the split gives back the word with the first character treated as above and, with the flag off, the rest lower-cased; the split does not start with a space, and every space is followed by a capital (flag on) or by a lower-case letter (flag off) |
| StringUtils.SplitCamelExample | Aural/StringUtils.swift:82-121 | "albumName" splits into "Album Name" |
| StringUtils.CamelCaseShape | Aural/StringUtils.swift:123-155 | the camel-case form has no spaces, one character for each non-space input character, and does not start with a capital |
| StringUtils.CamelCaseOfSplit | Aural/StringUtils.swift:82-155 | joining the capitalised split of a word that starts in lower case gives back the word |
| StringUtils.CamelCaseExample | Aural/StringUtils.swift:123-155 | "Medium hall" becomes "mediumHall" |
| StringUtils.CamelCaseLeadingSpace | Aural/StringUtils.swift:123-155 | as written, " ab" becomes "aB" while "ab" stays "ab" |
| StringUtils.CamelCaseFixedCorrect | Aural/StringUtils.swift:123-155 | the corrected conversion ignores leading spaces |
| StringUtils.CamelCaseFixedAgrees | Aural/StringUtils.swift:123-155 | the corrected conversion agrees with the original on every input that does not start with a space |
| StringUtils.CamelCaseFixedWords | Aural/StringUtils.swift:123-155 | on every text, the corrected conversion is the space-separated words run together, the first with its first letter lower-cased and each later one with its first letter upper-cased |
| StringUtils.CamelFixedJoinsWords | Aural/StringUtils.swift:123-155 | once a first letter has been written, each further word contributes itself with its first letter upper-cased |
| StringUtils.CamelCaseWords | Aural/StringUtils.swift:123-155 | on every text that does not start with a space, the conversion as written is that word-based reading |
| StringUtils.ReadableIsGrouped | Aural/StringUtils.swift:157-176 | the character loop that inserts a comma before each group of three digits counted from the right equals a grouping defined from the right end |
| StringUtils.Group3Digits | Aural/StringUtils.swift:157-176 | grouping a numeral keeps its digits (removing the commas gives it back), keeps its first and last digit, and puts each comma between two digits |
| StringUtils.ReadableLongIntegerNonNegative | Aural/StringUtils.swift:157-176 | for a non-negative number, removing the commas gives back its decimal numeral, and every comma sits between two digits |
| StringUtils.ReadableExample | Aural/StringUtils.swift:157-176 | 15700900 becomes "15,700,900" |
| StringUtils.ReadableNegativeComma | Aural/StringUtils.swift:157-176 | as written, -123 becomes "-,123", with a comma next to the sign |
| StringUtils.ReadableSignedCorrect | Aural/StringUtils.swift:157-176 | the corrected form of any 64-bit number loses nothing but the commas, and every comma sits between two digits |
| StringUtils.TrimShape | Aural/StringUtils.swift:188-192 | the result is a contiguous stretch of the input with only white space cut from either end; it has no white space at either end and is empty exactly when the input was all white space |
| StringUtils.IsStringEmptySpec | Aural/StringUtils.swift:178-186 | a string counts as empty exactly when it is missing or consists only of white space and newlines |
| TimePresets.RawValueInjective | Aural/TimePresets.swift:87-102 | distinct system presets have distinct display names |
| TimePresets.AllValuesComplete | Aural/TimePresets.swift:104 | the list of all system presets holds every one of them |
| TimePresets.FindByName | Aural/TimePresets.swift:107-109 | a preset is found only if it is in the list and has the name; nothing is found only if no listed preset has it |
| TimePresets.FromDisplayNameSpec | Aural/TimePresets.swift:107-109 | looking up a preset's display name gives that preset; an unknown name gives the Normal preset |
| TimePresets.InitialPresetsKeys | Aural/TimePresets.swift:5-13 | the initial map holds exactly the system presets' display names, each mapping to that preset's record with its rate, the 8.0 overlap and pitch shift on |
| TimePresets.InitialPresetsSpec | Aural/TimePresets.swift:5-13 | every initial preset is system defined, each is stored under its own name, and "Normal (1x)" is present |
| TimePresets.InitialPresetsCount | Aural/TimePresets.swift:5-13 | the initial map holds eleven presets |
| TimePresets.RegisterCount | Aural/TimePresets.swift:5-13 | registering distinct presets whose names are new adds one entry each |
| TimePresets.UserDefinedPresets | Aural/TimePresets.swift:15-17 | the user-defined view holds exactly the entries not defined by the system, unchanged |
| TimePresets.SystemDefinedPresets | Aural/TimePresets.swift:19-21 | the system-defined view holds exactly the system entries, unchanged |
| TimePresets.ViewsPartition | Aural/TimePresets.swift:15-21 | the two views split the map: disjoint, together all keys, and their counts add up to the size |
| TimePresets.CountUserDefinedPresets | Aural/TimePresets.swift:45-47 | the count is the number of entries not defined by the system |
| TimePresets.InitialHasNoUserPresets | Aural/TimePresets.swift:5-13 | the initial map holds no user-defined preset |
| TimePresets.DefaultPreset | Aural/TimePresets.swift:23-25 | the default preset is the entry stored under "Normal (1x)", and in a map keyed by name it carries that name |
| TimePresets.PresetByName | Aural/TimePresets.swift:27-29 | a stored name gives its preset; an unknown name falls back to the default preset |
| TimePresets.DefaultIsNormal | Aural/TimePresets.swift:23-29 | in the initial map, the default and the fallback for any unknown name are the Normal system preset |
| TimePresets.LoadKeys | Aural/TimePresets.swift:31-33 | loading user presets adds exactly their names to the keys and keeps every preset under its own name |
| TimePresets.LoadLastWins | Aural/TimePresets.swift:31-33 | when two loaded presets share a name, the one loaded last is stored |
| TimePresets.LoadKeepsOthers | Aural/TimePresets.swift:31-33 | an entry whose name no loaded preset uses is untouched |
| TimePresets.AddUserDefinedPreset | Aural/TimePresets.swift:35-39 | after adding, a preset with the name exists and holds the given settings, marked user defined; no other entry changes |
| TimePresets.AddCountsOne | Aural/TimePresets.swift:35-39 | adding a new name raises the user-defined count by one |
| TimePresets.DeleteSpec | Aural/TimePresets.swift:49-54 | deleting a list of names leaves exactly the entries whose names are not in the list |
| TimePresets.DeleteEffect | Aural/TimePresets.swift:49-54 | after deleting, no deleted name exists, every other name is present as before with its old preset |
| TimePresets.AddThenDelete | Aural/TimePresets.swift:35-54 | adding a preset under a new name and then deleting that name gives back the original map |
| TimePresets.RenamePreset | Aural/TimePresets.swift:56-66 | renaming an absent preset changes nothing; otherwise the preset moves to the new name with its name field updated, the old name disappears, and every other entry is untouched |
| TimePresets.RenameBack | Aural/TimePresets.swift:56-66 | renaming a preset to an unused name and back restores the map |
| TimePresets.RenameKeepsCount | Aural/TimePresets.swift:56-66 | renaming to an unused name keeps the number of user-defined presets |

## Left out

- Reading and writing playlist files, reading track metadata, and the AppKit
  views, notifications and message passing are not modelled. Track metadata
  (artist, title, album, duration) is an input field of `Playlist.Track`.
- `formatTrackTimes`, `totalDuration` and the `Double` rounding in
  `formatSecondsToHMS` are not modelled. The duration formats take whole,
  non-negative seconds.
- `numberOfLines` is not modelled, because it measures text with a font.
- `StringUtils.IsStringEmptySpec`: "white space and newlines" is the fixed set
  of Unicode White_Space code points. There is no grapheme clustering.
- `PlaylistSearch.Compare`: case folding is ASCII only. Swift's `lowercased()`
  also maps non-ASCII letters.
- `PlaylistSearch.Compare`: strings are compared code point by code point,
  with no Unicode canonical equivalence and no grapheme clusters. Swift's
  `hasPrefix`, `hasSuffix`, `==` and `contains` compare characters up to
  canonical equivalence, so they can differ: "e\u{301}" equals "\u{E9}" in
  Swift but not here, and "e\u{301}x" does not begin with "e" in Swift but
  does here.
- `PlaylistSearch.Compare`: an empty query matches every value in the
  begins-with, ends-with and contains modes (with equals it matches only an
  empty value). Foundation's own answer for an empty search string is not
  modelled.
- `Playlist.IndexOfTrack`: tracks are compared as whole records (every
  field equal). The Swift code compares with `Track`'s `==`, which is not
  part of this model; if it compared by identity or by path alone, a record
  that shares a stored path but differs in some other field would be found
  by Swift and reported absent here. In a valid store no two tracks share a
  path, so a stored track is always found (`Playlist.IndexOfStoredTrack`).
- `PlaylistSort.Sort`: names are compared by character code. Swift's string
  comparison on Unicode canonical equivalence is not modelled.
- `PlaylistSort.Sort`: the order of tracks that compare equal is not stated,
  because the Swift sort is not stable.
- `StringUtils.SplitCamelCaseWordSpaces`, `StringUtils.SplitCamelCaseWordLayout`
  and `StringUtils.CamelCaseShape`: capitalisation is ASCII only, where
  Swift's `capitalized`, `uppercased` and `lowercased` follow Unicode.
- `Playlist.RemoveTracks` requires distinct, in-range indexes. The callers
  pass selected rows, and an out-of-range index makes the Swift code trap.
- `PlaylistMoves.MoveTracksUp` and `PlaylistMoves.MoveTracksDown` take the
  selection as a set. The Swift code sorts its index array first, so
  duplicates and order have no effect.
- `PlaylistSearch.Search` requires a non-empty playlist, because the Swift
  loop `0...size-1` traps on an empty one.
- `TimePresets.PresetByName` requires that the name or "Normal (1x)" is
  stored. The Swift fallback recurses on the default name and never ends
  otherwise.
- `TimePresets.AddUserDefinedPreset` overwrites an existing entry with the
  same name. The Swift callers check `presetWithNameExists` first, and the
  overwrite is what the dictionary assignment does.
- Time-stretch rates and overlaps are integers in hundredths, not
  floating-point numbers.
- `EffectsUnitState` is not defined in the modelled files. It is an opaque
  datatype here.
- The grouped playlist's own operations behind the view controller are not
  modelled: adding to groups, removing from groups and moving within groups.
  The view logic works on an outline of group sizes and expanded flags.
- `TimePresets.RenamePreset`: presets are values. In the Swift code a
  `TimePreset` is a class and the rename sets `name` on the shared object,
  so every holder of that object (an array returned by
  `userDefinedPresets`, say) sees the new name; that aliasing is not
  modelled.
- `GroupingView.MoveSelection` models the guard shared by the four move
  actions (up, down, to top, to bottom). The moves it guards belong to the
  grouped playlist, which is not part of this model.

## Findings

| source | as written | input that shows it | evidently intended | confidence | as-written member | corrected member |
|---|---|---|---|---|---|---|
| Aural/StringUtils.swift:48-80 | the hours and minutes parts always end in a space, even when no later part follows | 120 gives "2 min " and 3600 gives "1 hr " | "2 min" and "1 hr", as in the documented examples | not executed | StringUtils.HrMinSecTrailingSpace | StringUtils.HrMinSecTrimmedCorrect |
| Aural/StringUtils.swift:123-155 | a leading space sets the word-start flag; the first letter is lower-cased without clearing the flag, so the second letter is capitalised | " ab" gives "aB" | "ab", the same as for "ab" | not executed | StringUtils.CamelCaseLeadingSpace | StringUtils.CamelCaseFixedCorrect |
| Aural/StringUtils.swift:157-176 | the grouping loop counts the minus sign as a digit | -123 gives "-,123" | "-123" | not executed | StringUtils.ReadableNegativeComma | StringUtils.ReadableSignedCorrect |

=== FILE: grouping_view.dfy ===
/** The grouped playlist view seen as an outline: a list of groups, each
    with a number of tracks and an `expanded` flag. Each group takes one row,
    followed by one row per track when it is expanded. This module models
    the view controller's pure logic over that outline: inverting a
    selection of rows, splitting selected rows into tracks and groups, and
    the guards in front of removing, moving and cropping. */
module GroupingView {

  datatype Group = Group(size: nat, expanded: bool)

  /** What sits at a row: a group, or track `t` of group `g`. */
  datatype Item = GroupRow(g: int) | TrackRow(g: int, t: int)

  /** Groups are never empty. */
  predicate NonEmptyGroups(groups: seq<Group>) {
    forall i :: 0 <= i < |groups| ==> groups[i].size >= 1
  }

  /** The rows a group takes in the view. */
  function Span(g: Group): (r: nat)
    ensures r >= 1
  {
    if g.expanded then 1 + g.size else 1
  }

  /** The row of group `i`. */
  function RowOf(groups: seq<Group>, i: int): nat
    requires 0 <= i <= |groups|
    decreases i
  {
    if i == 0 then 0 else RowOf(groups, i - 1) + Span(groups[i - 1])
  }

  function NumRows(groups: seq<Group>): nat {
    RowOf(groups, |groups|)
  }

  /** The number of tracks in the groups before group `i`. */
  function TracksBefore(groups: seq<Group>, i: int): nat
    requires 0 <= i <= |groups|
    decreases i
  {
    if i == 0 then 0 else TracksBefore(groups, i - 1) + groups[i - 1].size
  }

  /** Later groups sit on later rows. */
  lemma {:induction false} RowOfMono(groups: seq<Group>, i: int, j: int)
    requires 0 <= i <= j <= |groups|
    ensures RowOf(groups, i) + (j - i) <= RowOf(groups, j)
    ensures j > i ==> RowOf(groups, i) + Span(groups[i]) <= RowOf(groups, j)
    decreases j
  {
    if i < j {
      RowOfMono(groups, i, j - 1);
    }
  }

  /** With no empty group, every group adds to the track count. */
  lemma {:induction false} TracksBeforeMono(groups: seq<Group>, i: int, j: int)
    requires NonEmptyGroups(groups)
    requires 0 <= i <= j <= |groups|
    ensures TracksBefore(groups, i) + (j - i) <= TracksBefore(groups, j)
    decreases j
  {
    if i < j {
      TracksBeforeMono(groups, i, j - 1);
    }
  }

  /** Finds the item at `row`, searching from group `i` on. */
  function Locate(groups: seq<Group>, row: int, i: int): (r: Item)
    requires 0 <= i <= |groups| && RowOf(groups, i) <= row < NumRows(groups)
    ensures r.GroupRow? ==> i <= r.g < |groups| && row == RowOf(groups, r.g)
    ensures r.TrackRow? ==>
      (i <= r.g < |groups| && groups[r.g].expanded && 0 <= r.t < groups[r.g].size
       && row == RowOf(groups, r.g) + 1 + r.t)
    decreases |groups| - i
  {
    if row == RowOf(groups, i) then GroupRow(i)
    else if row < RowOf(groups, i + 1) then TrackRow(i, row - RowOf(groups, i) - 1)
    else Locate(groups, row, i + 1)
  }

  /** The item the view shows at `row`. */
  function ItemAt(groups: seq<Group>, row: int): (r: Item)
    requires 0 <= row < NumRows(groups)
    ensures r.GroupRow? ==> 0 <= r.g < |groups| && row == RowOf(groups, r.g)
    ensures r.TrackRow? ==>
      (0 <= r.g < |groups| && groups[r.g].expanded && 0 <= r.t < groups[r.g].size
       && row == RowOf(groups, r.g) + 1 + r.t)
  {
    Locate(groups, row, 0)
  }

  /** Every visible row lies within exactly one group's rows. */
  lemma ItemAtGroup(groups: seq<Group>, row: int)
    requires 0 <= row < NumRows(groups)
    ensures var i := ItemAt(groups, row).g;
      0 <= i < |groups| && RowOf(groups, i) <= row < RowOf(groups, i + 1)
  {
  }

  /** Reading the outline at a group's row gives that group. */
  lemma ItemAtGroupRow(groups: seq<Group>, i: int)
    requires 0 <= i < |groups|
    ensures RowOf(groups, i) < NumRows(groups)
    ensures ItemAt(groups, RowOf(groups, i)) == GroupRow(i)
  {
    RowOfMono(groups, i, |groups|);
    var it := ItemAt(groups, RowOf(groups, i));
    if it.g < i {
      RowOfMono(groups, it.g, i);
    } else if it.g > i {
      RowOfMono(groups, i, it.g);
    }
  }

  // ---------------------------------------------------------------------
  // Selection inversion

  /** Whether some track row of the expanded group at `row` is selected. */
  predicate ChildSelected(g: Group, row: int, sel: set<int>) {
    exists k :: row < k <= row + g.size && k in sel
  }

  /** What the inversion contributes for one group, whose row is `row`: a
      selected group gives nothing; an unselected collapsed group gives its
      own row; an unselected expanded group gives its own row when none of
      its tracks is selected, and otherwise its unselected track rows. */
  function Contribution(g: Group, row: int, sel: set<int>): set<int> {
    if row in sel then {}
    else if !g.expanded then {row}
    else if !ChildSelected(g, row, sel) then {row}
    else set k | row < k <= row + g.size && k !in sel
  }

  /** The inversion built over the first `n` groups. */
  function InvertPrefix(groups: seq<Group>, sel: set<int>, n: int): set<int>
    requires 0 <= n <= |groups|
    decreases n
  {
    if n == 0 then {}
    else InvertPrefix(groups, sel, n - 1) + Contribution(groups[n - 1], RowOf(groups, n - 1), sel)
  }

  function Inverted(groups: seq<Group>, sel: set<int>): set<int> {
    InvertPrefix(groups, sel, |groups|)
  }

  lemma ContributionRange(groups: seq<Group>, sel: set<int>, i: int, x: int)
    requires 0 <= i < |groups|
    requires x in Contribution(groups[i], RowOf(groups, i), sel)
    ensures RowOf(groups, i) <= x < RowOf(groups, i + 1)
  {
  }

  /** The inversion over the first `n` groups lies in their rows. */
  lemma {:induction false} InvertPrefixRange(groups: seq<Group>, sel: set<int>, n: int, x: int)
    requires 0 <= n <= |groups|
    requires x in InvertPrefix(groups, sel, n)
    ensures 0 <= x < RowOf(groups, n)
    decreases n
  {
    if x in InvertPrefix(groups, sel, n - 1) {
      InvertPrefixRange(groups, sel, n - 1, x);
    } else {
      ContributionRange(groups, sel, n - 1, x);
    }
  }

  /** Within the rows of group `i`, the inversion over any prefix that
      includes the group is that group's contribution. */
  lemma {:induction false} InvertPrefixAt(groups: seq<Group>, sel: set<int>, n: int, i: int, x: int)
    requires 0 <= i < n <= |groups|
    requires RowOf(groups, i) <= x < RowOf(groups, i + 1)
    ensures x in InvertPrefix(groups, sel, n) <==> x in Contribution(groups[i], RowOf(groups, i), sel)
    decreases n
  {
    if n == i + 1 {
      if x in InvertPrefix(groups, sel, i) {
        InvertPrefixRange(groups, sel, i, x);
      }
    } else {
      InvertPrefixAt(groups, sel, n - 1, i, x);
      if x in Contribution(groups[n - 1], RowOf(groups, n - 1), sel) {
        ContributionRange(groups, sel, n - 1, x);
        RowOfMono(groups, i + 1, n - 1);
      }
    }
  }

  /** Row `x` of group `i` is in the inversion exactly when the group
      contributes it. */
  lemma InvertedAt(groups: seq<Group>, sel: set<int>, i: int, x: int)
    requires 0 <= i < |groups|
    requires RowOf(groups, i) <= x < RowOf(groups, i + 1)
    ensures x in Inverted(groups, sel) <==> x in Contribution(groups[i], RowOf(groups, i), sel)
  {
    InvertPrefixAt(groups, sel, |groups|, i, x);
  }

  /** The inversion never contains a selected row and only names visible
      rows. */
  lemma InvertedDisjointVisible(groups: seq<Group>, sel: set<int>)
    ensures forall x :: x in Inverted(groups, sel) ==> x !in sel && 0 <= x < NumRows(groups)
  {
    forall x | x in Inverted(groups, sel) ensures x !in sel && 0 <= x < NumRows(groups) {
      InvertPrefixRange(groups, sel, |groups|, x);
      ItemAtGroup(groups, x);
      InvertedAt(groups, sel, ItemAt(groups, x).g, x);
    }
  }

  /** The four cases of the walk, stated over the rows of group `i`. */
  lemma InvertedWithinGroup(groups: seq<Group>, sel: set<int>, i: int)
    requires 0 <= i < |groups|
    ensures var row, g := RowOf(groups, i), groups[i];
      && (row in sel ==> forall x :: row <= x < row + Span(g) ==> x !in Inverted(groups, sel))
      && (row !in sel && !g.expanded ==> row in Inverted(groups, sel) && Span(g) == 1)
      && (row !in sel && g.expanded && !ChildSelected(g, row, sel) ==>
            row in Inverted(groups, sel) && forall x :: row < x <= row + g.size ==> x !in Inverted(groups, sel))
      && (row !in sel && g.expanded && ChildSelected(g, row, sel) ==>
            row !in Inverted(groups, sel) && forall x :: row < x <= row + g.size ==> (x in Inverted(groups, sel) <==> x !in sel))
  {
    var row, g := RowOf(groups, i), groups[i];
    forall x | row <= x < row + Span(g)
      ensures x in Inverted(groups, sel) <==> x in Contribution(g, row, sel)
    {
      InvertedAt(groups, sel, i, x);
    }
  }

  /** Adds the unselected rows among `row + 1 .. row + size`. */
  method AddUnselectedChildren(target: set<int>, sel: set<int>, row: int, size: nat) returns (r: set<int>)
    ensures r == target + set k | row < k <= row + size && k !in sel
  {
    r := target;
    var index := 1;
    while index <= size
      invariant 1 <= index <= size + 1
      invariant r == target + set k | row < k < row + index && k !in sel
    {
      if row + index !in sel {
        r := r + {row + index};
      }
      index := index + 1;
    }
  }

  /** The walk over the outline: the cursor starts at row 0 and always
      sits on a group row; it moves past the group's row and, when the group
      is expanded, past its track rows. The walk stops once it has counted
      `playlistSize` tracks, so it visits every group exactly once provided
      no group is empty and the sizes add up to the playlist size (otherwise
      the Swift walk does not end). */
  method GetInvertedSelection(groups: seq<Group>, sel: set<int>, playlistSize: int) returns (target: set<int>)
    requires NonEmptyGroups(groups) && playlistSize == TracksBefore(groups, |groups|)
    ensures target == Inverted(groups, sel)
    ensures forall x :: x in target ==> x !in sel && 0 <= x < NumRows(groups)
  {
    var curIndex := 0;
    var itemsInspected := 0;
    target := {};
    ghost var gi := 0;
    while itemsInspected < playlistSize
      invariant 0 <= gi <= |groups|
      invariant curIndex == RowOf(groups, gi) && itemsInspected == TracksBefore(groups, gi)
      invariant target == InvertPrefix(groups, sel, gi)
      decreases playlistSize - itemsInspected
    {
      assert gi < |groups|;
      ItemAtGroupRow(groups, gi);
      var item := ItemAt(groups, curIndex);
      var group := groups[item.g];
      var selected := curIndex in sel;
      var expanded := group.expanded;
      if selected {
        if expanded {
          curIndex := curIndex + group.size;
        }
      } else {
        if expanded {
          var childIndexes := set k | k in sel && curIndex < k <= curIndex + group.size;
          if |childIndexes| == 0 {
            assert !ChildSelected(group, curIndex, sel) by {
              forall k | curIndex < k <= curIndex + group.size && k in sel ensures k in childIndexes {
              }
            }
            target := target + {curIndex};
          } else {
            var k :| k in childIndexes;
            assert ChildSelected(group, curIndex, sel);
            target := AddUnselectedChildren(target, sel, curIndex, group.size);
          }
          curIndex := curIndex + group.size;
        } else {
          target := target + {curIndex};
        }
      }
      curIndex := curIndex + 1;
      itemsInspected := itemsInspected + group.size;
      gi := gi + 1;
    }
    if gi < |groups| {
      TracksBeforeMono(groups, gi + 1, |groups|);
    }
    InvertedDisjointVisible(groups, sel);
  }

  // ---------------------------------------------------------------------
  // Inverting twice and three times

  /** A group's contribution depends only on the selection within its rows. */
  lemma ContributionAgree(g: Group, row: int, s: set<int>, t: set<int>)
    requires forall x :: row <= x < row + Span(g) ==> (x in s <==> x in t)
    ensures Contribution(g, row, s) == Contribution(g, row, t)
  {
    if g.expanded {
      assert ChildSelected(g, row, s) ==> ChildSelected(g, row, t);
      assert ChildSelected(g, row, t) ==> ChildSelected(g, row, s);
    }
  }

  /** Within one group, inverting three times is inverting once. */
  lemma ContributionThrice(g: Group, row: int, s: set<int>)
    ensures var c1 := Contribution(g, row, s);
      Contribution(g, row, Contribution(g, row, c1)) == c1
  {
    var c1 := Contribution(g, row, s);
    var c2 := Contribution(g, row, c1);
    if row !in s && g.expanded && ChildSelected(g, row, s) {
      if c1 == {} {
        assert c2 == {row};
      } else {
        var u :| u in c1;
        assert ChildSelected(g, row, c1);
        assert c2 == set k | row < k <= row + g.size && k in s;
        var v :| row < v <= row + g.size && v in s;
        assert v in c2 && v !in c1;
        assert ChildSelected(g, row, c2);
      }
    }
  }

  /** Inside the rows of group `i`, the inversion of any selection behaves
      like that group's contribution when it is inverted again. */
  lemma InvertedThenContribution(groups: seq<Group>, t: set<int>, i: int)
    requires 0 <= i < |groups|
    ensures var row, g := RowOf(groups, i), groups[i];
      Contribution(g, row, Inverted(groups, t)) == Contribution(g, row, Contribution(g, row, t))
  {
    var row, g := RowOf(groups, i), groups[i];
    forall x | row <= x < row + Span(g)
      ensures x in Inverted(groups, t) <==> x in Contribution(g, row, t)
    {
      InvertedAt(groups, t, i, x);
    }
    ContributionAgree(g, row, Inverted(groups, t), Contribution(g, row, t));
  }

  /** Inverting a selection three times gives the same rows as inverting
      it once. (Inverting twice does not in general give back the
      selection: see `InvertTwiceCounterexample`.) */
  lemma InvertThrice(groups: seq<Group>, sel: set<int>)
    ensures Inverted(groups, Inverted(groups, Inverted(groups, sel))) == Inverted(groups, sel)
  {
    var i1 := Inverted(groups, sel);
    var i2 := Inverted(groups, i1);
    var i3 := Inverted(groups, i2);
    forall x ensures x in i3 <==> x in i1 {
      if 0 <= x < NumRows(groups) {
        ItemAtGroup(groups, x);
        var i := ItemAt(groups, x).g;
        var row, g := RowOf(groups, i), groups[i];
        InvertedAt(groups, i2, i, x);
        InvertedAt(groups, sel, i, x);
        InvertedThenContribution(groups, i1, i);
        InvertedThenContribution(groups, sel, i);
        ContributionThrice(g, row, sel);
      } else {
        if x in i3 {
          InvertPrefixRange(groups, i2, |groups|, x);
        }
        if x in i1 {
          InvertPrefixRange(groups, sel, |groups|, x);
        }
      }
    }
  }

  /** One expanded group of two tracks with the group row and its first
      track selected: inverting gives nothing, and inverting that gives
      the group row alone. */
  lemma InvertTwiceCounterexample()
    ensures var groups := [Group(2, true)];
      && Inverted(groups, {0, 1}) == {}
      && Inverted(groups, Inverted(groups, {0, 1})) == {0}
  {
    var groups := [Group(2, true)];
    assert RowOf(groups, 0) == 0;
    assert Inverted(groups, {0, 1}) == Contribution(groups[0], 0, {0, 1});
    assert !ChildSelected(groups[0], 0, {});
    assert Inverted(groups, {}) == Contribution(groups[0], 0, {});
  }

  // ---------------------------------------------------------------------
  // Splitting selected rows into tracks and groups

  predicate IsTrackRow(groups: seq<Group>, r: int) {
    0 <= r < NumRows(groups) && ItemAt(groups, r).TrackRow?
  }

  predicate IsGroupRow(groups: seq<Group>, r: int) {
    0 <= r < NumRows(groups) && ItemAt(groups, r).GroupRow?
  }

  predicate Increasing(s: seq<int>) {
    forall k, l :: 0 <= k < l < |s| ==> s[k] < s[l]
  }

  /** Visits the selected rows in ascending order and files each under
      tracks or groups according to the item at that row. Rows stand for
      the items the view shows there. */
  method CollectTracksAndGroups(groups: seq<Group>, indexes: set<int>)
    returns (tracks: seq<int>, groupRows: seq<int>)
    requires forall r :: r in indexes ==> 0 <= r < NumRows(groups)
    ensures Increasing(tracks) && Increasing(groupRows)
    ensures forall k :: 0 <= k < |tracks| ==> tracks[k] in indexes && IsTrackRow(groups, tracks[k])
    ensures forall k :: 0 <= k < |groupRows| ==> groupRows[k] in indexes && IsGroupRow(groups, groupRows[k])
    ensures forall r :: r in indexes ==> (r in tracks <==> IsTrackRow(groups, r)) && (r in groupRows <==> IsGroupRow(groups, r))
  {
    tracks, groupRows := [], [];
    var row := 0;
    while row < NumRows(groups)
      invariant 0 <= row <= NumRows(groups)
      invariant Increasing(tracks) && Increasing(groupRows)
      invariant forall k :: 0 <= k < |tracks| ==> tracks[k] < row && tracks[k] in indexes && IsTrackRow(groups, tracks[k])
      invariant forall k :: 0 <= k < |groupRows| ==> groupRows[k] < row && groupRows[k] in indexes && IsGroupRow(groups, groupRows[k])
      invariant forall r :: r in indexes && r < row ==> (r in tracks <==> IsTrackRow(groups, r)) && (r in groupRows <==> IsGroupRow(groups, r))
    {
      if row in indexes {
        var item := ItemAt(groups, row);
        if item.TrackRow? {
          tracks := tracks + [row];
        } else {
          groupRows := groupRows + [row];
        }
      }
      row := row + 1;
    }
  }

  // ---------------------------------------------------------------------
  // Counting selected groups

  lemma {:induction false} IncreasingLower(s: seq<int>, k: int)
    requires Increasing(s) && 0 <= k < |s| && forall j :: 0 <= j < |s| ==> s[j] >= 0
    ensures k <= s[k]
    decreases k
  {
    if k > 0 {
      IncreasingLower(s, k - 1);
    }
  }

  lemma {:induction false} IncreasingUpper(s: seq<int>, n: int, k: int)
    requires Increasing(s) && 0 <= k < |s| && forall j :: 0 <= j < |s| ==> s[j] < n
    ensures s[k] <= n - |s| + k
    decreases |s| - k
  {
    if k < |s| - 1 {
      IncreasingUpper(s, n, k + 1);
    }
  }

  predicate Hits(s: seq<int>, v: int) {
    exists j :: 0 <= j < |s| && s[j] == v
  }

  /** A strictly increasing sequence that hits every value below `n`, and
      nothing else, is `0, 1, ..., n - 1`. */
  lemma {:induction false} IncreasingOnto(s: seq<int>, n: int, k: int)
    requires Increasing(s) && forall j :: 0 <= j < |s| ==> 0 <= s[j] < n
    requires forall v :: 0 <= v < n ==> Hits(s, v)
    requires 0 <= k < n
    ensures k < |s| && s[k] == k
    decreases k
  {
    assert Hits(s, k);
    var j :| 0 <= j < |s| && s[j] == k;
    IncreasingLower(s, j);
    if j < k {
      IncreasingOnto(s, n, j);
    }
  }

  /** The groups whose rows `rows` are. */
  function GroupIndexes(groups: seq<Group>, rows: seq<int>): (gs: seq<int>)
    requires forall k :: 0 <= k < |rows| ==> IsGroupRow(groups, rows[k])
    ensures |gs| == |rows|
    ensures forall k :: 0 <= k < |rows| ==> IsGroupRow(groups, rows[k]) && gs[k] == ItemAt(groups, rows[k]).g
  {
    if |rows| == 0 then []
    else
      assert IsGroupRow(groups, rows[|rows| - 1]);
      GroupIndexes(groups, rows[..|rows| - 1]) + [ItemAt(groups, rows[|rows| - 1]).g]
  }

  /** Group rows in increasing order name groups in increasing order. */
  lemma GroupIndexesIncreasing(groups: seq<Group>, rows: seq<int>)
    requires Increasing(rows) && forall k :: 0 <= k < |rows| ==> IsGroupRow(groups, rows[k])
    ensures Increasing(GroupIndexes(groups, rows))
  {
    var gs := GroupIndexes(groups, rows);
    forall k, l | 0 <= k < l < |rows| ensures gs[k] < gs[l] {
      if gs[l] <= gs[k] {
        RowOfMono(groups, gs[l], gs[k]);
      }
    }
  }

  predicate AllGroupsIn(groups: seq<Group>, indexes: set<int>) {
    forall i :: 0 <= i < |groups| ==> RowOf(groups, i) in indexes
  }

  /** The number of selected group rows equals the number of groups exactly
      when every group row is selected. */
  lemma CountGroupsSelected(groups: seq<Group>, indexes: set<int>, groupRows: seq<int>)
    requires forall r :: r in indexes ==> 0 <= r < NumRows(groups)
    requires Increasing(groupRows)
    requires forall k :: 0 <= k < |groupRows| ==> groupRows[k] in indexes && IsGroupRow(groups, groupRows[k])
    requires forall r :: r in indexes ==> (r in groupRows <==> IsGroupRow(groups, r))
    ensures |groupRows| == |groups| <==> AllGroupsIn(groups, indexes)
  {
    var gs := GroupIndexes(groups, groupRows);
    GroupIndexesIncreasing(groups, groupRows);
    if |groupRows| == |groups| {
      forall i | 0 <= i < |groups| ensures RowOf(groups, i) in indexes {
        IncreasingLower(gs, i);
        IncreasingUpper(gs, |groups|, i);
        assert groupRows[i] == RowOf(groups, i);
      }
    }
    if AllGroupsIn(groups, indexes) {
      forall v | 0 <= v < |groups| ensures Hits(gs, v) {
        ItemAtGroupRow(groups, v);
        var j :| 0 <= j < |groupRows| && groupRows[j] == RowOf(groups, v);
        assert gs[j] == v;
      }
      if |groups| > 0 {
        IncreasingOnto(gs, |groups|, |groups| - 1);
        var top := gs[|gs| - 1];
        assert top < |groups|;
        IncreasingLower(gs, |gs| - 1);
      }
    }
  }

  // ---------------------------------------------------------------------
  // Guards in front of removing, moving and cropping

  /** What a removal request turns into: nothing, a clear of the whole
      playlist, or a removal of the given track and group rows. */
  datatype RemoveAction = NothingToRemove | ClearPlaylist | RemoveItems(trackRows: seq<int>, groupRows: seq<int>)

  /** The guard of a removal: nothing selected does nothing, and a selection
      holding as many groups as the playlist has becomes a clear. */
  function RemoveGuard(trackRows: seq<int>, groupRows: seq<int>, numberOfGroups: int): RemoveAction {
    if |groupRows| == 0 && |trackRows| == 0 then NothingToRemove
    else if |groupRows| == numberOfGroups then ClearPlaylist
    else RemoveItems(trackRows, groupRows)
  }

  /** Removing the selected rows: an empty selection does nothing; when
      every group row is selected the playlist is cleared; otherwise the
      selected tracks and groups are removed. */
  method RemoveSelection(groups: seq<Group>, indexes: set<int>) returns (action: RemoveAction)
    requires forall r :: r in indexes ==> 0 <= r < NumRows(groups)
    ensures action == NothingToRemove <==> indexes == {}
    ensures action == ClearPlaylist <==> indexes != {} && AllGroupsIn(groups, indexes)
    ensures action.RemoveItems? ==>
      forall r :: r in indexes <==> r in action.trackRows || r in action.groupRows
    ensures action.RemoveItems? ==>
      (forall r :: r in action.trackRows ==> IsTrackRow(groups, r))
      && (forall r :: r in action.groupRows ==> IsGroupRow(groups, r))
  {
    var tracks, groupRows := CollectTracksAndGroups(groups, indexes);
    action := RemoveGuard(tracks, groupRows, |groups|);
    CountGroupsSelected(groups, indexes, groupRows);
    if |tracks| > 0 {
      assert tracks[0] in indexes;
    }
    if |groupRows| > 0 {
      assert groupRows[0] in indexes;
    }
    if indexes != {} {
      var r :| r in indexes;
      ItemAtGroup(groups, r);
      assert r in tracks || r in groupRows;
    }
  }

  /** What a move request turns into. */
  datatype MoveAction = MoveIgnored | MoveItems(trackRows: seq<int>, groupRows: seq<int>)

  /** The guard shared by moving up, down, to the top and to the bottom: a
      selection mixing tracks and groups is ignored; anything else is passed
      on to the grouped playlist. */
  method MoveSelection(groups: seq<Group>, indexes: set<int>) returns (action: MoveAction)
    requires forall r :: r in indexes ==> 0 <= r < NumRows(groups)
    ensures action == MoveIgnored <==>
      (exists r :: r in indexes && IsTrackRow(groups, r)) && (exists r :: r in indexes && IsGroupRow(groups, r))
    ensures action.MoveItems? ==>
      (forall r :: r in indexes <==> r in action.trackRows || r in action.groupRows)
      && (action.trackRows == [] || action.groupRows == [])
    ensures action.MoveItems? ==>
      (forall r :: r in action.trackRows ==> IsTrackRow(groups, r))
      && (forall r :: r in action.groupRows ==> IsGroupRow(groups, r))
  {
    var tracks, groupRows := CollectTracksAndGroups(groups, indexes);
    if |tracks| > 0 && |groupRows| > 0 {
      assert tracks[0] in indexes && groupRows[0] in indexes;
      return MoveIgnored;
    }
    action := MoveItems(tracks, groupRows);
    forall r | r in indexes ensures r in tracks || r in groupRows {
      ItemAtGroup(groups, r);
    }
  }

  /** Cropping keeps the selection and removes every other row: the
      inverted selection goes through the same guard as a removal. The
      playlist is cleared exactly when there are groups and no visible row
      was selected. */
  method CropSelection(groups: seq<Group>, sel: set<int>, playlistSize: int) returns (action: RemoveAction)
    requires NonEmptyGroups(groups) && playlistSize == TracksBefore(groups, |groups|)
    ensures action == NothingToRemove <==> Inverted(groups, sel) == {}
    ensures action == ClearPlaylist <==>
      |groups| > 0 && forall x :: 0 <= x < NumRows(groups) ==> x !in sel
    ensures action.RemoveItems? ==>
      forall r :: r in Inverted(groups, sel) <==> r in action.trackRows || r in action.groupRows
    ensures action.RemoveItems? ==>
      forall r :: r in action.trackRows || r in action.groupRows ==> r !in sel
    ensures action.RemoveItems? ==>
      (forall r :: r in action.trackRows ==> IsTrackRow(groups, r))
      && (forall r :: r in action.groupRows ==> IsGroupRow(groups, r))
  {
    var toDelete := GetInvertedSelection(groups, sel, playlistSize);
    if |toDelete| > 0 {
      action := RemoveSelection(groups, toDelete);
      if action == ClearPlaylist {
        CropClearLeavesNothingSelected(groups, sel);
        var x :| x in toDelete;
        assert x < NumRows(groups);
      } else {
        NothingSelectedInvertsAllGroups(groups, sel);
      }
    } else {
      action := NothingToRemove;
      NothingSelectedInvertsAllGroups(groups, sel);
    }
  }

  /** If the inversion holds every group row, nothing visible was
      selected. */
  lemma CropClearLeavesNothingSelected(groups: seq<Group>, sel: set<int>)
    requires AllGroupsIn(groups, Inverted(groups, sel))
    ensures forall x :: 0 <= x < NumRows(groups) ==> x !in sel
  {
    forall x | 0 <= x < NumRows(groups) ensures x !in sel {
      ItemAtGroup(groups, x);
      var i := ItemAt(groups, x).g;
      InvertedWithinGroup(groups, sel, i);
    }
  }

  /** With nothing visible selected, the inversion holds every group row:
      each group is unselected and, when expanded, has no selected track. */
  lemma NothingSelectedInvertsAllGroups(groups: seq<Group>, sel: set<int>)
    ensures (forall x :: 0 <= x < NumRows(groups) ==> x !in sel) ==>
      AllGroupsIn(groups, Inverted(groups, sel))
  {
    if forall x :: 0 <= x < NumRows(groups) ==> x !in sel {
      forall i | 0 <= i < |groups| ensures RowOf(groups, i) in Inverted(groups, sel) {
        var row, g := RowOf(groups, i), groups[i];
        ItemAtGroupRow(groups, i);
        RowOfMono(groups, i, |groups|);
        InvertedWithinGroup(groups, sel, i);
        if g.expanded {
          assert !ChildSelected(g, row, sel);
        }
      }
    }
  }
}

=== FILE: playlist.dfy ===
/** The flat playlist store: an ordered sequence of tracks together with a
    map from file path to track that is used to reject duplicate paths.
    The invariant `Valid` says the map is exactly the one built from the
    sequence and that no two tracks share a path. */
module Playlist {
  import opened Text

  /** One media item. `fileName` is the last path component without its
      extension; `displayName` is the concise display name. Durations are
      whole seconds. The optional fields are metadata read elsewhere. */
  datatype Track = Track(
    path: string,
    fileName: string,
    displayName: string,
    duration: int,
    artist: Option<string>,
    title: Option<string>,
    album: Option<string>)

  datatype Playlist = Playlist(tracks: seq<Track>, byPath: map<string, Track>)

  /** The store after an add, and the index the new track got (-1 when the
      track was refused). */
  datatype Added = Added(playlist: Playlist, index: int)

  /** A track paired with its index, as `peekTrackAt` returns it. */
  datatype IndexedTrack = IndexedTrack(track: Track, index: int)

  predicate DistinctPaths(s: seq<Track>) {
    forall i, j :: 0 <= i < j < |s| ==> s[i].path != s[j].path
  }

  function Paths(s: seq<Track>): set<string> {
    set i | 0 <= i < |s| :: s[i].path
  }

  /** The path map that adding the tracks of `s` one by one produces. */
  function MapOf(s: seq<Track>): map<string, Track>
    decreases |s|
  {
    if |s| == 0 then map[] else MapOf(s[..|s| - 1])[s[|s| - 1].path := s[|s| - 1]]
  }

  /** The store invariant: paths are unique and the path map holds exactly
      the tracks of the sequence, each under its own path. */
  predicate Valid(p: Playlist) {
    DistinctPaths(p.tracks) && p.byPath == MapOf(p.tracks)
  }

  /** The map is keyed by exactly the paths of the sequence. */
  lemma {:induction false} MapOfKeys(s: seq<Track>)
    ensures MapOf(s).Keys == Paths(s)
    decreases |s|
  {
    if |s| > 0 {
      var init := s[..|s| - 1];
      MapOfKeys(init);
      PathsAppend(init, s[|s| - 1]);
      assert init + [s[|s| - 1]] == s;
    }
  }

  /** With unique paths, every track is stored under its own path. */
  lemma {:induction false} MapOfContents(s: seq<Track>)
    requires DistinctPaths(s)
    ensures MapOf(s).Keys == Paths(s)
    ensures forall i :: 0 <= i < |s| ==> s[i].path in MapOf(s) && MapOf(s)[s[i].path] == s[i]
    decreases |s|
  {
    MapOfKeys(s);
    if |s| > 0 {
      var init := s[..|s| - 1];
      var last := s[|s| - 1];
      MapOfContents(init);
      forall i | 0 <= i < |s| ensures MapOf(s)[s[i].path] == s[i] {
        if i < |s| - 1 {
          assert s[i].path != last.path && init[i] == s[i];
        }
      }
    }
  }

  /** Two duplicate-free sequences with the same tracks build the same map. */
  lemma MapOfSameTracks(s: seq<Track>, t: seq<Track>)
    requires DistinctPaths(s) && DistinctPaths(t)
    requires forall x :: x in s <==> x in t
    ensures MapOf(s) == MapOf(t)
  {
    MapOfContents(s);
    MapOfContents(t);
    forall x | x in Paths(s) ensures x in Paths(t) {
      var i :| 0 <= i < |s| && s[i].path == x;
      assert s[i] in t;
      var j :| 0 <= j < |t| && t[j] == s[i];
    }
    forall x | x in Paths(t) ensures x in Paths(s) {
      var j :| 0 <= j < |t| && t[j].path == x;
      assert t[j] in s;
      var i :| 0 <= i < |s| && s[i] == t[j];
    }
    forall x | x in MapOf(s) ensures MapOf(s)[x] == MapOf(t)[x] {
      var i :| 0 <= i < |s| && s[i].path == x;
      assert s[i] in t;
      var j :| 0 <= j < |t| && t[j] == s[i];
    }
  }

  lemma PathsAppend(s: seq<Track>, t: Track)
    ensures Paths(s + [t]) == Paths(s) + {t.path}
  {
    var q := s + [t];
    forall x | x in Paths(q) ensures x in Paths(s) + {t.path} {
      var i :| 0 <= i < |q| && q[i].path == x;
      if i < |s| {
        assert s[i].path == x;
      }
    }
    forall x | x in Paths(s) ensures x in Paths(q) {
      var i :| 0 <= i < |s| && s[i].path == x;
      assert q[i].path == x;
    }
    assert q[|s|].path == t.path;
  }

  function Empty(): (p: Playlist)
    ensures Valid(p) && |p.tracks| == 0
  {
    Playlist([], map[])
  }

  function Size(p: Playlist): nat {
    |p.tracks|
  }

  /** The track at `index`, or nothing when the index is absent or out of range. */
  function PeekTrackAt(p: Playlist, index: Option<int>): (r: Option<IndexedTrack>)
    ensures r.Some? <==> index.Some? && 0 <= index.value < |p.tracks|
    ensures r.Some? ==> r.value.index == index.value && r.value.track == p.tracks[index.value]
  {
    if index.None? || index.value < 0 || index.value >= |p.tracks| then None
    else Some(IndexedTrack(p.tracks[index.value], index.value))
  }

  predicate TrackExists(p: Playlist, t: Track) {
    t.path in p.byPath
  }

  /** Appends a track whose path is new and returns its index; a track whose
      path is already present is refused with -1 and nothing changes. */
  function AddTrack(p: Playlist, t: Track): (r: Added)
    ensures Valid(p) ==> Valid(r.playlist)
    ensures Valid(p) ==> (r.index == -1 <==> exists i :: 0 <= i < |p.tracks| && p.tracks[i].path == t.path)
    ensures r.index == -1 ==> r.playlist == p
    ensures r.index != -1 ==>
      && r.index == |p.tracks| && |r.playlist.tracks| == r.index + 1
      && r.playlist.tracks[r.index] == t && r.playlist.tracks[..r.index] == p.tracks
    ensures r.index != -1 ==> r.playlist.byPath.Keys == p.byPath.Keys + {t.path}
  {
    if TrackExists(p, t) then
      TrackExistsAgrees(p, t);
      Added(p, -1)
    else
      var q := Playlist(p.tracks + [t], p.byPath[t.path := t]);
      AppendFreshKeepsValid(p, t);
      assert q.tracks[..|p.tracks|] == p.tracks;
      Added(q, |p.tracks|)
  }

  /** In a valid store, `trackExists` (a look-up in the path map) agrees
      with a scan of the track sequence. */
  lemma TrackExistsAgrees(p: Playlist, t: Track)
    ensures Valid(p) ==> (TrackExists(p, t) <==> exists i :: 0 <= i < |p.tracks| && p.tracks[i].path == t.path)
  {
    if Valid(p) {
      MapOfContents(p.tracks);
    }
  }

  lemma AppendFreshKeepsValid(p: Playlist, t: Track)
    requires t.path !in p.byPath
    ensures Valid(p) ==> Valid(Playlist(p.tracks + [t], p.byPath[t.path := t]))
    ensures Valid(p) ==> forall i :: 0 <= i < |p.tracks| ==> p.tracks[i].path != t.path
  {
    if Valid(p) {
      MapOfContents(p.tracks);
      assert (p.tracks + [t])[..|p.tracks|] == p.tracks;
    }
  }

  /** Adds tracks one after another, as a load does, dropping any whose path
      is already present. */
  function AddTracks(p: Playlist, ts: seq<Track>): Playlist
    decreases |ts|
  {
    if |ts| == 0 then p else AddTracks(AddTrack(p, ts[0]).playlist, ts[1..])
  }

  lemma {:induction false} DistinctPathsCount(s: seq<Track>)
    requires DistinctPaths(s)
    ensures |Paths(s)| == |s|
  {
    if |s| > 0 {
      var init := s[..|s| - 1];
      DistinctPathsCount(init);
      PathsAppend(init, s[|s| - 1]);
      assert init + [s[|s| - 1]] == s;
      assert s[|s| - 1].path !in Paths(init);
    }
  }

  lemma PathsCons(ts: seq<Track>)
    requires |ts| > 0
    ensures Paths(ts) == {ts[0].path} + Paths(ts[1..])
  {
    forall x | x in Paths(ts) ensures x in {ts[0].path} + Paths(ts[1..]) {
      var i :| 0 <= i < |ts| && ts[i].path == x;
      if i > 0 {
        assert ts[1..][i - 1].path == x;
      }
    }
    forall x | x in Paths(ts[1..]) ensures x in Paths(ts) {
      var i :| 0 <= i < |ts[1..]| && ts[1..][i].path == x;
      assert ts[i + 1].path == x;
    }
    assert ts[0].path in Paths(ts);
  }

  /** Loading a list of tracks into a valid store keeps the store valid. */
  lemma {:induction false} AddTracksKeepsValid(p: Playlist, ts: seq<Track>)
    requires Valid(p)
    ensures Valid(AddTracks(p, ts))
    decreases |ts|
  {
    if |ts| > 0 {
      AddTracksKeepsValid(AddTrack(p, ts[0]).playlist, ts[1..]);
    }
  }

  /** A load leaves the tracks already there in place, in front. */
  lemma {:induction false} AddTracksKeepsPrefix(p: Playlist, ts: seq<Track>)
    ensures |AddTracks(p, ts).tracks| >= |p.tracks|
    ensures AddTracks(p, ts).tracks[..|p.tracks|] == p.tracks
    decreases |ts|
  {
    if |ts| > 0 {
      var q := AddTrack(p, ts[0]).playlist;
      AddTracksKeepsPrefix(q, ts[1..]);
      var r := AddTracks(q, ts[1..]);
      assert r.tracks[..|p.tracks|] == r.tracks[..|q.tracks|][..|p.tracks|];
    }
  }

  /** A load into a valid store adds exactly the paths not yet present. */
  lemma {:induction false} AddTracksPaths(p: Playlist, ts: seq<Track>)
    requires Valid(p)
    ensures Paths(AddTracks(p, ts).tracks) == Paths(p.tracks) + Paths(ts)
    decreases |ts|
  {
    if |ts| == 0 {
      assert Paths(ts) == {};
    } else {
      var q := AddTrack(p, ts[0]).playlist;
      AddTracksPaths(q, ts[1..]);
      if TrackExists(p, ts[0]) {
        MapOfKeys(p.tracks);
        assert ts[0].path in Paths(p.tracks);
      } else {
        PathsAppend(p.tracks, ts[0]);
      }
      PathsCons(ts);
    }
  }

  /** The size after a load equals the number of distinct paths among the
      old tracks and the loaded ones: no duplicate path is ever added. */
  lemma AddTracksSize(p: Playlist, ts: seq<Track>)
    requires Valid(p)
    ensures |AddTracks(p, ts).tracks| == |Paths(p.tracks) + Paths(ts)|
  {
    AddTracksKeepsValid(p, ts);
    AddTracksPaths(p, ts);
    DistinctPathsCount(AddTracks(p, ts).tracks);
  }

  // ---------------------------------------------------------------------
  // Removal

  /** Removes the track at one index from both the sequence and the map. */
  function RemoveTrack(p: Playlist, index: int): (r: Playlist)
    requires 0 <= index < |p.tracks|
    ensures |r.tracks| == |p.tracks| - 1
    ensures forall j :: 0 <= j < index ==> r.tracks[j] == p.tracks[j]
    ensures forall j :: index < j < |p.tracks| ==> r.tracks[j - 1] == p.tracks[j]
    ensures p.tracks[index].path !in r.byPath
    ensures Valid(p) ==> Valid(r)
  {
    RemoveAtKeepsValid(p, index);
    Playlist(Without(p.tracks, index), p.byPath - {p.tracks[index].path})
  }

  /** The sequence with position `index` cut out. */
  function Without(s: seq<Track>, index: int): (r: seq<Track>)
    requires 0 <= index < |s|
    ensures |r| == |s| - 1
    ensures forall j :: 0 <= j < |r| ==> r[j] == s[if j < index then j else j + 1]
  {
    s[..index] + s[index + 1..]
  }

  lemma WithoutDistinct(s: seq<Track>, index: int)
    requires 0 <= index < |s| && DistinctPaths(s)
    ensures DistinctPaths(Without(s, index))
  {
    var s' := Without(s, index);
    forall i, j | 0 <= i < j < |s'| ensures s'[i].path != s'[j].path {
      var a := if i < index then i else i + 1;
      var b := if j < index then j else j + 1;
      assert s'[i] == s[a] && s'[j] == s[b] && a < b;
    }
  }

  lemma WithoutPaths(s: seq<Track>, index: int)
    requires 0 <= index < |s| && DistinctPaths(s)
    ensures Paths(Without(s, index)) == Paths(s) - {s[index].path}
  {
    var s' := Without(s, index);
    forall x | x in Paths(s') ensures x in Paths(s) - {s[index].path} {
      var j :| 0 <= j < |s'| && s'[j].path == x;
      var k := if j < index then j else j + 1;
      assert s[k].path == x;
    }
    forall x | x in Paths(s) - {s[index].path} ensures x in Paths(s') {
      var k :| 0 <= k < |s| && s[k].path == x;
      var j := if k < index then k else k - 1;
      assert s'[j].path == x;
    }
  }

  /** A map that holds exactly the tracks of a duplicate-free sequence,
      each under its path, is the map that sequence builds. */
  lemma MapOfUnique(s: seq<Track>, m: map<string, Track>)
    requires DistinctPaths(s)
    requires m.Keys == Paths(s)
    requires forall i :: 0 <= i < |s| ==> s[i].path in m && m[s[i].path] == s[i]
    ensures MapOf(s) == m
  {
    MapOfContents(s);
    forall x | x in m ensures MapOf(s)[x] == m[x] {
      var i :| 0 <= i < |s| && s[i].path == x;
    }
  }

  lemma WithoutMap(s: seq<Track>, index: int)
    requires 0 <= index < |s| && DistinctPaths(s)
    ensures MapOf(Without(s, index)) == MapOf(s) - {s[index].path}
  {
    var s' := Without(s, index);
    var m := MapOf(s) - {s[index].path};
    WithoutDistinct(s, index);
    WithoutPaths(s, index);
    MapOfContents(s);
    forall j | 0 <= j < |s'| ensures s'[j].path in m && m[s'[j].path] == s'[j] {
      var k := if j < index then j else j + 1;
      assert s'[j] == s[k];
      assert s[k].path != s[index].path;
    }
    MapOfUnique(s', m);
  }

  lemma RemoveAtKeepsValid(p: Playlist, index: int)
    requires 0 <= index < |p.tracks|
    ensures Valid(p) ==> Valid(Playlist(Without(p.tracks, index), p.byPath - {p.tracks[index].path}))
  {
    if Valid(p) {
      WithoutDistinct(p.tracks, index);
      WithoutMap(p.tracks, index);
    }
  }

  /** The tracks of `s` whose positions are not in `drop`, in their original
      order. */
  function Survivors(s: seq<Track>, drop: set<int>): (r: seq<Track>)
    ensures |r| <= |s|
    decreases |s|
  {
    if |s| == 0 then []
    else Survivors(s[..|s| - 1], drop) + (if |s| - 1 in drop then [] else [s[|s| - 1]])
  }

  lemma {:induction false} SurvivorsUntouched(s: seq<Track>, drop: set<int>, k: nat)
    requires k <= |s|
    requires forall d :: d in drop ==> d >= k
    ensures |Survivors(s, drop)| >= k
    ensures Survivors(s, drop)[..k] == s[..k]
    decreases |s|
  {
    if |s| > 0 {
      var init := s[..|s| - 1];
      var w := Survivors(init, drop);
      if k == |s| {
        SurvivorsUntouched(init, drop, k - 1);
        assert w == init;
        assert |s| - 1 !in drop;
        assert Survivors(s, drop) == init + [s[|s| - 1]] == s;
      } else {
        SurvivorsUntouched(init, drop, k);
        var tail := if |s| - 1 in drop then [] else [s[|s| - 1]];
        assert Survivors(s, drop) == w + tail;
        assert (w + tail)[..k] == w[..k];
        assert init[..k] == s[..k];
      }
    }
  }

  /** With nothing dropped, cutting off the last survivor is dropping the
      last position. */
  lemma DropLast(s: seq<Track>, drop: set<int>)
    requires |s| > 0
    requires forall d :: d in drop ==> d > |s| - 1
    ensures var v := Survivors(s, drop);
      |v| == |s| && v[..|s| - 1] + v[|s|..] == Survivors(s, drop + {|s| - 1})
  {
    var last := |s| - 1;
    var init := s[..last];
    SurvivorsUntouched(init, drop, last);
    SurvivorsUntouched(init, drop + {last}, last);
    assert Survivors(init, drop) == init;
    assert Survivors(init, drop + {last}) == init;
    assert Survivors(s, drop) == init + [s[last]];
  }

  /** Removing a position below every already-dropped position of a
      survivor sequence is the same as dropping it too. This is why the
      removal order must be descending. */
  lemma {:induction false} RemoveBelowDropped(s: seq<Track>, drop: set<int>, m: int)
    requires 0 <= m < |s|
    requires forall d :: d in drop ==> d > m
    ensures |Survivors(s, drop)| > m
    ensures var v := Survivors(s, drop);
      v[..m] + v[m + 1..] == Survivors(s, drop + {m})
    decreases |s|
  {
    var v := Survivors(s, drop);
    SurvivorsUntouched(s, drop, m + 1);
    var last := |s| - 1;
    var init := s[..last];
    if m == last {
      DropLast(s, drop);
    } else {
      RemoveBelowDropped(init, drop, m);
      var w := Survivors(init, drop);
      var tail := if last in drop then [] else [s[last]];
      assert v == w + tail;
      assert v[..m] == w[..m];
      assert v[m + 1..] == w[m + 1..] + tail;
      assert Survivors(s, drop + {m}) == Survivors(init, drop + {m}) + tail;
    }
  }

  ghost function AtOrAbove(xs: set<int>, k: int): set<int> {
    set d | d in xs && d >= k
  }

  /** One step of the descending removal: dropping position k - 1 from the
      survivors of the positions at or above k. */
  lemma RemoveStep(s: seq<Track>, all: set<int>, k: int)
    requires 0 < k <= |s| && k - 1 in all
    ensures var v := Survivors(s, AtOrAbove(all, k));
      |v| >= k && v[..k - 1] + v[k..] == Survivors(s, AtOrAbove(all, k - 1))
  {
    RemoveBelowDropped(s, AtOrAbove(all, k), k - 1);
    assert AtOrAbove(all, k) + {k - 1} == AtOrAbove(all, k - 1);
  }

  /** One step of the removal loop: removing position `k - 1`, the next
      selected one from the end, extends the survivors by that position. */
  function RemoveTracksStep(p: Playlist, r: Playlist, all: set<int>, k: int): (r': Playlist)
    requires 0 < k <= |p.tracks| && k - 1 in all
    requires r.tracks == Survivors(p.tracks, AtOrAbove(all, k))
    requires Valid(p) ==> Valid(r)
    ensures r'.tracks == Survivors(p.tracks, AtOrAbove(all, k - 1))
    ensures Valid(p) ==> Valid(r')
  {
    RemoveStep(p.tracks, all, k);
    var v := r.tracks;
    assert Without(v, k - 1) == v[..k - 1] + v[k..];
    RemoveTrack(r, k - 1)
  }

  lemma SkipStep(all: set<int>, k: int)
    requires k - 1 !in all
    ensures AtOrAbove(all, k) == AtOrAbove(all, k - 1)
  {
  }

  /** Removes the tracks at the given positions. The Swift code sorts the
      indexes in descending order and removes them one at a time; here the
      positions are visited from the end towards the start, which meets the
      selected ones in that same order. The survivors keep their relative
      order. */
  method RemoveTracks(p: Playlist, indexes: seq<int>) returns (r: Playlist)
    requires forall k :: 0 <= k < |indexes| ==> 0 <= indexes[k] < |p.tracks|
    requires forall a, b :: 0 <= a < b < |indexes| ==> indexes[a] != indexes[b]
    ensures r.tracks == Survivors(p.tracks, set k | 0 <= k < |indexes| :: indexes[k])
    ensures Valid(p) ==> Valid(r)
  {
    var all := set k | 0 <= k < |indexes| :: indexes[k];
    r := RemoveAbove(p, all, 0);
    assert all == AtOrAbove(all, 0);
  }

  /** The store after removing, from the highest down, every selected
      position at or above `k`. */
  function RemoveAbove(p: Playlist, all: set<int>, k: nat): (r: Playlist)
    requires k <= |p.tracks|
    requires forall d :: d in all ==> 0 <= d < |p.tracks|
    ensures r.tracks == Survivors(p.tracks, AtOrAbove(all, k))
    ensures Valid(p) ==> Valid(r)
    decreases |p.tracks| - k
  {
    if k == |p.tracks| then
      SurvivorsUntouched(p.tracks, {}, k);
      assert AtOrAbove(all, k) == {};
      p
    else
      var r := RemoveAbove(p, all, k + 1);
      if k in all then RemoveTracksStep(p, r, all, k + 1)
      else SkipStep(all, k + 1); r
  }

  function Clear(p: Playlist): (r: Playlist)
    ensures Valid(r) && |r.tracks| == 0 && |r.byPath| == 0
  {
    Empty()
  }

  // ---------------------------------------------------------------------
  // Lookups and persistence

  /** The first position holding `t`, or nothing when `t` is absent. */
  function IndexOfTrack(p: Playlist, t: Option<Track>): (r: Option<nat>)
    ensures t.None? ==> r.None?
    ensures r.Some? ==> (r.value < |p.tracks| && p.tracks[r.value] == t.value
                         && forall j :: 0 <= j < r.value ==> p.tracks[j] != t.value)
    ensures t.Some? && r.None? ==> t.value !in p.tracks
  {
    if t.None? then None else FirstIndex(p.tracks, t.value, 0)
  }

  function FirstIndex(s: seq<Track>, t: Track, from: nat): (r: Option<nat>)
    requires from <= |s|
    requires forall j :: 0 <= j < from ==> s[j] != t
    ensures r.Some? ==> (from <= r.value < |s| && s[r.value] == t
                         && forall j :: 0 <= j < r.value ==> s[j] != t)
    ensures r.None? ==> t !in s
    decreases |s| - from
  {
    if from == |s| then None
    else if s[from] == t then Some(from)
    else FirstIndex(s, t, from + 1)
  }

  /** In a valid store the index of a track is the one position whose path
      matches, so a stored track is always found at its own position. */
  lemma IndexOfStoredTrack(p: Playlist, i: int)
    requires Valid(p) && 0 <= i < |p.tracks|
    ensures IndexOfTrack(p, Some(p.tracks[i])) == Some(i)
  {
  }

  /** The file paths, in playlist order, for saving the playlist. */
  function PersistentState(p: Playlist): (r: seq<string>)
    ensures |r| == |p.tracks|
    ensures forall i :: 0 <= i < |r| ==> r[i] == p.tracks[i].path
    ensures Valid(p) ==> (forall i, j :: 0 <= i < j < |r| ==> r[i] != r[j])
    ensures Valid(p) ==> (forall x :: x in r <==> x in p.byPath)
  {
    PersistentPathsLemma(p);
    seq(|p.tracks|, i requires 0 <= i < |p.tracks| => p.tracks[i].path)
  }

  lemma PersistentPathsLemma(p: Playlist)
    ensures Valid(p) ==> p.byPath.Keys == Paths(p.tracks)
  {
    if Valid(p) {
      MapOfContents(p.tracks);
    }
  }

  // ---------------------------------------------------------------------
  // Reorder programs

  /** One step of a reorder program: copy one slot over another, or write a
      given track into a slot. */
  datatype ReorderOp = Copy(srcIndex: int, destIndex: int) | Overwrite(srcTrack: Track, destIndex: int)

  predicate OpInRange(op: ReorderOp, n: int) {
    0 <= op.destIndex < n && (op.Copy? ==> 0 <= op.srcIndex < n)
  }

  /** Runs the operations in order over the track sequence. The path map is
      not touched. */
  function ReorderTracks(s: seq<Track>, ops: seq<ReorderOp>): (r: seq<Track>)
    requires forall k :: 0 <= k < |ops| ==> OpInRange(ops[k], |s|)
    ensures |r| == |s|
    ensures forall j :: 0 <= j < |s| && (forall k :: 0 <= k < |ops| ==> ops[k].destIndex != j) ==> r[j] == s[j]
    decreases |ops|
  {
    if |ops| == 0 then s
    else
      assert OpInRange(ops[0], |s|);
      ReorderTracks(ApplyOp(s, ops[0]), ops[1..])
  }

  /** One step: the destination slot receives the copied slot's track or
      the given track, and every other slot is kept. */
  function ApplyOp(s: seq<Track>, op: ReorderOp): (r: seq<Track>)
    requires OpInRange(op, |s|)
    ensures |r| == |s| && forall j :: 0 <= j < |s| && j != op.destIndex ==> r[j] == s[j]
    ensures r[op.destIndex] == (if op.Copy? then s[op.srcIndex] else op.srcTrack)
  {
    match op
    case Copy(src, dest) => s[dest := s[src]]
    case Overwrite(t, dest) => s[dest := t]
  }

  /** Running one more operation is applying it to the result so far. */
  lemma {:induction false} ReorderSnoc(s: seq<Track>, ops: seq<ReorderOp>, op: ReorderOp)
    requires forall k :: 0 <= k < |ops| ==> OpInRange(ops[k], |s|)
    requires OpInRange(op, |s|)
    ensures forall k :: 0 <= k < |ops + [op]| ==> OpInRange((ops + [op])[k], |s|)
    ensures ReorderTracks(s, ops + [op]) == ApplyOp(ReorderTracks(s, ops), op)
    decreases |ops|
  {
    assert forall k :: 0 <= k < |ops| ==> (ops + [op])[k] == ops[k];
    if |ops| == 0 {
      assert ops + [op] == [op];
      assert [op][1..] == [];
    } else {
      assert OpInRange(ops[0], |s|);
      assert (ops + [op])[0] == ops[0];
      assert (ops + [op])[1..] == ops[1..] + [op];
      ReorderSnoc(ApplyOp(s, ops[0]), ops[1..], op);
    }
  }

  /** A program runs as its first `n` operations followed by the rest. */
  lemma {:induction false} ReorderSplit(s: seq<Track>, ops: seq<ReorderOp>, n: int)
    requires forall k :: 0 <= k < |ops| ==> OpInRange(ops[k], |s|)
    requires 0 <= n <= |ops|
    ensures ReorderTracks(s, ops) == ReorderTracks(ReorderTracks(s, ops[..n]), ops[n..])
    decreases n
  {
    if n == 0 {
      assert ops[..0] == [] && ops[0..] == ops;
    } else {
      assert OpInRange(ops[0], |s|);
      var s' := ApplyOp(s, ops[0]);
      ReorderSplit(s', ops[1..], n - 1);
      assert ops[..n][0] == ops[0];
      assert ops[..n][1..] == ops[1..][..n - 1];
      assert ops[1..][n - 1..] == ops[n..];
    }
  }

  /** The last write to a slot decides it: if no later operation writes the
      slot of `ops[k]`, the result there is what `ops[k]` wrote, the given
      track for an `Overwrite` and the copied slot's track at that moment
      for a `Copy`. */
  lemma ReorderLastWrite(s: seq<Track>, ops: seq<ReorderOp>, k: int)
    requires forall m :: 0 <= m < |ops| ==> OpInRange(ops[m], |s|)
    requires 0 <= k < |ops|
    requires forall m :: k < m < |ops| ==> ops[m].destIndex != ops[k].destIndex
    ensures ops[k].Overwrite? ==> ReorderTracks(s, ops)[ops[k].destIndex] == ops[k].srcTrack
    ensures ops[k].Copy? ==>
      ReorderTracks(s, ops)[ops[k].destIndex] == ReorderTracks(s, ops[..k])[ops[k].srcIndex]
  {
    var op, pre, rest := ops[k], ops[..k], ops[k + 1..];
    ReorderPieces(s, ops, k);
    ReorderSplit(s, ops, k + 1);
    ReorderSnoc(s, pre, op);
  }

  /** Cutting a program around operation `k`: the operations before and
      after `k` are those of the program, in place. */
  lemma ReorderPieces(s: seq<Track>, ops: seq<ReorderOp>, k: int)
    requires forall m :: 0 <= m < |ops| ==> OpInRange(ops[m], |s|)
    requires 0 <= k < |ops|
    ensures OpInRange(ops[k], |s|)
    ensures ops[..k + 1] == ops[..k] + [ops[k]]
    ensures forall m :: 0 <= m < k ==> ops[..k][m] == ops[m]
    ensures forall m :: k < m < |ops| ==> ops[k + 1..][m - k - 1] == ops[m]
  {
  }

  /** A reorder program introduces no track except those it writes
      explicitly: every slot afterwards holds a track that was in the
      playlist or one named by an `Overwrite`. */
  lemma {:induction false} ReorderProvenance(s: seq<Track>, ops: seq<ReorderOp>)
    requires forall k :: 0 <= k < |ops| ==> OpInRange(ops[k], |s|)
    ensures forall j :: 0 <= j < |s| ==>
      ReorderTracks(s, ops)[j] in s || exists k :: 0 <= k < |ops| && ops[k].Overwrite? && ops[k].srcTrack == ReorderTracks(s, ops)[j]
    decreases |ops|
  {
    if |ops| > 0 {
      var op := ops[0];
      assert OpInRange(op, |s|);
      var s' := ApplyOp(s, op);
      ReorderProvenance(s', ops[1..]);
      var r := ReorderTracks(s, ops);
      assert r == ReorderTracks(s', ops[1..]);
      forall j | 0 <= j < |s|
        ensures r[j] in s || exists k :: 0 <= k < |ops| && ops[k].Overwrite? && ops[k].srcTrack == r[j]
      {
        if r[j] !in s' {
          var k :| 0 <= k < |ops[1..]| && ops[1..][k].Overwrite? && ops[1..][k].srcTrack == r[j];
          assert ops[k + 1] == ops[1..][k];
        } else if r[j] !in s {
          var i :| 0 <= i < |s'| && s'[i] == r[j];
          assert i == op.destIndex;
          assert op.Overwrite? && r[j] == op.srcTrack;
        }
      }
    }
  }

  /** A permutation of a valid store's tracks, under the same path map, is
      valid, for callers that cannot branch on `Valid(p)`. */
  lemma PermutedStoreValid(p: Playlist, t: seq<Track>)
    requires multiset(t) == multiset(p.tracks)
    ensures Valid(p) ==> Valid(Playlist(t, p.byPath))
  {
    if Valid(p) {
      PermutationKeepsValid(p, t);
    }
  }

  /** A reorder program that ends in a permutation of the tracks leaves the
      store valid, although it never touches the path map. */
  lemma PermutationKeepsValid(p: Playlist, t: seq<Track>)
    requires Valid(p)
    requires multiset(t) == multiset(p.tracks)
    ensures Valid(Playlist(t, p.byPath))
  {
    PermutationKeepsDistinctPaths(p.tracks, t);
    forall x ensures x in t <==> x in p.tracks {
      assert x in t <==> x in multiset(t);
      assert x in p.tracks <==> x in multiset(p.tracks);
    }
    MapOfSameTracks(p.tracks, t);
  }

  /** With unique paths, no track occurs twice. */
  lemma {:induction false} DistinctPathsOnce(s: seq<Track>, x: Track)
    requires DistinctPaths(s)
    ensures multiset(s)[x] <= 1
    decreases |s|
  {
    if |s| > 0 {
      var init := s[..|s| - 1];
      assert s == init + [s[|s| - 1]];
      DistinctPathsOnce(init, x);
      if s[|s| - 1] == x {
        assert x !in init by {
          forall i | 0 <= i < |init| ensures init[i] != x {
            assert init[i].path != s[|s| - 1].path;
          }
        }
      }
    }
  }

  lemma EqualAtTwoPositions(t: seq<Track>, i: int, j: int)
    requires 0 <= i < j < |t| && t[i] == t[j]
    ensures multiset(t)[t[i]] >= 2
  {
    assert t == t[..j] + [t[j]] + t[j + 1..];
    assert t[i] in t[..j];
  }

  /** Permuting a sequence with unique paths keeps them unique. */
  lemma PermutationKeepsDistinctPaths(s: seq<Track>, t: seq<Track>)
    requires DistinctPaths(s)
    requires multiset(t) == multiset(s)
    ensures DistinctPaths(t)
  {
    forall i, j | 0 <= i < j < |t| ensures t[i].path != t[j].path {
      assert t[i] in multiset(s) && t[j] in multiset(s);
      var a :| 0 <= a < |s| && s[a] == t[i];
      var b :| 0 <= b < |s| && s[b] == t[j];
      if a == b {
        EqualAtTwoPositions(t, i, j);
        DistinctPathsOnce(s, t[i]);
        assert false;
      }
    }
  }
}

=== FILE: playlist_moves.dfy ===
/** Moving a selection of tracks one place up or down. Selected tracks move
    one at a time, each swapping with its neighbour; a run of selected
    tracks already pressed against the edge they move towards cannot move
    and stays where it is. Each call also reports where every selected
    track went. */
module PlaylistMoves {
  import opened Playlist

  /** The number of consecutive selected positions starting at `k` and
      running towards the end of a playlist of `n` tracks. */
  function RunLen(sel: set<int>, n: int, k: int): (r: nat)
    requires 0 <= k <= n
    ensures k + r <= n
    decreases n - k
  {
    if k < n && k in sel then 1 + RunLen(sel, n, k + 1) else 0
  }

  /** The number of consecutive selected positions ending at `k` and
      running towards the start of the playlist. */
  function RunBack(sel: set<int>, k: int): (r: nat)
    requires -1 <= k
    ensures r <= k + 1
    decreases k + 1
  {
    if k >= 0 && k in sel then 1 + RunBack(sel, k - 1) else 0
  }

  /** A run is selected throughout and stops at the end or at an
      unselected position. */
  lemma {:induction false} RunLenShape(sel: set<int>, n: int, k: int)
    requires 0 <= k <= n
    ensures forall i :: k <= i < k + RunLen(sel, n, k) ==> i in sel
    ensures k + RunLen(sel, n, k) == n || k + RunLen(sel, n, k) !in sel
    decreases n - k
  {
    if k < n && k in sel {
      RunLenShape(sel, n, k + 1);
    }
  }

  lemma {:induction false} RunBackShape(sel: set<int>, k: int)
    requires -1 <= k
    ensures forall i :: k - RunBack(sel, k) < i <= k ==> i in sel
    ensures k - RunBack(sel, k) == -1 || k - RunBack(sel, k) !in sel
    decreases k + 1
  {
    if k >= 0 && k in sel {
      RunBackShape(sel, k - 1);
    }
  }

  /** The run length is determined by where the run stops. */
  lemma RunLenExact(sel: set<int>, n: int, a: int, k: int)
    requires 0 <= a <= k <= n
    requires forall i :: a <= i < k ==> i in sel
    requires k == n || k !in sel
    ensures RunLen(sel, n, a) == k - a
  {
    RunLenShape(sel, n, a);
  }

  lemma RunBackExact(sel: set<int>, a: int, k: int)
    requires -1 <= k <= a
    requires forall i :: k < i <= a ==> i in sel
    requires k == -1 || k !in sel
    ensures RunBack(sel, a) == a - k
  {
    RunBackShape(sel, a);
  }

  /** Where the track at position `j` ends up after moving `sel` up: the
      unmovable block at the top stays, other selected tracks go up one, and
      an unselected track sinks below the run of selected tracks that
      followed it. */
  function UpTarget(sel: set<int>, n: int, j: int): (r: int)
    requires 0 <= j < n
    ensures 0 <= r < n
  {
    RunLenShape(sel, n, 0);
    if j in sel then (if j < RunLen(sel, n, 0) then j else j - 1)
    else j + RunLen(sel, n, j + 1)
  }

  /** Where the track at position `j` ends up after moving `sel` down: the
      mirror image of `UpTarget`. */
  function DownTarget(sel: set<int>, n: int, j: int): (r: int)
    requires 0 <= j < n
    ensures 0 <= r < n
  {
    RunBackShape(sel, n - 1);
    if j in sel then (if j >= n - RunBack(sel, n - 1) then j else j + 1)
    else j - RunBack(sel, j - 1)
  }

  /** Exchanges two slots. */
  function Swap(s: seq<Track>, i: int, j: int): (r: seq<Track>)
    requires 0 <= i < |s| && 0 <= j < |s|
    ensures |r| == |s| && r[i] == s[j] && r[j] == s[i]
    ensures forall k :: 0 <= k < |s| && k != i && k != j ==> r[k] == s[k]
    ensures multiset(r) == multiset(s)
  {
    s[i := s[j]][j := s[i]]
  }

  /** Every track of `s` sits at its upward target in `r`. */
  ghost predicate UpPlaced(s: seq<Track>, r: seq<Track>, sel: set<int>) {
    |r| == |s|
    && forall j {:trigger UpTarget(sel, |s|, j)} :: 0 <= j < |s| ==> r[UpTarget(sel, |s|, j)] == s[j]
  }

  /** Every track of `s` sits at its downward target in `r`. */
  ghost predicate DownPlaced(s: seq<Track>, r: seq<Track>, sel: set<int>) {
    |r| == |s|
    && forall j {:trigger DownTarget(sel, |s|, j)} :: 0 <= j < |s| ==> r[DownTarget(sel, |s|, j)] == s[j]
  }

  /** The upward pass after the positions below `k` have been visited:
      `pend`, the last unselected position seen, has its track carried at
      `k - 1`; every other track seen is already at its final place; the
      positions from `k` on are untouched. */
  ghost predicate UpPass(s: seq<Track>, arr: seq<Track>, sel: set<int>, k: int, pend: int) {
    var n := |s|;
    |arr| == n && RunLen(sel, n, 0) <= pend < k <= n && pend !in sel
    && (forall i :: pend < i < k ==> i in sel)
    && arr[k - 1] == s[pend]
    && (forall i :: k <= i < n ==> arr[i] == s[i])
    && (forall j {:trigger UpTarget(sel, n, j)} :: 0 <= j < k && j != pend ==>
          UpTarget(sel, n, j) < k - 1 && arr[UpTarget(sel, n, j)] == s[j])
  }

  lemma UpPassStart(s: seq<Track>, sel: set<int>)
    requires RunLen(sel, |s|, 0) < |s|
    ensures UpPass(s, s, sel, RunLen(sel, |s|, 0) + 1, RunLen(sel, |s|, 0))
  {
    RunLenShape(sel, |s|, 0);
  }

  /** A selected track swaps with the carried one and reaches its place. */
  lemma UpPassSwap(s: seq<Track>, arr: seq<Track>, sel: set<int>, k: int, pend: int)
    requires UpPass(s, arr, sel, k, pend) && k < |s| && k in sel
    ensures UpTarget(sel, |s|, k) == k - 1
    ensures UpPass(s, Swap(arr, k - 1, k), sel, k + 1, pend)
  {
    var n := |s|;
    var arr' := Swap(arr, k - 1, k);
    forall j | 0 <= j < k + 1 && j != pend
      ensures UpTarget(sel, n, j) < k && arr'[UpTarget(sel, n, j)] == s[j]
    {
      if j < k {
        assert UpTarget(sel, n, j) < k - 1;
      }
    }
  }

  /** An unselected position ends the run behind the carried track, which
      is then at its place; the new position becomes the carried one. */
  lemma UpPassKeep(s: seq<Track>, arr: seq<Track>, sel: set<int>, k: int, pend: int)
    requires UpPass(s, arr, sel, k, pend) && k < |s| && k !in sel
    ensures UpPass(s, arr, sel, k + 1, k)
  {
    RunLenExact(sel, |s|, pend + 1, k);
  }

  lemma UpPassEnd(s: seq<Track>, arr: seq<Track>, sel: set<int>, pend: int)
    requires UpPass(s, arr, sel, |s|, pend)
    ensures UpPlaced(s, arr, sel)
  {
    RunLenExact(sel, |s|, pend + 1, |s|);
  }

  /** One step of the upward pass: a selected position swaps with the one
      above it. */
  function RaiseStep(arr: seq<Track>, sel: set<int>, k: int): (r: seq<Track>)
    requires 1 <= k < |arr|
    ensures |r| == |arr|
  {
    if k in sel then Swap(arr, k - 1, k) else arr
  }

  /** The swaps the upward pass makes from position `k` to the end. */
  function RaiseFrom(arr: seq<Track>, sel: set<int>, k: int): (r: seq<Track>)
    requires 1 <= k <= |arr|
    ensures |r| == |arr|
    decreases |arr| - k
  {
    if k == |arr| then arr else RaiseFrom(RaiseStep(arr, sel, k), sel, k + 1)
  }

  /** The upward pass only exchanges tracks. */
  lemma {:induction false} RaiseFromPermutes(arr: seq<Track>, sel: set<int>, k: int)
    requires 1 <= k <= |arr|
    ensures multiset(RaiseFrom(arr, sel, k)) == multiset(arr)
    decreases |arr| - k
  {
    if k < |arr| {
      var next := RaiseStep(arr, sel, k);
      assert multiset(next) == multiset(arr);
      RaiseFromPermutes(next, sel, k + 1);
    }
  }

  lemma RaiseFromUnroll(arr: seq<Track>, sel: set<int>, k: int)
    requires 1 <= k < |arr|
    ensures RaiseFrom(arr, sel, k) == RaiseFrom(RaiseStep(arr, sel, k), sel, k + 1)
  {
  }

  lemma UpPassStep(s: seq<Track>, arr: seq<Track>, sel: set<int>, k: int, pend: int)
    requires UpPass(s, arr, sel, k, pend) && k < |s|
    ensures UpPass(s, RaiseStep(arr, sel, k), sel, k + 1, if k in sel then pend else k)
  {
    if k in sel {
      UpPassSwap(s, arr, sel, k, pend);
    } else {
      UpPassKeep(s, arr, sel, k, pend);
    }
  }

  /** Finishing the upward pass from any intermediate state puts every
      track at its `UpTarget`. */
  lemma {:induction false} RaiseFromPlaces(s: seq<Track>, arr: seq<Track>, sel: set<int>, k: int, pend: int)
    requires UpPass(s, arr, sel, k, pend)
    ensures UpPlaced(s, RaiseFrom(arr, sel, k), sel)
    decreases |s| - k
  {
    if k == |s| {
      UpPassEnd(s, arr, sel, pend);
      assert RaiseFrom(arr, sel, k) == arr;
    } else {
      var next := RaiseStep(arr, sel, k);
      UpPassStep(s, arr, sel, k, pend);
      RaiseFromPlaces(s, next, sel, k + 1, if k in sel then pend else k);
      RaiseFromUnroll(arr, sel, k);
    }
  }

  /** The index map of the upward pass holds exactly the selected
      positions below `k`: those of the top block (below `b`) map to
      themselves, the others to the place above. */
  ghost predicate ShiftedBelow(m: map<int, int>, sel: set<int>, k: int, b: int) {
    (forall i :: i in m <==> i in sel && i < k)
    && (forall i {:trigger m[i]} :: i in m ==> m[i] == if i < b then i else i - 1)
  }

  lemma ShiftedBelowAdd(m: map<int, int>, sel: set<int>, k: int, b: int)
    requires ShiftedBelow(m, sel, k, b) && k in sel && b < k
    ensures ShiftedBelow(m[k := k - 1], sel, k + 1, b)
  {
  }

  /** Once every position has been visited, the index map sends each
      selected position to its `UpTarget`. */
  lemma MappedBelowAll(m: map<int, int>, sel: set<int>, n: int)
    requires 0 <= n
    requires forall i :: i in sel ==> 0 <= i < n
    requires ShiftedBelow(m, sel, n, RunLen(sel, n, 0))
    ensures m.Keys == sel
    ensures forall j {:trigger m[j]} :: j in sel ==> m[j] == UpTarget(sel, n, j)
  {
    forall i ensures i in m <==> i in sel {
      if i in sel {
        assert i < n;
      }
    }
  }

  /** Finds the unmovable block at the top: the run of selected positions
      starting at 0. Each of them is mapped to itself. */
  method TopBlock(indexes: set<int>, n: int) returns (b: int, mapping: map<int, int>)
    requires 0 <= n && forall i :: i in indexes ==> 0 <= i < n
    ensures b == RunLen(indexes, n, 0)
    ensures ShiftedBelow(mapping, indexes, b + 1, b)
  {
    mapping := map[];
    b := 0;
    while b in indexes
      invariant 0 <= b <= n
      invariant forall i :: 0 <= i < b ==> i in indexes
      invariant forall i :: i in mapping <==> 0 <= i < b
      invariant forall i :: i in mapping ==> mapping[i] == i
      decreases n - b
    {
      mapping := mapping[b := b];
      b := b + 1;
    }
    RunLenExact(indexes, n, 0, b);
  }

  /** The swapping loop of the upward move, from just below the unmovable
      block to the end: each selected position swaps with the one above. */
  method RaiseTracks(s: seq<Track>, indexes: set<int>, b: int, mapping0: map<int, int>)
    returns (arr: seq<Track>, mapping: map<int, int>)
    requires 0 <= b < |s|
    requires ShiftedBelow(mapping0, indexes, b + 1, b)
    ensures arr == RaiseFrom(s, indexes, b + 1)
    ensures ShiftedBelow(mapping, indexes, |s|, b)
  {
    var n := |s|;
    arr := s;
    mapping := mapping0;
    var k := b + 1;
    while k < n
      invariant b < k <= n && |arr| == n
      invariant RaiseFrom(arr, indexes, k) == RaiseFrom(s, indexes, b + 1)
      invariant ShiftedBelow(mapping, indexes, k, b)
    {
      RaiseFromUnroll(arr, indexes, k);
      arr := RaiseStep(arr, indexes, k);
      if k in indexes {
        ShiftedBelowAdd(mapping, indexes, k, b);
        mapping := mapping[k := k - 1];
      }
      k := k + 1;
    }
  }

  /** When every position is selected nothing moves up. */
  lemma AllSelectedStayUp(s: seq<Track>, sel: set<int>)
    requires RunLen(sel, |s|, 0) == |s|
    ensures UpPlaced(s, s, sel)
  {
    RunLenShape(sel, |s|, 0);
  }

  /** The upward move on the track sequence alone. */
  method RaiseSelected(s: seq<Track>, indexes: set<int>) returns (arr: seq<Track>, mapping: map<int, int>)
    requires forall i :: i in indexes ==> 0 <= i < |s|
    ensures multiset(arr) == multiset(s)
    ensures UpPlaced(s, arr, indexes)
    ensures ShiftedBelow(mapping, indexes, |s|, RunLen(indexes, |s|, 0))
  {
    var b, top := TopBlock(indexes, |s|);
    if b < |s| {
      arr, mapping := RaiseTracks(s, indexes, b, top);
      UpPassStart(s, indexes);
      RaiseFromPlaces(s, s, indexes, b + 1, b);
      RaiseFromPermutes(s, indexes, b + 1);
    } else {
      arr, mapping := s, top;
      AllSelectedStayUp(s, indexes);
    }
  }

  /** Moves every selected track up one place, working from the top down.
      Returns the new store and, for each selected position, its position
      afterwards (unchanged for the unmovable block at the top). */
  method MoveTracksUp(p: Playlist, indexes: set<int>) returns (r: Playlist, mapping: map<int, int>)
    requires forall i :: i in indexes ==> 0 <= i < |p.tracks|
    ensures r.byPath == p.byPath && |r.tracks| == |p.tracks|
    ensures forall j {:trigger UpTarget(indexes, |p.tracks|, j)} :: 0 <= j < |p.tracks| ==> r.tracks[UpTarget(indexes, |p.tracks|, j)] == p.tracks[j]
    ensures multiset(r.tracks) == multiset(p.tracks)
    ensures Valid(p) ==> Valid(r)
    ensures mapping.Keys == indexes
    ensures forall j {:trigger mapping[j]} :: j in indexes ==> mapping[j] == UpTarget(indexes, |p.tracks|, j)
  {
    var arr;
    arr, mapping := RaiseSelected(p.tracks, indexes);
    MappedBelowAll(mapping, indexes, |p.tracks|);
    r := Playlist(arr, p.byPath);
    if Valid(p) {
      PermutationKeepsValid(p, arr);
    }
  }

  /** The downward pass after the positions above `k` have been visited;
      the mirror image of `UpPass`. */
  ghost predicate DownPass(s: seq<Track>, arr: seq<Track>, sel: set<int>, k: int, pend: int) {
    var n := |s|;
    |arr| == n && -1 <= k < pend < n - RunBack(sel, n - 1) && pend !in sel
    && (forall i :: k < i < pend ==> i in sel)
    && arr[k + 1] == s[pend]
    && (forall i :: 0 <= i <= k ==> arr[i] == s[i])
    && (forall j {:trigger DownTarget(sel, n, j)} :: k < j < n && j != pend ==>
          DownTarget(sel, n, j) > k + 1 && arr[DownTarget(sel, n, j)] == s[j])
  }

  lemma DownPassStart(s: seq<Track>, sel: set<int>)
    requires RunBack(sel, |s| - 1) < |s|
    ensures var c := |s| - 1 - RunBack(sel, |s| - 1);
      DownPass(s, s, sel, c - 1, c)
  {
    RunBackShape(sel, |s| - 1);
  }

  lemma DownPassSwap(s: seq<Track>, arr: seq<Track>, sel: set<int>, k: int, pend: int)
    requires DownPass(s, arr, sel, k, pend) && k >= 0 && k in sel
    ensures DownTarget(sel, |s|, k) == k + 1
    ensures DownPass(s, Swap(arr, k + 1, k), sel, k - 1, pend)
  {
    var n := |s|;
    var arr' := Swap(arr, k + 1, k);
    forall j | k - 1 < j < n && j != pend
      ensures DownTarget(sel, n, j) > k && arr'[DownTarget(sel, n, j)] == s[j]
    {
      if j > k {
        assert DownTarget(sel, n, j) > k + 1;
      }
    }
  }

  lemma DownPassKeep(s: seq<Track>, arr: seq<Track>, sel: set<int>, k: int, pend: int)
    requires DownPass(s, arr, sel, k, pend) && k >= 0 && k !in sel
    ensures DownPass(s, arr, sel, k - 1, k)
  {
    RunBackExact(sel, pend - 1, k);
  }

  lemma DownPassEnd(s: seq<Track>, arr: seq<Track>, sel: set<int>, pend: int)
    requires DownPass(s, arr, sel, -1, pend)
    ensures DownPlaced(s, arr, sel)
  {
    RunBackExact(sel, pend - 1, -1);
  }

  /** One step of the downward pass: a selected position swaps with the
      one below it. */
  function LowerStep(arr: seq<Track>, sel: set<int>, k: int): (r: seq<Track>)
    requires 0 <= k < |arr| - 1
    ensures |r| == |arr|
  {
    if k in sel then Swap(arr, k + 1, k) else arr
  }

  /** The swaps the downward pass makes from position `k` to the start. */
  function LowerFrom(arr: seq<Track>, sel: set<int>, k: int): (r: seq<Track>)
    requires -1 <= k < |arr| - 1
    ensures |r| == |arr|
    decreases k + 1
  {
    if k == -1 then arr else LowerFrom(LowerStep(arr, sel, k), sel, k - 1)
  }

  /** The downward pass only exchanges tracks. */
  lemma {:induction false} LowerFromPermutes(arr: seq<Track>, sel: set<int>, k: int)
    requires -1 <= k < |arr| - 1
    ensures multiset(LowerFrom(arr, sel, k)) == multiset(arr)
    decreases k + 1
  {
    if k >= 0 {
      var next := LowerStep(arr, sel, k);
      assert multiset(next) == multiset(arr);
      LowerFromPermutes(next, sel, k - 1);
    }
  }

  lemma LowerFromUnroll(arr: seq<Track>, sel: set<int>, k: int)
    requires 0 <= k < |arr| - 1
    ensures LowerFrom(arr, sel, k) == LowerFrom(LowerStep(arr, sel, k), sel, k - 1)
  {
  }

  lemma DownPassStep(s: seq<Track>, arr: seq<Track>, sel: set<int>, k: int, pend: int)
    requires DownPass(s, arr, sel, k, pend) && k >= 0
    ensures DownPass(s, LowerStep(arr, sel, k), sel, k - 1, if k in sel then pend else k)
  {
    if k in sel {
      DownPassSwap(s, arr, sel, k, pend);
    } else {
      DownPassKeep(s, arr, sel, k, pend);
    }
  }

  /** Finishing the downward pass from any intermediate state puts every
      track at its `DownTarget`. */
  lemma {:induction false} LowerFromPlaces(s: seq<Track>, arr: seq<Track>, sel: set<int>, k: int, pend: int)
    requires DownPass(s, arr, sel, k, pend)
    ensures DownPlaced(s, LowerFrom(arr, sel, k), sel)
    decreases k + 1
  {
    if k == -1 {
      DownPassEnd(s, arr, sel, pend);
      assert LowerFrom(arr, sel, k) == arr;
    } else {
      var next := LowerStep(arr, sel, k);
      DownPassStep(s, arr, sel, k, pend);
      LowerFromPlaces(s, next, sel, k - 1, if k in sel then pend else k);
      LowerFromUnroll(arr, sel, k);
    }
  }

  /** The index map of the downward pass holds exactly the selected
      positions above `k`: those of the bottom block (above `c`) map to
      themselves, the others to the place below. */
  ghost predicate ShiftedAbove(m: map<int, int>, sel: set<int>, k: int, c: int) {
    (forall i :: i in m <==> i in sel && i > k)
    && (forall i {:trigger m[i]} :: i in m ==> m[i] == if i > c then i else i + 1)
  }

  lemma ShiftedAboveAdd(m: map<int, int>, sel: set<int>, k: int, c: int)
    requires ShiftedAbove(m, sel, k, c) && k in sel && k < c
    ensures ShiftedAbove(m[k := k + 1], sel, k - 1, c)
  {
  }

  /** Once every position has been visited, the index map sends each
      selected position to its `DownTarget`. */
  lemma MappedAboveAll(m: map<int, int>, sel: set<int>, n: int)
    requires 0 <= n
    requires forall i :: i in sel ==> 0 <= i < n
    requires ShiftedAbove(m, sel, -1, n - 1 - RunBack(sel, n - 1))
    ensures m.Keys == sel
    ensures forall j {:trigger m[j]} :: j in sel ==> m[j] == DownTarget(sel, n, j)
  {
    forall i ensures i in m <==> i in sel {
      if i in sel {
        assert i > -1;
      }
    }
  }

  /** Finds the unmovable block at the bottom: the run of selected
      positions ending at the last one. Each of them is mapped to itself.
      `c` is the position just above the block. */
  method BottomBlock(indexes: set<int>, n: int) returns (c: int, mapping: map<int, int>)
    requires 0 <= n && forall i :: i in indexes ==> 0 <= i < n
    ensures c == n - 1 - RunBack(indexes, n - 1)
    ensures ShiftedAbove(mapping, indexes, c - 1, c)
  {
    mapping := map[];
    c := n - 1;
    while c in indexes
      invariant -1 <= c < n
      invariant forall i :: c < i < n ==> i in indexes
      invariant forall i :: i in mapping <==> c < i < n
      invariant forall i :: i in mapping ==> mapping[i] == i
      decreases c
    {
      mapping := mapping[c := c];
      c := c - 1;
    }
    RunBackExact(indexes, n - 1, c);
  }

  /** The swapping loop of the downward move, from just above the
      unmovable block to the start: each selected position swaps with the
      one below. */
  method LowerTracks(s: seq<Track>, indexes: set<int>, c: int, mapping0: map<int, int>)
    returns (arr: seq<Track>, mapping: map<int, int>)
    requires 0 <= c < |s|
    requires ShiftedAbove(mapping0, indexes, c - 1, c)
    ensures arr == LowerFrom(s, indexes, c - 1)
    ensures ShiftedAbove(mapping, indexes, -1, c)
  {
    var n := |s|;
    arr := s;
    mapping := mapping0;
    var k := c - 1;
    while k >= 0
      invariant -1 <= k < c && |arr| == n
      invariant LowerFrom(arr, indexes, k) == LowerFrom(s, indexes, c - 1)
      invariant ShiftedAbove(mapping, indexes, k, c)
    {
      LowerFromUnroll(arr, indexes, k);
      arr := LowerStep(arr, indexes, k);
      if k in indexes {
        ShiftedAboveAdd(mapping, indexes, k, c);
        mapping := mapping[k := k + 1];
      }
      k := k - 1;
    }
  }

  /** When every position is selected nothing moves down. */
  lemma AllSelectedStayDown(s: seq<Track>, sel: set<int>)
    requires RunBack(sel, |s| - 1) == |s|
    ensures DownPlaced(s, s, sel)
  {
    RunBackShape(sel, |s| - 1);
  }

  /** The downward move on the track sequence alone. */
  method LowerSelected(s: seq<Track>, indexes: set<int>) returns (arr: seq<Track>, mapping: map<int, int>)
    requires forall i :: i in indexes ==> 0 <= i < |s|
    ensures multiset(arr) == multiset(s)
    ensures DownPlaced(s, arr, indexes)
    ensures ShiftedAbove(mapping, indexes, -1, |s| - 1 - RunBack(indexes, |s| - 1))
  {
    var c, bottom := BottomBlock(indexes, |s|);
    if c >= 0 {
      arr, mapping := LowerTracks(s, indexes, c, bottom);
      DownPassStart(s, indexes);
      LowerFromPlaces(s, s, indexes, c - 1, c);
      LowerFromPermutes(s, indexes, c - 1);
    } else {
      arr, mapping := s, bottom;
      AllSelectedStayDown(s, indexes);
    }
  }

  /** Moves every selected track down one place, working from the bottom
      up. Returns the new store and, for each selected position, its
      position afterwards (unchanged for the unmovable block at the
      bottom). */
  method MoveTracksDown(p: Playlist, indexes: set<int>) returns (r: Playlist, mapping: map<int, int>)
    requires forall i :: i in indexes ==> 0 <= i < |p.tracks|
    ensures r.byPath == p.byPath && |r.tracks| == |p.tracks|
    ensures forall j {:trigger DownTarget(indexes, |p.tracks|, j)} :: 0 <= j < |p.tracks| ==> r.tracks[DownTarget(indexes, |p.tracks|, j)] == p.tracks[j]
    ensures multiset(r.tracks) == multiset(p.tracks)
    ensures Valid(p) ==> Valid(r)
    ensures mapping.Keys == indexes
    ensures forall j {:trigger mapping[j]} :: j in indexes ==> mapping[j] == DownTarget(indexes, |p.tracks|, j)
  {
    var arr;
    arr, mapping := LowerSelected(p.tracks, indexes);
    MappedAboveAll(mapping, indexes, |p.tracks|);
    r := Playlist(arr, p.byPath);
    if Valid(p) {
      PermutationKeepsValid(p, arr);
    }
  }

  /** The positions a selection occupies after it has moved up one place. */
  function Raised(sel: set<int>): (r: set<int>)
    ensures forall i :: i in r <==> i + 1 in sel
  {
    var r := set i | i in sel :: i - 1;
    assert forall i :: i + 1 in sel ==> i in r by {
      forall i | i + 1 in sel ensures i in r {
        assert (i + 1) - 1 == i;
      }
    }
    r
  }

  /** Moving a selection up and then moving the raised selection down puts
      every track back, provided the top track was not selected (otherwise
      the top block does not move up, but does move back down). */
  lemma {:induction false} DownUndoesUp(sel: set<int>, n: int, j: int)
    requires forall i :: i in sel ==> 0 <= i < n
    requires 0 !in sel
    requires 0 <= j < n
    ensures DownTarget(Raised(sel), n, UpTarget(sel, n, j)) == j
  {
    var up := Raised(sel);
    RunLenExact(sel, n, 0, 0);
    RunBackExact(up, n - 1, n - 1);
    if j !in sel {
      RunLenShape(sel, n, j + 1);
      var len := RunLen(sel, n, j + 1);
      var u := j + len;
      assert u !in up;
      RunBackExact(up, u - 1, j - 1);
    }
  }

  /** The track-level round trip: what the upward move placed, the
      downward move of the raised selection puts back. */
  lemma UpDownRestores(s: seq<Track>, mid: seq<Track>, back: seq<Track>, sel: set<int>)
    requires forall i :: i in sel ==> 0 <= i < |s|
    requires 0 !in sel
    requires UpPlaced(s, mid, sel) && DownPlaced(mid, back, Raised(sel))
    ensures back == s
  {
    forall j | 0 <= j < |s| ensures back[j] == s[j] {
      DownUndoesUp(sel, |s|, j);
      var u := UpTarget(sel, |s|, j);
      assert back[DownTarget(Raised(sel), |mid|, u)] == mid[u];
    }
  }

  /** Moving a selection up and its raised image back down restores the
      track order. */
  method MoveUpThenDown(p: Playlist, indexes: set<int>) returns (r: Playlist)
    requires forall i :: i in indexes ==> 0 <= i < |p.tracks|
    requires 0 !in indexes
    ensures r == p
  {
    var mid, upMap := MoveTracksUp(p, indexes);
    var down := Raised(indexes);
    forall i | i in down ensures 0 <= i < |mid.tracks| {
      assert i + 1 in indexes;
    }
    var back, downMap := MoveTracksDown(mid, down);
    UpDownRestores(p.tracks, mid.tracks, back.tracks, indexes);
    r := back;
  }
}

=== FILE: playlist_search.dfy ===
/** Searching the flat playlist: a query names a text, a match mode, case
    sensitivity and the fields to look in. Tracks are scanned in playlist
    order and each contributes at most one result, for the first field that
    matches. */
module PlaylistSearch {
  import opened Text
  import opened Playlist

  datatype SearchType = BeginsWith | EndsWith | Equals | Contains

  /** Which track fields a query looks at. `name` covers both the file name
      and the display name. */
  datatype SearchFields = SearchFields(name: bool, artist: bool, title: bool, album: bool)

  datatype SearchQuery = SearchQuery(text: string, searchType: SearchType, fields: SearchFields, caseSensitive: bool)

  /** The name of the field that matched and its value. */
  datatype FieldMatch = FieldMatch(field: string, value: string)

  /** `resultIndex` numbers results from 1; `trackIndex` is the track's
      position in the playlist. */
  datatype SearchResult = SearchResult(resultIndex: int, trackIndex: int, matched: FieldMatch)

  // ---------------------------------------------------------------------
  // String tests, character by character

  function ScanPrefix(s: string, q: string): (r: bool)
    ensures r <==> HasPrefix(s, q)
  {
    if |q| == 0 then true
    else if |s| == 0 || s[0] != q[0] then false
    else
      PrefixStep(s, q);
      ScanPrefix(s[1..], q[1..])
  }

  lemma PrefixStep(s: string, q: string)
    requires 0 < |q| && 0 < |s| && s[0] == q[0]
    ensures HasPrefix(s, q) <==> HasPrefix(s[1..], q[1..])
  {
    if |q| <= |s| {
      assert s[..|q|] == [s[0]] + s[1..][..|q| - 1];
      assert q == [q[0]] + q[1..];
    }
  }

  function ScanSuffix(s: string, q: string): (r: bool)
    ensures r <==> HasSuffix(s, q)
  {
    if |q| == 0 then true
    else if |s| == 0 || s[|s| - 1] != q[|q| - 1] then false
    else
      var s', q' := s[..|s| - 1], q[..|q| - 1];
      assert |q| <= |s| ==> s[|s| - |q|..] == s'[|s'| - |q'|..] + [s[|s| - 1]];
      assert q == q' + [q[|q| - 1]];
      ScanSuffix(s', q')
  }

  lemma ContainsAtShift(s: string, q: string, i: int)
    requires 0 <= i <= |s|
    ensures ContainsAt(s, q, i) <==> HasPrefix(s[i..], q)
  {
    if i + |q| <= |s| {
      assert s[i..][..|q|] == s[i..i + |q|];
    }
  }

  /** Whether `q` occurs in `s` at `i` or later. */
  function ScanFrom(s: string, q: string, i: nat): (r: bool)
    requires i <= |s|
    ensures r <==> exists j :: i <= j <= |s| - |q| && ContainsAt(s, q, j)
    decreases |s| - i
  {
    ContainsAtShift(s, q, i);
    if i + |q| > |s| then false
    else if ScanPrefix(s[i..], q) then true
    else if i == |s| then false
    else ScanFrom(s, q, i + 1)
  }

  /** The text compared: unchanged when the query is case sensitive,
      lower-cased otherwise. */
  function Fold(s: string, query: SearchQuery): string {
    if query.caseSensitive then s else LowerString(s)
  }

  /** Whether a field value satisfies the query. Without case sensitivity
      both the value and the query text are lower-cased first. */
  function Compare(value: string, query: SearchQuery): (r: bool)
    ensures var v, t := Fold(value, query), Fold(query.text, query);
      && (query.searchType == BeginsWith ==> (r <==> HasPrefix(v, t)))
      && (query.searchType == EndsWith ==> (r <==> HasSuffix(v, t)))
      && (query.searchType == Equals ==> (r <==> v == t))
      && (query.searchType == Contains ==> (r <==> Text.Contains(v, t)))
  {
    var v, t := Fold(value, query), Fold(query.text, query);
    match query.searchType
    case BeginsWith => ScanPrefix(v, t)
    case EndsWith => ScanSuffix(v, t)
    case Equals => v == t
    case Contains => ScanFrom(v, t, 0)
  }

  /** Without case sensitivity, the case of the field value and of the
      query text makes no difference. */
  lemma CompareIgnoresCase(value: string, query: SearchQuery)
    requires !query.caseSensitive
    ensures Compare(value, query) == Compare(LowerString(value), query)
    ensures Compare(value, query) == Compare(value, query.(text := LowerString(query.text)))
  {
    LowerStringIdempotent(value);
    LowerStringIdempotent(query.text);
  }

  lemma LowerStringIdempotent(s: string)
    ensures LowerString(LowerString(s)) == LowerString(s)
  {
  }

  // ---------------------------------------------------------------------
  // Matching one track

  /** The fields the query looks at, in the order they are tried, with the
      name each is reported under. Absent metadata is skipped. */
  function Candidates(t: Track, query: SearchQuery): seq<FieldMatch> {
    (if query.fields.name then [FieldMatch("filename", t.fileName), FieldMatch("name", t.displayName)] else [])
    + (if query.fields.artist && t.artist.Some? then [FieldMatch("artist", t.artist.value)] else [])
    + (if query.fields.title && t.title.Some? then [FieldMatch("title", t.title.value)] else [])
    + (if query.fields.album && t.album.Some? then [FieldMatch("album", t.album.value)] else [])
  }

  /** The first candidate whose value satisfies the query. */
  function FirstMatch(cs: seq<FieldMatch>, query: SearchQuery): Option<FieldMatch>
    decreases |cs|
  {
    if |cs| == 0 then None
    else if Compare(cs[0].value, query) then Some(cs[0])
    else FirstMatch(cs[1..], query)
  }

  /** `FirstMatch` finds nothing exactly when no candidate matches, and
      otherwise returns a matching candidate with no match before it. */
  lemma {:induction false} FirstMatchShape(cs: seq<FieldMatch>, query: SearchQuery)
    ensures FirstMatch(cs, query).None? <==> forall i :: 0 <= i < |cs| ==> !Compare(cs[i].value, query)
    ensures FirstMatch(cs, query).Some? ==>
      exists i :: 0 <= i < |cs| && cs[i] == FirstMatch(cs, query).value && Compare(cs[i].value, query)
        && forall j :: 0 <= j < i ==> !Compare(cs[j].value, query)
    decreases |cs|
  {
    if |cs| > 0 && !Compare(cs[0].value, query) {
      var rest := cs[1..];
      FirstMatchShape(rest, query);
      if FirstMatch(rest, query).Some? {
        var i :| 0 <= i < |rest| && rest[i] == FirstMatch(rest, query).value && Compare(rest[i].value, query)
          && forall j :: 0 <= j < i ==> !Compare(rest[j].value, query);
        assert cs[i + 1] == rest[i];
        forall j | 0 <= j < i + 1 ensures !Compare(cs[j].value, query) {
          if j > 0 {
            assert cs[j] == rest[j - 1];
          }
        }
      } else {
        forall i | 0 <= i < |cs| ensures !Compare(cs[i].value, query) {
          if i > 0 {
            assert cs[i] == rest[i - 1];
          }
        }
      }
    }
  }

  lemma {:induction false} FirstMatchAppend(a: seq<FieldMatch>, b: seq<FieldMatch>, query: SearchQuery)
    ensures FirstMatch(a + b, query) == if FirstMatch(a, query).Some? then FirstMatch(a, query) else FirstMatch(b, query)
    decreases |a|
  {
    if |a| > 0 {
      FirstMatchAppend(a[1..], b, query);
      assert (a + b)[1..] == a[1..] + b;
    } else {
      assert a + b == b;
    }
  }

  /** Tries the file name and the display name (when names are searched),
      then the artist, the title and the album, each only when searched and
      present; the first that satisfies the query is reported. */
  function TrackMatchesQuery(t: Track, query: SearchQuery): Option<FieldMatch> {
    if query.fields.name && Compare(t.fileName, query) then Some(FieldMatch("filename", t.fileName))
    else if query.fields.name && Compare(t.displayName, query) then Some(FieldMatch("name", t.displayName))
    else if query.fields.artist && t.artist.Some? && Compare(t.artist.value, query) then Some(FieldMatch("artist", t.artist.value))
    else if query.fields.title && t.title.Some? && Compare(t.title.value, query) then Some(FieldMatch("title", t.title.value))
    else if query.fields.album && t.album.Some? && Compare(t.album.value, query) then Some(FieldMatch("album", t.album.value))
    else None
  }

  /** Matching a track is taking the first matching candidate field in
      the fixed order file name, display name, artist, title, album. */
  lemma TrackMatchesFirstCandidate(t: Track, query: SearchQuery)
    ensures TrackMatchesQuery(t, query) == FirstMatch(Candidates(t, query), query)
  {
    var names := if query.fields.name then [FieldMatch("filename", t.fileName), FieldMatch("name", t.displayName)] else [];
    var artist := if query.fields.artist && t.artist.Some? then [FieldMatch("artist", t.artist.value)] else [];
    var title := if query.fields.title && t.title.Some? then [FieldMatch("title", t.title.value)] else [];
    var album := if query.fields.album && t.album.Some? then [FieldMatch("album", t.album.value)] else [];
    FirstMatchAppend(names + artist + title, album, query);
    FirstMatchAppend(names + artist, title, query);
    FirstMatchAppend(names, artist, query);
    if query.fields.name {
      assert names[1..] == [FieldMatch("name", t.displayName)];
      assert names[1..][1..] == [];
      assert FirstMatch(names[1..][1..], query) == None;
      assert FirstMatch(names[1..], query) == if Compare(t.displayName, query) then Some(names[1]) else None;
    }
  }

  /** A track matches exactly when some searched field matches, and the
      reported field matches while none tried before it does. */
  lemma TrackMatchSpec(t: Track, query: SearchQuery)
    ensures var cs := Candidates(t, query);
      && (TrackMatchesQuery(t, query).None? <==> forall i :: 0 <= i < |cs| ==> !Compare(cs[i].value, query))
      && (TrackMatchesQuery(t, query).Some? ==>
          exists i :: 0 <= i < |cs| && cs[i] == TrackMatchesQuery(t, query).value && Compare(cs[i].value, query)
            && forall j :: 0 <= j < i ==> !Compare(cs[j].value, query))
  {
    TrackMatchesFirstCandidate(t, query);
    FirstMatchShape(Candidates(t, query), query);
  }

  // ---------------------------------------------------------------------
  // Scanning the playlist

  /** Numbers the matches of a scan: one result per track that matched,
      in playlist order, numbered from 1. `ms[i]` is the match of track `i`. */
  function Numbered(ms: seq<Option<FieldMatch>>): seq<SearchResult>
  {
    if |ms| == 0 then []
    else
      var before := Numbered(ms[..|ms| - 1]);
      var m := ms[|ms| - 1];
      if m.Some? then before + [SearchResult(|before| + 1, |ms| - 1, m.value)] else before
  }

  /** Results are numbered consecutively from 1, name tracks in strictly
      increasing order, and report each such track's match. */
  lemma {:induction false} NumberedSound(ms: seq<Option<FieldMatch>>)
    ensures forall k :: 0 <= k < |Numbered(ms)| ==> Numbered(ms)[k].resultIndex == k + 1
    ensures forall k :: 0 <= k < |Numbered(ms)| ==>
      0 <= Numbered(ms)[k].trackIndex < |ms| && ms[Numbered(ms)[k].trackIndex] == Some(Numbered(ms)[k].matched)
    ensures forall k, l :: 0 <= k < l < |Numbered(ms)| ==> Numbered(ms)[k].trackIndex < Numbered(ms)[l].trackIndex
  {
    if |ms| > 0 {
      var init := ms[..|ms| - 1];
      NumberedSound(init);
      var before := Numbered(init);
      var rs := Numbered(ms);
      forall k | 0 <= k < |before|
        ensures rs[k] == before[k] && 0 <= rs[k].trackIndex < |ms| - 1
        ensures ms[rs[k].trackIndex] == Some(rs[k].matched)
      {
        assert ms[before[k].trackIndex] == init[before[k].trackIndex];
      }
    }
  }

  /** Every track that matched has a result. */
  lemma {:induction false} NumberedComplete(ms: seq<Option<FieldMatch>>, i: int)
    requires 0 <= i < |ms| && ms[i].Some?
    ensures exists k :: 0 <= k < |Numbered(ms)| && Numbered(ms)[k].trackIndex == i
  {
    var init := ms[..|ms| - 1];
    var before := Numbered(init);
    if i < |ms| - 1 {
      NumberedComplete(init, i);
      var k :| 0 <= k < |before| && before[k].trackIndex == i;
      assert Numbered(ms)[k] == before[k];
    } else {
      assert Numbered(ms)[|before|].trackIndex == i;
    }
  }

  /** Scans every track in order and reports one numbered result for each
      track that matches. The scan over `0...count - 1` needs at least one
      track. */
  method Search(p: Playlist, query: SearchQuery) returns (results: seq<SearchResult>)
    requires |p.tracks| > 0
    ensures forall k :: 0 <= k < |results| ==> results[k].resultIndex == k + 1
    ensures forall k :: 0 <= k < |results| ==>
      0 <= results[k].trackIndex < |p.tracks|
      && TrackMatchesQuery(p.tracks[results[k].trackIndex], query) == Some(results[k].matched)
    ensures forall k, l :: 0 <= k < l < |results| ==> results[k].trackIndex < results[l].trackIndex
    ensures forall i :: 0 <= i < |p.tracks| && TrackMatchesQuery(p.tracks[i], query).Some? ==>
      exists k :: 0 <= k < |results| && results[k].trackIndex == i
  {
    ghost var ms := seq(|p.tracks|, j requires 0 <= j < |p.tracks| => TrackMatchesQuery(p.tracks[j], query));
    results := [];
    var resultIndex := 1;
    var i := 0;
    while i < |p.tracks|
      invariant 0 <= i <= |p.tracks|
      invariant results == Numbered(ms[..i])
      invariant resultIndex == |results| + 1
    {
      var m := TrackMatchesQuery(p.tracks[i], query);
      assert ms[..i + 1][..i] == ms[..i];
      if m.Some? {
        results := results + [SearchResult(resultIndex, i, m.value)];
        resultIndex := resultIndex + 1;
      }
      i := i + 1;
    }
    assert ms[..i] == ms;
    NumberedSound(ms);
    forall j | 0 <= j < |p.tracks| && TrackMatchesQuery(p.tracks[j], query).Some?
      ensures exists k :: 0 <= k < |results| && results[k].trackIndex == j
    {
      NumberedComplete(ms, j);
    }
  }
}

=== FILE: playlist_sort.dfy ===
/** Sorting the flat playlist by display name or by duration, ascending or
    descending. The comparator is strict ("comes before"); the result is a
    permutation of the tracks in which no track comes before one placed
    earlier. Ties may end up in any order. */
module PlaylistSort {
  import opened Playlist
  import opened SortOptions

  /** Lexicographic order on strings, character by character. */
  predicate LexLess(a: string, b: string)
    decreases |a|
  {
    if |a| == 0 then |b| > 0
    else |b| > 0 && (a[0] < b[0] || (a[0] == b[0] && LexLess(a[1..], b[1..])))
  }

  lemma {:induction false} LexLessAsym(a: string, b: string)
    ensures !(LexLess(a, b) && LexLess(b, a))
    decreases |a|
  {
    if |a| > 0 && |b| > 0 && a[0] == b[0] {
      LexLessAsym(a[1..], b[1..]);
    }
  }

  lemma {:induction false} LexLessTrans(a: string, b: string, c: string)
    requires LexLess(a, b) && LexLess(b, c)
    ensures LexLess(a, c)
    decreases |a|
  {
    if |a| > 0 && a[0] == b[0] && b[0] == c[0] {
      LexLessTrans(a[1..], b[1..], c[1..]);
    }
  }

  /** Two strings neither of which is less than the other are equal. */
  lemma {:induction false} LexLessTotal(a: string, b: string)
    requires !LexLess(a, b) && !LexLess(b, a)
    ensures a == b
    decreases |a|
  {
    if |a| > 0 {
      LexLessTotal(a[1..], b[1..]);
      assert a == [a[0]] + a[1..] && b == [b[0]] + b[1..];
    }
  }

  /** The comparator the sort uses: whether `a` must come before `b`. By
      name it compares display names, by duration it compares durations;
      descending order flips the comparison. */
  predicate ComesBefore(spec: SortSpec, a: Track, b: Track) {
    match (spec.field, spec.order)
    case (Name, Ascending) => LexLess(a.displayName, b.displayName)
    case (Name, Descending) => LexLess(b.displayName, a.displayName)
    case (Duration, Ascending) => a.duration < b.duration
    case (Duration, Descending) => a.duration > b.duration
  }

  /** No track comes before a track placed earlier. */
  predicate Sorted(s: seq<Track>, spec: SortSpec) {
    forall i, j :: 0 <= i < j < |s| ==> !ComesBefore(spec, s[j], s[i])
  }

  lemma ComesBeforeAsym(spec: SortSpec, a: Track, b: Track)
    ensures !(ComesBefore(spec, a, b) && ComesBefore(spec, b, a))
  {
    LexLessAsym(a.displayName, b.displayName);
  }

  /** "Need not come after" is transitive: the comparator is a strict weak
      order. */
  lemma NotBeforeTrans(spec: SortSpec, a: Track, b: Track, c: Track)
    requires !ComesBefore(spec, b, a) && !ComesBefore(spec, c, b)
    ensures !ComesBefore(spec, c, a)
  {
    if spec.field == Name {
      var x, y, z := a.displayName, b.displayName, c.displayName;
      if spec.order == Ascending {
        if LexLess(z, x) {
          if x == y || y == z {
          } else {
            if !LexLess(x, y) { LexLessTotal(x, y); }
            if !LexLess(y, z) { LexLessTotal(y, z); }
            LexLessTrans(x, y, z);
            LexLessAsym(x, z);
          }
        }
      } else {
        if LexLess(x, z) {
          if x == y || y == z {
          } else {
            if !LexLess(y, x) { LexLessTotal(x, y); }
            if !LexLess(z, y) { LexLessTotal(y, z); }
            LexLessTrans(z, y, x);
            LexLessAsym(x, z);
          }
        }
      }
    }
  }

  /** Inserts `x` in front of the first track it comes before. */
  function Insert(x: Track, s: seq<Track>, spec: SortSpec): (r: seq<Track>)
    ensures |r| == |s| + 1
  {
    if |s| == 0 then [x]
    else if ComesBefore(spec, x, s[0]) then [x] + s
    else [s[0]] + Insert(x, s[1..], spec)
  }

  function InsertionSort(s: seq<Track>, spec: SortSpec): (r: seq<Track>)
    ensures |r| == |s|
  {
    if |s| == 0 then [] else Insert(s[0], InsertionSort(s[1..], spec), spec)
  }

  lemma {:induction false} InsertPermutes(x: Track, s: seq<Track>, spec: SortSpec)
    ensures multiset(Insert(x, s, spec)) == multiset(s) + multiset{x}
  {
    if |s| > 0 && !ComesBefore(spec, x, s[0]) {
      InsertPermutes(x, s[1..], spec);
      assert s == [s[0]] + s[1..];
    }
  }

  /** Every track of `Insert(x, s)` is `x` or a track of `s`. */
  lemma InsertMembers(x: Track, s: seq<Track>, spec: SortSpec, k: int)
    requires 0 <= k < |s| + 1
    ensures Insert(x, s, spec)[k] == x || Insert(x, s, spec)[k] in s
  {
    InsertPermutes(x, s, spec);
    var r := Insert(x, s, spec);
    assert r[k] in multiset(r);
  }

  lemma {:induction false} InsertSorted(x: Track, s: seq<Track>, spec: SortSpec)
    requires Sorted(s, spec)
    ensures Sorted(Insert(x, s, spec), spec)
  {
    if |s| == 0 {
    } else if ComesBefore(spec, x, s[0]) {
      var r := [x] + s;
      forall i, j | 0 <= i < j < |r| ensures !ComesBefore(spec, r[j], r[i]) {
        if i == 0 {
          ComesBeforeAsym(spec, x, s[0]);
          if j > 1 {
            NotBeforeTrans(spec, x, s[0], s[j - 1]);
          }
        }
      }
    } else {
      var rest := s[1..];
      InsertSorted(x, rest, spec);
      var tail := Insert(x, rest, spec);
      var r := [s[0]] + tail;
      forall j | 0 < j < |r| ensures !ComesBefore(spec, r[j], s[0]) {
        InsertMembers(x, rest, spec, j - 1);
        if tail[j - 1] != x {
          var m :| 0 <= m < |rest| && rest[m] == tail[j - 1];
          assert s[m + 1] == rest[m];
        }
      }
    }
  }

  lemma {:induction false} InsertionSortCorrect(s: seq<Track>, spec: SortSpec)
    ensures Sorted(InsertionSort(s, spec), spec)
    ensures multiset(InsertionSort(s, spec)) == multiset(s)
  {
    if |s| > 0 {
      InsertionSortCorrect(s[1..], spec);
      InsertSorted(s[0], InsertionSort(s[1..], spec), spec);
      InsertPermutes(s[0], InsertionSort(s[1..], spec), spec);
      assert s == [s[0]] + s[1..];
    }
  }

  /** Sorts the track sequence; the path map is untouched. The result holds
      the same tracks, in order of the chosen field and direction. */
  function Sort(p: Playlist, spec: SortSpec): (r: Playlist)
    ensures r.byPath == p.byPath
    ensures multiset(r.tracks) == multiset(p.tracks)
    ensures Valid(p) ==> Valid(r)
    ensures spec.field == Duration && spec.order == Ascending ==>
      forall i, j :: 0 <= i < j < |r.tracks| ==> r.tracks[i].duration <= r.tracks[j].duration
    ensures spec.field == Duration && spec.order == Descending ==>
      forall i, j :: 0 <= i < j < |r.tracks| ==> r.tracks[i].duration >= r.tracks[j].duration
    ensures spec.field == Name && spec.order == Ascending ==>
      forall i, j :: 0 <= i < j < |r.tracks| ==> !LexLess(r.tracks[j].displayName, r.tracks[i].displayName)
    ensures spec.field == Name && spec.order == Descending ==>
      forall i, j :: 0 <= i < j < |r.tracks| ==> !LexLess(r.tracks[i].displayName, r.tracks[j].displayName)
  {
    var t := InsertionSort(p.tracks, spec);
    InsertionSortCorrect(p.tracks, spec);
    PermutedStoreValid(p, t);
    Playlist(t, p.byPath)
  }
}

=== FILE: sort_options.dfy ===
/** Sort criteria for the playlist: which field, which direction, and
    whether grouped views also sort the tracks inside each group. */
module SortOptions {

  datatype SortField = Name | Duration

  datatype SortOrder = Ascending | Descending

  /** `sortTracksInGroups` is on unless the caller switches it off. */
  datatype SortSpec = SortSpec(field: SortField, order: SortOrder, sortTracksInGroups: bool)

  /** A fresh sort request: by name, ascending, tracks in groups sorted too. */
  function DefaultSort(): (r: SortSpec)
    ensures r.field == Name && r.order == Ascending && r.sortTracksInGroups
  {
    SortSpec(Name, Ascending, true)
  }
}

=== FILE: string_utils.dfy ===
/** The player's text helpers: clock-style and spelled-out durations,
    camel-case splitting and joining, thousands separators and the blank
    string test. Swift's `/` and `%` on Int truncate toward zero; `Quot`
    and `Rem` model them, so negative inputs behave as in the program. */
module StringUtils {
  import opened Text

  const OneMin: int := 60
  const OneHour: int := 60 * OneMin

  // ---------------------------------------------------------------------
  // Truncating integer division

  /** Swift's `a / b`: the quotient rounded toward zero. */
  function Quot(a: int, b: int): int
    requires b > 0
  {
    if a >= 0 then a / b else -((-a) / b)
  }

  /** Swift's `a % b`: quotient and remainder recompose the dividend, and
      the remainder takes the sign of the dividend and is smaller than `b`
      in size. Together these fix truncation toward zero: with Euclidean
      division -7 / 2 would be -4, here `Quot(-7, 2)` is -3 and
      `Rem(-7, 2)` is -1. */
  function Rem(a: int, b: int): (r: int)
    requires b > 0
    ensures a == Quot(a, b) * b + r
    ensures a >= 0 ==> 0 <= r < b
    ensures a < 0 ==> -b < r <= 0
  {
    if a >= 0 then a % b else -((-a) % b)
  }

  // ---------------------------------------------------------------------
  // Fields and words

  /** The pieces of `s` between occurrences of `sep`, empty pieces kept. */
  function Fields(s: string, sep: char): (r: seq<string>)
    ensures |r| >= 1
  {
    if |s| == 0 then [""]
    else
      var rest := Fields(s[1..], sep);
      if s[0] == sep then [""] + rest else [[s[0]] + rest[0]] + rest[1..]
  }

  lemma {:induction false} FieldsSingle(a: string, sep: char)
    requires sep !in a
    ensures Fields(a, sep) == [a]
  {
    if |a| > 0 {
      assert a[0] in a;
      FieldsSingle(a[1..], sep);
      assert a == [a[0]] + a[1..];
    }
  }

  lemma {:induction false} FieldsCons(a: string, sep: char, b: string)
    requires sep !in a
    ensures Fields(a + [sep] + b, sep) == [a] + Fields(b, sep)
  {
    var s := a + [sep] + b;
    if |a| == 0 {
      assert s[1..] == b;
    } else {
      assert a[0] in a;
      assert s[1..] == a[1..] + [sep] + b;
      FieldsCons(a[1..], sep, b);
      assert a == [a[0]] + a[1..];
    }
  }

  /** One trailing separator adds one empty field at the end. */
  lemma {:induction false} FieldsSnoc(a: string, sep: char)
    ensures Fields(a + [sep], sep) == Fields(a, sep) + [""]
  {
    if |a| > 0 {
      assert (a + [sep])[1..] == a[1..] + [sep];
      FieldsSnoc(a[1..], sep);
    }
  }

  function NonEmptyOnly(ws: seq<string>): (r: seq<string>)
    ensures forall i :: 0 <= i < |r| ==> |r[i]| > 0
  {
    if |ws| == 0 then []
    else (if |ws[0]| > 0 then [ws[0]] else []) + NonEmptyOnly(ws[1..])
  }

  lemma {:induction false} NonEmptyOnlyAppend(a: seq<string>, b: seq<string>)
    ensures NonEmptyOnly(a + b) == NonEmptyOnly(a) + NonEmptyOnly(b)
  {
    if |a| > 0 {
      assert (a + b)[1..] == a[1..] + b;
      NonEmptyOnlyAppend(a[1..], b);
    } else {
      assert a + b == b;
    }
  }

  /** The space-separated words of `s`, with runs of spaces and leading or
      trailing spaces producing no empty words. */
  function Words(s: string): seq<string> {
    NonEmptyOnly(Fields(s, ' '))
  }

  predicate NoSpace(s: string) {
    ' ' !in s
  }

  lemma WordsSingle(a: string)
    requires NoSpace(a) && |a| > 0
    ensures Words(a) == [a]
  {
    FieldsSingle(a, ' ');
    assert [a][1..] == [];
    assert NonEmptyOnly([a]) == [a] + NonEmptyOnly([]);
  }

  lemma WordsCons(a: string, b: string)
    requires NoSpace(a) && |a| > 0
    ensures Words(a + " " + b) == [a] + Words(b)
  {
    FieldsCons(a, ' ', b);
    NonEmptyOnlyAppend([a], Fields(b, ' '));
  }

  lemma WordsTrailingSpace(a: string)
    ensures Words(a + " ") == Words(a)
  {
    FieldsSnoc(a, ' ');
    NonEmptyOnlyAppend(Fields(a, ' '), [""]);
  }

  predicate IsNumeral(s: string) {
    |s| > 0 && AllDigits(s)
  }

  lemma NumeralHasNo(s: string, c: char)
    requires AllDigits(s) && !IsDigit(c)
    ensures c !in s
  {
    assert forall i :: 0 <= i < |s| ==> s[i] != c;
  }

  /** The rendering of a natural number is a numeral without separators. */
  lemma NatNumeral(n: nat)
    ensures IsNumeral(NatToString(n))
    ensures NoSpace(NatToString(n)) && ':' !in NatToString(n)
    ensures DigitsValue(NatToString(n)) == n
  {
    NatToStringShape(n);
    NatToStringRoundTrip(n);
    NumeralHasNo(NatToString(n), ' ');
    NumeralHasNo(NatToString(n), ':');
  }

  // ---------------------------------------------------------------------
  // Clock-style durations: "h:mm:ss" and "m:ss"

  /** `%02d`: at least two characters, zero-padded after any sign. */
  function Pad2(n: int): string {
    if 0 <= n < 10 then "0" + NatToString(n) else IntToString(n)
  }

  lemma Pad2Digits(n: int)
    requires 0 <= n < 100
    ensures |Pad2(n)| == 2 && AllDigits(Pad2(n)) && ':' !in Pad2(n)
    ensures DigitsValue(Pad2(n)) == n
  {
    NatNumeral(n);
    var p := Pad2(n);
    if n < 10 {
      assert p[..1] == "0";
    } else {
      NatNumeral(n / 10);
      assert NatToString(n) == NatToString(n / 10) + [DigitChar(n % 10)];
    }
    NumeralHasNo(p, ':');
  }

  function Colon(a: string, b: string): string {
    a + ":" + b
  }

  /** formatSecondsToHMS on a whole number of seconds: "%d:%02d:%02d" with
      hours, "%d:%02d" without, after an optional minus sign. */
  function FormatSecondsToHMS(timeSeconds: int, includeMinusPrefix: bool): string {
    var secs := Rem(timeSeconds, OneMin);
    var mins := Rem(Quot(timeSeconds, OneMin), OneMin);
    var hrs := Quot(timeSeconds, OneHour);
    var prefix := if includeMinusPrefix then "-" else "";
    prefix + (if hrs > 0 then Colon(IntToString(hrs), Colon(Pad2(mins), Pad2(secs)))
              else Colon(IntToString(mins), Pad2(secs)))
  }

  /** Reads "m:ss" or "h:mm:ss" back into seconds. */
  function ParseClock(s: string): Option<nat> {
    var f := Fields(s, ':');
    if |f| == 2 && IsNumeral(f[0]) && |f[1]| == 2 && AllDigits(f[1]) then
      Some(DigitsValue(f[0]) * OneMin + DigitsValue(f[1]))
    else if |f| == 3 && IsNumeral(f[0]) && |f[1]| == 2 && AllDigits(f[1])
            && |f[2]| == 2 && AllDigits(f[2]) then
      Some(DigitsValue(f[0]) * OneHour + DigitsValue(f[1]) * OneMin + DigitsValue(f[2]))
    else None
  }

  /** Hours, minutes of the hour and seconds of the minute recompose `t`. */
  lemma ClockArithmetic(t: int)
    requires t >= 0
    ensures t == (t / 3600) * 3600 + ((t / 60) % 60) * 60 + t % 60
    ensures t / 3600 == 0 ==> (t / 60) % 60 == t / 60
    ensures (t / 60) / 60 == t / 3600
  {
    var q, r := t / 60, t % 60;
    assert t == q * 60 + r;
    var h, m := q / 60, q % 60;
    assert q == h * 60 + m;
    assert t == h * 3600 + (m * 60 + r);
    assert 0 <= m * 60 + r < 3600;
  }

  lemma ClockWithHours(t: int)
    requires t >= OneHour
    ensures ParseClock(FormatSecondsToHMS(t, false)) == Some(t)
    ensures |Fields(FormatSecondsToHMS(t, false), ':')| == 3
    ensures FormatSecondsToHMS(t, false)[0] != '-'
  {
    ClockArithmetic(t);
    var secs, mins, hrs := t % 60, (t / 60) % 60, t / 3600;
    assert Rem(t, OneMin) == secs && Quot(t, OneMin) == t / 60;
    assert Rem(t / 60, OneMin) == mins && Quot(t, OneHour) == hrs;
    Pad2Digits(mins);
    Pad2Digits(secs);
    var a, b, c := NatToString(hrs), Pad2(mins), Pad2(secs);
    NatNumeral(hrs);
    var s := FormatSecondsToHMS(t, false);
    assert s == Colon(a, Colon(b, c));
    FieldsCons(a, ':', b + [':'] + c);
    FieldsCons(b, ':', c);
    FieldsSingle(c, ':');
    assert s[0] == a[0];
  }

  lemma ClockWithoutHours(t: int)
    requires 0 <= t < OneHour
    ensures ParseClock(FormatSecondsToHMS(t, false)) == Some(t)
    ensures |Fields(FormatSecondsToHMS(t, false), ':')| == 2
    ensures FormatSecondsToHMS(t, false)[0] != '-'
  {
    ClockArithmetic(t);
    var secs, mins := t % 60, t / 60;
    assert Rem(t, OneMin) == secs && Quot(t, OneMin) == mins;
    assert Rem(mins, OneMin) == mins && Quot(t, OneHour) == 0;
    Pad2Digits(secs);
    var a, c := NatToString(mins), Pad2(secs);
    NatNumeral(mins);
    var s := FormatSecondsToHMS(t, false);
    assert s == Colon(a, c);
    FieldsCons(a, ':', c);
    FieldsSingle(c, ':');
    assert s[0] == a[0];
  }

  /** The clock text reads back as the number of seconds it was made from,
      with three fields exactly when there is at least an hour, and the
      minus sign appears only when asked for. */
  lemma ClockRoundTrip(t: int)
    requires t >= 0
    ensures ParseClock(FormatSecondsToHMS(t, false)) == Some(t)
    ensures |Fields(FormatSecondsToHMS(t, false), ':')| == (if t >= OneHour then 3 else 2)
    ensures FormatSecondsToHMS(t, true) == "-" + FormatSecondsToHMS(t, false)
    ensures FormatSecondsToHMS(t, false)[0] != '-'
  {
    if t >= OneHour {
      ClockWithHours(t);
    } else {
      ClockWithoutHours(t);
    }
    var s := FormatSecondsToHMS(t, false);
    assert "" + s == s;
  }

  lemma ClockExamples()
    ensures FormatSecondsToHMS(500, false) == "8:20"
    ensures FormatSecondsToHMS(3675, false) == "1:01:15"
  {
    assert NatToString(20) == "20";
    assert NatToString(15) == "15";
  }

  // ---------------------------------------------------------------------
  // Spelled-out durations: "N hr M min S sec"

  /** `%d <unit>`: an amount followed by its unit. */
  function Amount(n: int, unit: string): string {
    IntToString(n) + " " + unit
  }

  predicate IsUnit(u: string) {
    u == "hr" || u == "min" || u == "sec"
  }

  /** The seconds in `n` of the unit `u`. */
  function InSeconds(n: nat, u: string): nat
    requires IsUnit(u)
  {
    if u == "hr" then n * OneHour else if u == "min" then n * OneMin else n
  }

  /** Reads a list of words "N unit N unit ..." as a number of seconds. */
  function PhraseValue(ws: seq<string>): Option<nat>
    decreases |ws|
  {
    if |ws| == 0 then Some(0)
    else if |ws| >= 2 && IsNumeral(ws[0]) && IsUnit(ws[1]) then
      match PhraseValue(ws[2..])
      case Some(v) => Some(InSeconds(DigitsValue(ws[0]), ws[1]) + v)
      case None => None
    else None
  }

  /** Reads a spelled-out duration back into seconds. */
  function ReadDuration(s: string): Option<nat> {
    PhraseValue(Words(s))
  }

  lemma WordsAmount(n: nat, unit: string, rest: string)
    requires NoSpace(unit) && |unit| > 0
    ensures Words(Amount(n, unit) + " " + rest) == [NatToString(n), unit] + Words(rest)
  {
    NatNumeral(n);
    assert Amount(n, unit) + " " + rest == NatToString(n) + " " + (unit + " " + rest);
    WordsCons(NatToString(n), unit + " " + rest);
    WordsCons(unit, rest);
  }

  lemma WordsLastAmount(n: nat, unit: string)
    requires NoSpace(unit) && |unit| > 0
    ensures Words(Amount(n, unit)) == [NatToString(n), unit]
  {
    NatNumeral(n);
    WordsCons(NatToString(n), unit);
    WordsSingle(unit);
  }

  lemma PhraseCons(n: nat, unit: string, rest: seq<string>, v: nat)
    requires IsUnit(unit) && PhraseValue(rest) == Some(v)
    ensures PhraseValue([NatToString(n), unit] + rest) == Some(InSeconds(n, unit) + v)
  {
    NatNumeral(n);
    assert ([NatToString(n), unit] + rest)[2..] == rest;
  }

  /** formatSecondsToHMS_minSec. */
  function FormatMinSec(duration: int): string {
    var secs := Rem(duration, OneMin);
    var mins := Quot(duration, OneMin);
    if mins > 0 then
      (if secs > 0 then Amount(mins, "min") + " " + Amount(secs, "sec") else Amount(mins, "min"))
    else Amount(secs, "sec")
  }

  lemma MinSecShape(d: nat)
    ensures FormatMinSec(d) ==
      if d / OneMin > 0 then
        (if d % OneMin > 0 then Amount(d / OneMin, "min") + " " + Amount(d % OneMin, "sec")
         else Amount(d / OneMin, "min"))
      else Amount(d % OneMin, "sec")
  {
  }

  lemma MinSecPartsWords(mins: nat, secs: nat)
    ensures Words(if mins > 0 then
                    (if secs > 0 then Amount(mins, "min") + " " + Amount(secs, "sec") else Amount(mins, "min"))
                  else Amount(secs, "sec"))
      == PartWords(mins > 0, mins, "min") + PartWords(mins == 0 || secs > 0, secs, "sec")
  {
    if mins > 0 && secs > 0 {
      WordsAmount(mins, "min", Amount(secs, "sec"));
      WordsLastAmount(secs, "sec");
    } else if mins > 0 {
      WordsLastAmount(mins, "min");
      assert PartWords(mins > 0, mins, "min") + [] == PartWords(mins > 0, mins, "min");
    } else {
      WordsLastAmount(secs, "sec");
      assert [] + PartWords(true, secs, "sec") == PartWords(true, secs, "sec");
    }
  }

  lemma MinSecPartsValue(mins: nat, secs: nat)
    ensures PhraseValue(PartWords(mins > 0, mins, "min") + PartWords(mins == 0 || secs > 0, secs, "sec"))
      == Some(mins * OneMin + secs)
  {
    var secsWords := PartWords(mins == 0 || secs > 0, secs, "sec");
    if mins == 0 || secs > 0 {
      PhraseCons(secs, "sec", [], 0);
      assert secsWords == [NatToString(secs), "sec"] + [];
    }
    assert PhraseValue(secsWords) == Some(secs);
    if mins > 0 {
      PhraseCons(mins, "min", secsWords, secs);
    } else {
      assert PartWords(false, mins, "min") + secsWords == secsWords;
    }
  }

  /** The minutes-and-seconds text names minutes exactly from a minute up,
      and seconds unless they are zero with minutes present; it reads back
      as the duration. */
  lemma MinSecRoundTrip(d: int)
    requires d >= 0
    ensures Words(FormatMinSec(d)) ==
      PartWords(d >= OneMin, d / OneMin, "min") + PartWords(d < OneMin || d % OneMin != 0, d % OneMin, "sec")
    ensures ReadDuration(FormatMinSec(d)) == Some(d)
  {
    MinSecShape(d);
    MinSecPartsWords(d / OneMin, d % OneMin);
    MinSecPartsValue(d / OneMin, d % OneMin);
  }

  lemma MinSecExamples()
    ensures FormatMinSec(500) == "8 min 20 sec"
    ensures FormatMinSec(120) == "2 min"
    ensures FormatMinSec(36) == "36 sec"
  {
    assert NatToString(20) == "20";
    assert NatToString(36) == "36";
  }

  /** The words a part contributes when it is shown. */
  function PartWords(shown: bool, n: nat, unit: string): seq<string> {
    if shown then [NatToString(n), unit] else []
  }

  function HrsStr(hrs: int): string {
    if hrs > 0 then Amount(hrs, "hr") + " " else ""
  }

  function SecsStr(secs: int): string {
    if secs > 0 then Amount(secs, "sec") else ""
  }

  /** "0 min " (that is, Amount(0, "min") + " ") bridges hours and seconds. */
  function MinsStr(hrs: int, mins: int, secs: int): string {
    if mins > 0 then Amount(mins, "min") + " "
    else if hrs > 0 && secs > 0 then Amount(0, "min") + " " else ""
  }

  /** formatSecondsToHMS_hrMinSec, as written: every part but the seconds
      carries a trailing space, so a duration without seconds ends in one. */
  function FormatHrMinSec(duration: int): string {
    var hrs := Quot(duration, OneHour);
    var mins := Quot(duration - hrs * OneHour, OneMin);
    var secs := Rem(duration, OneMin);
    HrsStr(hrs) + (MinsStr(hrs, mins, secs) + SecsStr(secs))
  }

  lemma HrMinSecArithmetic(d: int)
    requires d >= 0
    ensures Quot(d, OneHour) == d / OneHour
    ensures Quot(d - (d / OneHour) * OneHour, OneMin) == (d % OneHour) / OneMin
    ensures Rem(d, OneMin) == d % OneMin
    ensures d == (d / OneHour) * OneHour + ((d % OneHour) / OneMin) * OneMin + d % OneMin
  {
    var h, r := d / OneHour, d % OneHour;
    var m, s := r / OneMin, r % OneMin;
    assert d - h * OneHour == r;
    MinuteOf(h * OneMin + m, s);
  }

  /** Whole minutes and leftover seconds of a count of seconds. */
  lemma MinuteOf(q: int, s: int)
    requires 0 <= s < OneMin
    ensures (q * OneMin + s) % OneMin == s
    ensures (q * OneMin + s) / OneMin == q
  {
  }

  lemma SecsWords(secs: nat)
    ensures Words(SecsStr(secs)) == PartWords(secs > 0, secs, "sec")
    ensures PhraseValue(PartWords(secs > 0, secs, "sec")) == Some(secs)
  {
    if secs > 0 {
      WordsLastAmount(secs, "sec");
      PhraseCons(secs, "sec", [], 0);
    } else {
      assert Fields("", ' ') == [""];
      assert NonEmptyOnly([""]) == [] + NonEmptyOnly([]);
    }
  }

  lemma MinsShownWords(hrs: nat, mins: nat, secs: nat)
    requires mins > 0 || (hrs > 0 && secs > 0)
    ensures Words(MinsStr(hrs, mins, secs) + SecsStr(secs)) ==
      [NatToString(mins), "min"] + PartWords(secs > 0, secs, "sec")
  {
    SecsWords(secs);
    var m := if mins > 0 then mins else 0;
    assert m == mins;
    assert MinsStr(hrs, mins, secs) == Amount(m, "min") + " ";
    WordsAmount(m, "min", SecsStr(secs));
  }

  lemma MinsSecsWords(hrs: nat, mins: nat, secs: nat)
    ensures Words(MinsStr(hrs, mins, secs) + SecsStr(secs)) ==
      PartWords(mins > 0 || (hrs > 0 && secs > 0), mins, "min") + PartWords(secs > 0, secs, "sec")
  {
    SecsWords(secs);
    if mins > 0 || (hrs > 0 && secs > 0) {
      MinsShownWords(hrs, mins, secs);
    } else {
      assert MinsStr(hrs, mins, secs) == "";
      assert MinsStr(hrs, mins, secs) + SecsStr(secs) == SecsStr(secs);
    }
  }

  lemma MinsSecsValue(shown: bool, mins: nat, secs: nat)
    requires shown || mins == 0
    ensures PhraseValue(PartWords(shown, mins, "min") + PartWords(secs > 0, secs, "sec")) == Some(mins * OneMin + secs)
  {
    SecsWords(secs);
    var secsWords := PartWords(secs > 0, secs, "sec");
    if shown {
      PhraseCons(mins, "min", secsWords, secs);
    } else {
      assert PartWords(shown, mins, "min") + secsWords == secsWords;
    }
  }

  /** The words the hours-minutes-seconds text of `d` is meant to hold:
      hours from an hour up, minutes when there are whole minutes past the
      hour or when they must bridge hours and seconds, and seconds unless
      they are zero. */
  function HrMinSecWords(d: nat): seq<string> {
    var hrs, mins, secs := d / OneHour, (d % OneHour) / OneMin, d % OneMin;
    PartWords(hrs > 0, hrs, "hr")
    + (PartWords(mins > 0 || (hrs > 0 && secs > 0), mins, "min") + PartWords(secs > 0, secs, "sec"))
  }

  lemma PartsValue(hrs: nat, mins: nat, secs: nat)
    ensures PhraseValue(PartWords(hrs > 0, hrs, "hr")
      + (PartWords(mins > 0 || (hrs > 0 && secs > 0), mins, "min") + PartWords(secs > 0, secs, "sec")))
      == Some(hrs * OneHour + mins * OneMin + secs)
  {
    var shown := mins > 0 || (hrs > 0 && secs > 0);
    MinsSecsValue(shown, mins, secs);
    var tail := PartWords(shown, mins, "min") + PartWords(secs > 0, secs, "sec");
    if hrs > 0 {
      PhraseCons(hrs, "hr", tail, mins * OneMin + secs);
    } else {
      assert PartWords(hrs > 0, hrs, "hr") + tail == tail;
    }
  }

  lemma HrMinSecWordsValue(d: nat)
    ensures PhraseValue(HrMinSecWords(d)) == Some(d)
  {
    HrMinSecArithmetic(d);
    PartsValue(d / OneHour, (d % OneHour) / OneMin, d % OneMin);
  }

  /** The three parts of the text, with hours, minutes past the hour and
      seconds past the minute. */
  lemma HrMinSecShape(d: nat)
    ensures FormatHrMinSec(d) ==
      HrsStr(d / OneHour) + (MinsStr(d / OneHour, (d % OneHour) / OneMin, d % OneMin) + SecsStr(d % OneMin))
  {
    HrMinSecArithmetic(d);
  }

  lemma PartsWords(hrs: nat, mins: nat, secs: nat)
    ensures Words(HrsStr(hrs) + (MinsStr(hrs, mins, secs) + SecsStr(secs))) ==
      PartWords(hrs > 0, hrs, "hr")
      + (PartWords(mins > 0 || (hrs > 0 && secs > 0), mins, "min") + PartWords(secs > 0, secs, "sec"))
  {
    MinsSecsWords(hrs, mins, secs);
    var tail := MinsStr(hrs, mins, secs) + SecsStr(secs);
    if hrs > 0 {
      WordsAmount(hrs, "hr", tail);
    } else {
      assert HrsStr(hrs) + tail == tail;
    }
  }

  lemma HrMinSecTextWords(d: nat)
    ensures Words(FormatHrMinSec(d)) == HrMinSecWords(d)
  {
    HrMinSecShape(d);
    PartsWords(d / OneHour, (d % OneHour) / OneMin, d % OneMin);
  }

  /** The hours-minutes-seconds text holds the intended words and reads
      back as the duration. It is empty exactly for a zero duration: the
      seconds part is dropped when there are no seconds, so zero gives ""
      rather than "0 sec". */
  lemma HrMinSecRoundTrip(d: int)
    requires d >= 0
    ensures Words(FormatHrMinSec(d)) == HrMinSecWords(d)
    ensures ReadDuration(FormatHrMinSec(d)) == Some(d)
    ensures FormatHrMinSec(d) == "" <==> d == 0
  {
    HrMinSecTextWords(d);
    HrMinSecWordsValue(d);
    HrMinSecEmpty(d);
  }

  /** Only a zero duration gives the empty text. */
  lemma HrMinSecEmpty(d: nat)
    ensures FormatHrMinSec(d) == "" <==> d == 0
  {
    HrMinSecWordsValue(d);
    HrMinSecTextWords(d);
    WordsEmpty();
    assert PhraseValue([]) == Some(0);
    HrMinSecAt0();
  }

  lemma HrMinSecAt0()
    ensures FormatHrMinSec(0) == ""
  {
    assert FormatHrMinSec(0) == HrsStr(0) + (MinsStr(0, 0, 0) + SecsStr(0));
  }

  /** The hours-minutes-seconds text as written keeps the trailing space of
      its minutes part: two minutes read "2 min " and not "2 min". */
  lemma HrMinSecTrailingSpace()
    ensures FormatHrMinSec(120) == "2 min "
    ensures FormatHrMinSec(3600) == "1 hr "
  {
    HrMinSecAt120();
    HrMinSecAt3600();
  }

  /** Drops one trailing space, if there is one. */
  function DropTrailingSpace(s: string): string {
    if |s| > 0 && s[|s| - 1] == ' ' then s[..|s| - 1] else s
  }

  lemma DropTrailingSpaceWords(s: string)
    ensures Words(DropTrailingSpace(s)) == Words(s)
  {
    if |s| > 0 && s[|s| - 1] == ' ' {
      var r := s[..|s| - 1];
      assert s == r + " ";
      WordsTrailingSpace(r);
    }
  }

  /** The hours-minutes-seconds text never ends in two spaces. */
  lemma PartsEnd(hrs: nat, mins: nat, secs: nat)
    ensures var s := HrsStr(hrs) + (MinsStr(hrs, mins, secs) + SecsStr(secs));
            |s| < 2 || s[|s| - 2] != ' ' || s[|s| - 1] != ' '
  {
    var h, m, c := HrsStr(hrs), MinsStr(hrs, mins, secs), SecsStr(secs);
    var s := h + (m + c);
    if secs > 0 {
      assert c[|c| - 1] == 'c';
      assert s[|s| - 1] == c[|c| - 1];
    } else if mins > 0 {
      assert c == "";
      assert m[|m| - 2] == 'n';
      assert s[|s| - 2] == m[|m| - 2];
    } else if hrs > 0 {
      assert m + c == "";
      assert h[|h| - 2] == 'r';
      assert s == h;
    } else {
      assert s == "";
    }
  }

  /** The hours-minutes-seconds text without the trailing space. */
  function FormatHrMinSecTrimmed(duration: int): string {
    DropTrailingSpace(FormatHrMinSec(duration))
  }

  lemma TrimmedParts(hrs: nat, mins: nat, secs: nat)
    ensures var s := HrsStr(hrs) + (MinsStr(hrs, mins, secs) + SecsStr(secs));
            var r := DropTrailingSpace(s);
            Words(r) == Words(s) && (|r| == 0 || r[|r| - 1] != ' ')
  {
    var s := HrsStr(hrs) + (MinsStr(hrs, mins, secs) + SecsStr(secs));
    DropTrailingSpaceWords(s);
    PartsEnd(hrs, mins, secs);
  }

  /** The trimmed text holds the same words, so it reads back as the
      duration, and it never ends with a space. */
  lemma HrMinSecTrimmedCorrect(d: int)
    requires d >= 0
    ensures Words(FormatHrMinSecTrimmed(d)) == HrMinSecWords(d)
    ensures var r := FormatHrMinSecTrimmed(d); |r| == 0 || r[|r| - 1] != ' '
    ensures ReadDuration(FormatHrMinSecTrimmed(d)) == Some(d)
  {
    HrMinSecShape(d);
    TrimmedParts(d / OneHour, (d % OneHour) / OneMin, d % OneMin);
    HrMinSecTextWords(d);
    HrMinSecWordsValue(d);
  }

  lemma HrMinSecAt120()
    ensures FormatHrMinSec(120) == "2 min "
  {
    assert FormatHrMinSec(120) == HrsStr(0) + (MinsStr(0, 2, 0) + SecsStr(0));
  }

  lemma HrMinSecAt3600()
    ensures FormatHrMinSec(3600) == "1 hr "
  {
    assert FormatHrMinSec(3600) == HrsStr(1) + (MinsStr(1, 0, 0) + SecsStr(0));
  }

  lemma PartsAt500()
    ensures HrsStr(0) + (MinsStr(0, 8, 20) + SecsStr(20)) == "8 min 20 sec"
  {
    assert MinsStr(0, 8, 20) == "8 min ";
    assert NatToString(20) == "20";
  }

  lemma HrMinSecAt500()
    ensures FormatHrMinSec(500) == "8 min 20 sec"
  {
    assert FormatHrMinSec(500) == HrsStr(0) + (MinsStr(0, 8, 20) + SecsStr(20));
    PartsAt500();
  }

  lemma HrMinSecAt36()
    ensures FormatHrMinSec(36) == "36 sec"
  {
    assert FormatHrMinSec(36) == HrsStr(0) + (MinsStr(0, 0, 36) + SecsStr(36));
    assert NatToString(36) == "36";
  }

  /** The trimmed text gives the examples documented in the Swift code. */
  lemma HrMinSecTrimmedExamples()
    ensures FormatHrMinSecTrimmed(500) == "8 min 20 sec"
    ensures FormatHrMinSecTrimmed(120) == "2 min"
    ensures FormatHrMinSecTrimmed(36) == "36 sec"
  {
    HrMinSecAt500();
    HrMinSecAt120();
    HrMinSecAt36();
  }

  // ---------------------------------------------------------------------
  // Camel case

  /** splitCamelCaseWord, one character at a time: an upper-case letter
      after the first character gets a space in front and is lower-cased
      unless every word is to be capitalized; the first character, when it
      is not an upper-case letter, is capitalized. */
  function SplitCamelFrom(word: string, capitalizeEachWord: bool, firstLetter: bool): string
    decreases |word|
  {
    if |word| == 0 then ""
    else
      var c := word[0];
      var rest := SplitCamelFrom(word[1..], capitalizeEachWord, false);
      if IsUpper(c) then
        (if firstLetter then "" else " ") + [if capitalizeEachWord then c else ToLower(c)] + rest
      else if firstLetter then [ToUpper(c)] + rest
      else [c] + rest
  }

  function SplitCamelCaseWord(word: string, capitalizeEachWord: bool): string {
    SplitCamelFrom(word, capitalizeEachWord, true)
  }

  /** Removes every space. */
  function Unspaced(s: string): (r: string)
    ensures NoSpace(r)
  {
    if |s| == 0 then ""
    else if s[0] == ' ' then Unspaced(s[1..])
    else [s[0]] + Unspaced(s[1..])
  }

  function CountUpper(s: string): nat {
    if |s| == 0 then 0 else (if IsUpper(s[0]) then 1 else 0) + CountUpper(s[1..])
  }

  /** What the split makes of its first character: an upper-case letter
      is kept, or lower-cased when words are not to be capitalized; any
      other character is capitalized. */
  function SplitFirst(c: char, capitalizeEachWord: bool): char {
    if IsUpper(c) && !capitalizeEachWord then ToLower(c) else ToUpper(c)
  }

  /** What the split makes of a later character: upper-case letters are
      lower-cased when words are not to be capitalized. */
  function SplitLater(c: char, capitalizeEachWord: bool): char {
    if IsUpper(c) && !capitalizeEachWord then ToLower(c) else c
  }

  /** Every space opens a word: it is followed by an upper-case letter, or
      by a lower-case one when words are not capitalized. */
  predicate SpacesOpenWords(r: string, capitalizeEachWord: bool) {
    forall i :: 0 <= i < |r| && r[i] == ' ' ==>
      i + 1 < |r| && (if capitalizeEachWord then IsUpper(r[i + 1]) else IsLower(r[i + 1]))
  }

  /** Where later character `j` of `t` lands in the split: after one extra
      space for each upper-case letter up to and including it. */
  function Place(t: string, j: int): int
    requires 0 <= j < |t|
  {
    j + CountUpper(t[..j + 1])
  }

  lemma CountUpperCons(t: string, j: int)
    requires 0 < j < |t|
    ensures CountUpper(t[..j + 1]) == (if IsUpper(t[0]) then 1 else 0) + CountUpper(t[1..][..j])
  {
    assert t[..j + 1][0] == t[0];
    assert t[..j + 1][1..] == t[1..][..j];
  }

  lemma {:induction false} SplitCamelLength(t: string, cap: bool)
    ensures |SplitCamelFrom(t, cap, false)| == |t| + CountUpper(t)
    decreases |t|
  {
    if |t| > 0 {
      SplitCamelLength(t[1..], cap);
    }
  }

  /** After the first character the split copies character `j` (lower-
      casing a capital when words are not capitalized) to `Place(t, j)`,
      with a space just before it when it is an upper-case letter. */
  lemma {:induction false} SplitCamelAt(t: string, cap: bool, j: int)
    requires 0 <= j < |t|
    ensures var r := SplitCamelFrom(t, cap, false);
      && Place(t, j) < |r| && r[Place(t, j)] == SplitLater(t[j], cap)
      && (IsUpper(t[j]) ==> r[Place(t, j) - 1] == ' ')
    decreases j
  {
    var c, u := t[0], t[1..];
    var rest := SplitCamelFrom(u, cap, false);
    var d := if IsUpper(c) then 1 else 0;
    var r := SplitCamelFrom(t, cap, false);
    assert r == (if IsUpper(c) then " " else "") + ([SplitLater(c, cap)] + rest);
    SplitCamelLength(u, cap);
    if j == 0 {
      assert t[..1] == [c];
      assert CountUpper([c]) == d + CountUpper([c][1..]);
    } else {
      SplitCamelAt(u, cap, j - 1);
      CountUpperCons(t, j);
      var k := Place(u, j - 1);
      assert Place(t, j) == 1 + d + k;
      assert r[1 + d + k] == rest[k];
      if IsUpper(t[j]) {
        assert u[j - 1] == t[j];
        assert r[d + k] == rest[k - 1];
      }
    }
  }

  /** Where character `j` (`j >= 1`) of a word lands in its split: shifted
      right by one space for every capital among characters 1 to `j`. */
  function WordPlace(w: string, j: int): int
    requires 1 <= j < |w|
  {
    j + CountUpper(w[1..j + 1])
  }

  /** The split of a whole word: the first character as `SplitFirst` says,
      then every later character `j` as `SplitLater` says, at position
      `WordPlace(w, j)`, each upper-case one preceded by a space.
      The length leaves room for nothing else: one extra space per later
      capital. An empty word stays empty. */
  lemma SplitCamelCaseWordLayout(w: string, cap: bool)
    ensures var r := SplitCamelCaseWord(w, cap);
      && (|w| == 0 ==> r == "")
      && (|w| > 0 ==>
            && |r| == |w| + CountUpper(w[1..])
            && r[0] == SplitFirst(w[0], cap)
            && forall j :: 1 <= j < |w| ==>
                 && WordPlace(w, j) < |r|
                 && r[WordPlace(w, j)] == SplitLater(w[j], cap)
                 && (IsUpper(w[j]) ==> r[WordPlace(w, j) - 1] == ' '))
  {
    if |w| > 0 {
      var u := w[1..];
      SplitCamelLength(u, cap);
      var rest := SplitCamelFrom(u, cap, false);
      var r := SplitCamelCaseWord(w, cap);
      assert r == [SplitFirst(w[0], cap)] + rest;
      forall j | 1 <= j < |w|
        ensures && WordPlace(w, j) < |r|
                && r[WordPlace(w, j)] == SplitLater(w[j], cap)
                && (IsUpper(w[j]) ==> r[WordPlace(w, j) - 1] == ' ')
      {
        SplitCamelAt(u, cap, j - 1);
        assert u[..j] == w[1..j + 1];
        assert u[j - 1] == w[j];
      }
    }
  }

  /** A non-space character in front keeps every space followed by a word's
      first letter. */
  lemma SpacesOpenCons(x: char, rest: string, cap: bool)
    requires x != ' ' && SpacesOpenWords(rest, cap)
    ensures SpacesOpenWords([x] + rest, cap)
  {
    var t := [x] + rest;
    forall i | 0 <= i < |t| && t[i] == ' '
      ensures i + 1 < |t| && (if cap then IsUpper(t[i + 1]) else IsLower(t[i + 1]))
    {
      assert t[i] == rest[i - 1];
      assert t[i + 1] == rest[i];
    }
  }

  /** A space in front of a word's first letter keeps the property. */
  lemma SpacesOpenSpace(tail: string, cap: bool)
    requires SpacesOpenWords(tail, cap) && |tail| > 0
    requires if cap then IsUpper(tail[0]) else IsLower(tail[0])
    ensures SpacesOpenWords(" " + tail, cap)
  {
    var t := " " + tail;
    forall i | 0 <= i < |t| && t[i] == ' '
      ensures i + 1 < |t| && (if cap then IsUpper(t[i + 1]) else IsLower(t[i + 1]))
    {
      if i > 0 {
        assert t[i] == tail[i - 1];
      }
      assert t[i + 1] == tail[i];
    }
  }

  lemma {:induction false} SplitCamelUnspaced(w: string, cap: bool)
    requires NoSpace(w)
    ensures Unspaced(SplitCamelFrom(w, cap, false)) == (if cap then w else LowerString(w))
    decreases |w|
  {
    if |w| > 0 {
      assert w[0] in w;
      assert NoSpace(w[1..]) by {
        assert forall k :: 0 <= k < |w| - 1 ==> w[1..][k] == w[k + 1];
      }
      SplitCamelUnspaced(w[1..], cap);
      var c := w[0];
      var rest := SplitCamelFrom(w[1..], cap, false);
      var tail := [SplitLater(c, cap)] + rest;
      assert tail[1..] == rest;
      if IsUpper(c) {
        assert (" " + tail)[1..] == tail;
      }
      assert w == [c] + w[1..];
    }
  }

  lemma {:induction false} SplitCamelOpens(w: string, cap: bool)
    requires NoSpace(w)
    ensures SpacesOpenWords(SplitCamelFrom(w, cap, false), cap)
    decreases |w|
  {
    if |w| > 0 {
      assert w[0] in w;
      assert NoSpace(w[1..]) by {
        assert forall k :: 0 <= k < |w| - 1 ==> w[1..][k] == w[k + 1];
      }
      SplitCamelOpens(w[1..], cap);
      var c := w[0];
      var rest := SplitCamelFrom(w[1..], cap, false);
      var tail := [SplitLater(c, cap)] + rest;
      SpacesOpenCons(SplitLater(c, cap), rest, cap);
      if IsUpper(c) {
        SpacesOpenSpace(tail, cap);
      }
    }
  }

  /** The rest of a word after its first character: dropping the spaces
      gives the characters back (lower-cased when capitals are not kept),
      each space opens a word, and a space comes first exactly when the
      first character is a capital. */
  lemma SplitCamelRest(w: string, cap: bool)
    requires NoSpace(w)
    ensures Unspaced(SplitCamelFrom(w, cap, false)) == (if cap then w else LowerString(w))
    ensures SpacesOpenWords(SplitCamelFrom(w, cap, false), cap)
    ensures |w| > 0 ==>
      |SplitCamelFrom(w, cap, false)| > 0 && (SplitCamelFrom(w, cap, false)[0] == ' ' <==> IsUpper(w[0]))
  {
    SplitCamelUnspaced(w, cap);
    SplitCamelOpens(w, cap);
    if |w| > 0 {
      assert w[0] in w;
      assert SplitLater(w[0], cap) != ' ';
    }
  }

  /** Splitting a space-free word: without the spaces the text is the word
      with its first character as `SplitFirst` says and the rest kept
      (lower-cased when words are not capitalized); it does not start with
      a space, every space opens a word, and there is one space per later
      upper-case letter. */
  lemma SplitCamelCaseWordSpaces(w: string, cap: bool)
    requires NoSpace(w) && |w| > 0
    ensures var r := SplitCamelCaseWord(w, cap);
      && Unspaced(r) == [SplitFirst(w[0], cap)] + (if cap then w[1..] else LowerString(w[1..]))
      && |r| == |w| + CountUpper(w[1..])
      && r[0] != ' '
      && SpacesOpenWords(r, cap)
  {
    assert w[0] in w;
    assert NoSpace(w[1..]) by {
      assert forall k :: 0 <= k < |w| - 1 ==> w[1..][k] == w[k + 1];
    }
    SplitCamelRest(w[1..], cap);
    SplitCamelLength(w[1..], cap);
    var rest := SplitCamelFrom(w[1..], cap, false);
    var f := SplitFirst(w[0], cap);
    var r := SplitCamelCaseWord(w, cap);
    assert r == [f] + rest;
    assert f != ' ';
    assert r[1..] == rest;
    assert forall k :: 1 <= k < |r| ==> r[k] == rest[k - 1];
  }

  lemma SplitCamelExample()
    ensures SplitCamelCaseWord("albumName", true) == "Album Name"
  {
  }

  /** camelCase, one character at a time. `started` says whether a
      character has been emitted (the Swift code tests the result for being
      empty); `wordStart` whether a space has been seen since the last
      capitalized character. As written, the very first character does not
      clear `wordStart`. */
  function CamelFrom(words: string, started: bool, wordStart: bool): string
    decreases |words|
  {
    if |words| == 0 then ""
    else
      var c := words[0];
      if c == ' ' then CamelFrom(words[1..], started, true)
      else if !started then [ToLower(c)] + CamelFrom(words[1..], true, wordStart)
      else if wordStart then [ToUpper(c)] + CamelFrom(words[1..], true, false)
      else [c] + CamelFrom(words[1..], true, wordStart)
  }

  function CamelCase(words: string): string {
    CamelFrom(words, false, false)
  }

  /** The joined text has no spaces: one character per non-space input
      character, the first of them lower-cased. */
  lemma {:induction false} CamelFromShape(words: string, started: bool, wordStart: bool)
    ensures NoSpace(CamelFrom(words, started, wordStart))
    ensures |CamelFrom(words, started, wordStart)| == |Unspaced(words)|
    ensures !started && |Unspaced(words)| > 0 ==>
      CamelFrom(words, started, wordStart)[0] == ToLower(Unspaced(words)[0])
    decreases |words|
  {
    if |words| > 0 {
      var c := words[0];
      if c == ' ' {
        CamelFromShape(words[1..], started, true);
      } else if !started {
        CamelFromShape(words[1..], true, wordStart);
      } else if wordStart {
        CamelFromShape(words[1..], true, false);
        assert ToUpper(c) != ' ';
      } else {
        CamelFromShape(words[1..], true, wordStart);
      }
      var r := CamelFrom(words, started, wordStart);
      if c != ' ' {
        assert ToLower(c) != ' ';
        assert r[1..] == CamelFrom(words[1..], true, if started && wordStart then false else wordStart);
        assert forall k :: 1 <= k < |r| ==> r[k] == r[1..][k - 1];
      }
    }
  }

  /** The joined text has no spaces, keeps one character per non-space
      character, and starts with a character that is not upper case. */
  lemma CamelCaseShape(words: string)
    ensures NoSpace(CamelCase(words))
    ensures |CamelCase(words)| == |Unspaced(words)|
    ensures |CamelCase(words)| > 0 ==> !IsUpper(CamelCase(words)[0])
  {
    CamelFromShape(words, false, false);
  }

  lemma {:induction false} CamelOfSplitRest(w: string)
    requires NoSpace(w)
    ensures CamelFrom(SplitCamelFrom(w, true, false), true, false) == w
    decreases |w|
  {
    if |w| > 0 {
      assert w[0] in w;
      assert NoSpace(w[1..]) by {
        assert forall k :: 0 <= k < |w| - 1 ==> w[1..][k] == w[k + 1];
      }
      CamelOfSplitRest(w[1..]);
      var rest := SplitCamelFrom(w[1..], true, false);
      var c := w[0];
      if IsUpper(c) {
        var t := " " + ([c] + rest);
        assert SplitCamelFrom(w, true, false) == t;
        assert t[1..] == [c] + rest;
        assert ([c] + rest)[1..] == rest;
        assert CamelFrom([c] + rest, true, true) == [ToUpper(c)] + CamelFrom(rest, true, false);
      } else {
        assert SplitCamelFrom(w, true, false) == [c] + rest;
        assert ([c] + rest)[1..] == rest;
      }
      assert w == [c] + w[1..];
    }
  }

  /** Joining undoes splitting: a space-free word whose first character is
      not an upper-case letter comes back unchanged, e.g. "albumName" to
      "Album Name" and back. */
  lemma CamelCaseOfSplit(w: string)
    requires NoSpace(w) && |w| > 0 && !IsUpper(w[0])
    ensures CamelCase(SplitCamelCaseWord(w, true)) == w
  {
    assert w[0] in w;
    assert NoSpace(w[1..]) by {
      assert forall k :: 0 <= k < |w| - 1 ==> w[1..][k] == w[k + 1];
    }
    CamelOfSplitRest(w[1..]);
    var rest := SplitCamelFrom(w[1..], true, false);
    var u := ToUpper(w[0]);
    assert SplitCamelCaseWord(w, true) == [u] + rest;
    assert ([u] + rest)[1..] == rest;
    assert u != ' ';
    LowerOfUpper(w[0]);
    assert w == [w[0]] + w[1..];
  }

  /** Once started, a space-free stretch is copied unchanged. */
  lemma {:induction false} CamelCopiesWord(a: string, b: string)
    requires NoSpace(a)
    ensures CamelFrom(a + b, true, false) == a + CamelFrom(b, true, false)
    decreases |a|
  {
    if |a| > 0 {
      assert a[0] in a;
      assert NoSpace(a[1..]) by {
        assert forall k :: 0 <= k < |a| - 1 ==> a[1..][k] == a[k + 1];
      }
      assert (a + b)[1..] == a[1..] + b;
      CamelCopiesWord(a[1..], b);
      assert a == [a[0]] + a[1..];
    } else {
      assert a + b == b;
    }
  }

  lemma CamelCaseExample()
    ensures CamelCase("Medium hall") == "mediumHall"
  {
    var s := "Medium hall";
    assert s[1..] == "edium" + " hall";
    CamelCopiesWord("edium", " hall");
    CamelHallExample();
    assert "m" + ("edium" + "Hall") == "mediumHall";
  }

  lemma CamelHallExample()
    ensures CamelFrom(" hall", true, false) == "Hall"
  {
    assert " hall"[1..] == "hall";
    assert "hall"[1..] == "all";
    CamelCopiesWord("all", "");
    assert "all" + "" == "all";
  }

  /** With a leading space the first word's second character is
      capitalized as if it began a word. */
  lemma CamelCaseLeadingSpace()
    ensures CamelCase(" ab") == "aB"
    ensures CamelCase("ab") == "ab"
  {
  }

  /** camelCase with the word-start flag cleared by the first character,
      as the comments in the Swift code describe. */
  function CamelFromFixed(words: string, started: bool, wordStart: bool): string
    decreases |words|
  {
    if |words| == 0 then ""
    else
      var c := words[0];
      if c == ' ' then CamelFromFixed(words[1..], started, true)
      else if !started then [ToLower(c)] + CamelFromFixed(words[1..], true, false)
      else if wordStart then [ToUpper(c)] + CamelFromFixed(words[1..], true, false)
      else [c] + CamelFromFixed(words[1..], true, false)
  }

  function CamelCaseFixed(words: string): string {
    CamelFromFixed(words, false, false)
  }

  /** Before anything is emitted, spaces change nothing. */
  lemma {:induction false} CamelFixedSpacesFirst(words: string, wordStart: bool)
    ensures CamelFromFixed(words, false, wordStart) == CamelFromFixed(words, false, false)
    decreases |words|
  {
    if |words| > 0 && words[0] == ' ' {
      CamelFixedSpacesFirst(words[1..], true);
      CamelFixedSpacesFirst(words[1..], false);
    }
  }

  /** Leading spaces are ignored by the corrected join, and it agrees with
      the Swift code on every text that does not start with a space. */
  lemma CamelCaseFixedCorrect(words: string)
    ensures CamelCaseFixed(" " + words) == CamelCaseFixed(words)
  {
    assert (" " + words)[1..] == words;
    CamelFixedSpacesFirst(words, true);
  }

  /** After a first character, the corrected and the as-written joins are
      the same function. */
  lemma {:induction false} CamelFixedAgrees(words: string, wordStart: bool)
    ensures CamelFromFixed(words, true, wordStart) == CamelFrom(words, true, wordStart)
    decreases |words|
  {
    if |words| > 0 {
      var c := words[0];
      if c == ' ' {
        CamelFixedAgrees(words[1..], true);
      } else if wordStart {
        CamelFixedAgrees(words[1..], false);
      } else {
        CamelFixedAgrees(words[1..], false);
      }
    }
  }

  /** The two joins differ only on text that starts with spaces. */
  lemma CamelCaseFixedAgrees(words: string)
    requires |words| > 0 && words[0] != ' '
    ensures CamelCaseFixed(words) == CamelCase(words)
  {
    CamelFixedAgrees(words[1..], false);
  }

  /** A word with its first letter upper-cased. */
  function UpperFirst(w: string): (r: string)
    ensures |r| == |w|
  {
    if |w| == 0 then "" else [ToUpper(w[0])] + w[1..]
  }

  /** A word with its first letter lower-cased. */
  function LowerFirst(w: string): (r: string)
    ensures |r| == |w|
  {
    if |w| == 0 then "" else [ToLower(w[0])] + w[1..]
  }

  /** Words run together, each with its first letter upper-cased. */
  function JoinUpper(ws: seq<string>): string {
    if |ws| == 0 then "" else UpperFirst(ws[0]) + JoinUpper(ws[1..])
  }

  /** camelCase read off the words of the text: the first word with its
      first letter lower-cased, then each later word with its first letter
      upper-cased, all run together. */
  function CamelRef(words: string): string {
    var ws := Words(words);
    if |ws| == 0 then "" else LowerFirst(ws[0]) + JoinUpper(ws[1..])
  }

  /** How far the first word of `s` reaches: the index of the first space,
      or the length when there is none. */
  function FirstSpace(s: string): (k: nat)
    ensures k <= |s|
    ensures NoSpace(s[..k])
    ensures k < |s| ==> s[k] == ' '
    decreases |s|
  {
    if |s| == 0 || s[0] == ' ' then 0
    else
      var k := 1 + FirstSpace(s[1..]);
      assert s[..k] == [s[0]] + s[1..][..k - 1];
      k
  }

  lemma WordsEmpty()
    ensures Words("") == []
  {
    assert NonEmptyOnly([""]) == [] + NonEmptyOnly([]);
  }

  /** A leading space adds no word. */
  lemma WordsLeadingSpace(b: string)
    ensures Words(" " + b) == Words(b)
  {
    FieldsCons("", ' ', b);
    assert "" + " " + b == " " + b;
    NonEmptyOnlyAppend([""], Fields(b, ' '));
    assert NonEmptyOnly([""]) == [] + NonEmptyOnly([]);
  }

  /** The corrected join, once started, copies a space-free stretch. */
  lemma CamelFixedCopiesWord(a: string, b: string)
    requires NoSpace(a)
    ensures CamelFromFixed(a + b, true, false) == a + CamelFromFixed(b, true, false)
  {
    CamelFixedAgrees(a + b, false);
    CamelCopiesWord(a, b);
    CamelFixedAgrees(b, false);
  }

  lemma SplitAt(s: string, k: nat)
    requires k < |s|
    ensures s == s[..k] + [s[k]] + s[k + 1..]
  {
    assert s[k..] == [s[k]] + s[k + 1..];
  }

  /** Text that does not start with a space is its first word followed by
      either nothing or a space and the remaining text. */
  lemma FirstWordSplit(s: string)
    requires |s| > 0 && s[0] != ' '
    ensures var k := FirstSpace(s);
      && 0 < k
      && (k == |s| ==> Words(s) == [s])
      && (k < |s| ==> s == s[..k] + " " + s[k + 1..] && Words(s) == [s[..k]] + Words(s[k + 1..]))
  {
    var k := FirstSpace(s);
    var a := s[..k];
    if k == |s| {
      assert a == s;
      WordsSingle(s);
    } else {
      var b := s[k + 1..];
      SplitAt(s, k);
      WordsCons(a, b);
    }
  }

  /** A space-free word followed by anything, where a word starts: the
      corrected join writes the word with its first letter upper-cased and
      goes on as after a letter. */
  lemma CamelFixedOpensWord(a: string, rest: string)
    requires NoSpace(a) && |a| > 0
    ensures CamelFromFixed(a + rest, true, true) == UpperFirst(a) + CamelFromFixed(rest, true, false)
  {
    WordAfterFirst(a, rest);
    CamelFixedCopiesWord(a[1..], rest);
    assert [ToUpper(a[0])] + (a[1..] + CamelFromFixed(rest, true, false))
      == UpperFirst(a) + CamelFromFixed(rest, true, false);
  }

  /** A space-free word followed by anything, before anything is written:
      the corrected join writes the word with its first letter
      lower-cased and goes on as after a letter. */
  lemma CamelFixedFirstWord(a: string, rest: string, wordStart: bool)
    requires NoSpace(a) && |a| > 0
    ensures CamelFromFixed(a + rest, false, wordStart) == LowerFirst(a) + CamelFromFixed(rest, true, false)
  {
    WordAfterFirst(a, rest);
    CamelFixedCopiesWord(a[1..], rest);
    assert [ToLower(a[0])] + (a[1..] + CamelFromFixed(rest, true, false))
      == LowerFirst(a) + CamelFromFixed(rest, true, false);
  }

  /** Taking a space-free word apart at its first character. */
  lemma WordAfterFirst(a: string, rest: string)
    requires NoSpace(a) && |a| > 0
    ensures (a + rest)[0] == a[0] && a[0] != ' '
    ensures (a + rest)[1..] == a[1..] + rest
    ensures NoSpace(a[1..])
  {
    assert a[0] in a;
    assert NoSpace(a[1..]) by {
      assert forall k :: 0 <= k < |a| - 1 ==> a[1..][k] == a[k + 1];
    }
    assert (a + rest)[1..] == a[1..] + rest;
  }

  /** A space after a letter makes the next letter start a word. */
  lemma CamelFixedSpace(b: string)
    ensures CamelFromFixed(" " + b, true, false) == CamelFromFixed(b, true, true)
  {
    assert (" " + b)[1..] == b;
  }

  /** After a first word, the corrected join upper-cases the first letter of
      every word and runs the words together. */
  lemma {:induction false} CamelFixedJoinsWords(s: string)
    ensures CamelFromFixed(s, true, true) == JoinUpper(Words(s))
    decreases |s|
  {
    if |s| == 0 {
      WordsEmpty();
    } else if s[0] == ' ' {
      assert s == " " + s[1..];
      WordsLeadingSpace(s[1..]);
      CamelFixedJoinsWords(s[1..]);
    } else {
      var k := FirstSpace(s);
      FirstWordSplit(s);
      var a := s[..k];
      if k == |s| {
        assert s == a + "";
        CamelFixedOpensWord(a, "");
        assert JoinUpper([a]) == UpperFirst(a) + JoinUpper([]);
      } else {
        var b := s[k + 1..];
        assert s == a + (" " + b);
        CamelFixedOpensWord(a, " " + b);
        CamelFixedSpace(b);
        CamelFixedJoinsWords(b);
        assert ([a] + Words(b))[1..] == Words(b);
      }
    }
  }

  /** The corrected join is camelCase as read off the words, on every
      text. */
  lemma {:induction false} CamelCaseFixedWords(words: string, wordStart: bool)
    ensures CamelFromFixed(words, false, wordStart) == CamelRef(words)
    decreases |words|
  {
    var s := words;
    if |s| == 0 {
      WordsEmpty();
    } else if s[0] == ' ' {
      assert s == " " + s[1..];
      WordsLeadingSpace(s[1..]);
      CamelCaseFixedWords(s[1..], true);
    } else {
      var k := FirstSpace(s);
      FirstWordSplit(s);
      var a := s[..k];
      if k == |s| {
        assert s == a + "";
        CamelFixedFirstWord(a, "", wordStart);
      } else {
        var b := s[k + 1..];
        assert s == a + (" " + b);
        CamelFixedFirstWord(a, " " + b, wordStart);
        CamelFixedSpace(b);
        CamelFixedJoinsWords(b);
        assert ([a] + Words(b))[1..] == Words(b);
      }
    }
  }

  /** camelCase as written meets the word-based reading on every text that
      does not start with a space. */
  lemma CamelCaseWords(words: string)
    requires |words| > 0 && words[0] != ' '
    ensures CamelCase(words) == CamelRef(words)
  {
    CamelCaseFixedAgrees(words);
    CamelCaseFixedWords(words, false);
  }

  // ---------------------------------------------------------------------
  // Thousands separators

  newtype Int64 = x: int | -0x8000_0000_0000_0000 <= x < 0x8000_0000_0000_0000

  /** One step of readableLongInteger's loop: character `c` of `s`,
      followed by a comma when it is not the last one and the number of
      characters after it is a multiple of three. */
  function Piece(s: string, c: nat): string
    requires c < |s|
  {
    var last := |s| - 1;
    [s[c]] + (if c < last && (last - c) % 3 == 0 then "," else "")
  }

  /** The loop of readableLongInteger from character `c` of `s` on. */
  function ReadableFrom(s: string, c: nat): string
    requires c <= |s|
    decreases |s| - c
  {
    if c == |s| then "" else Piece(s, c) + ReadableFrom(s, c + 1)
  }

  /** readableLongInteger, as written: the rule is applied to the whole of
      `String(num)`, minus sign included. */
  function ReadableLongInteger(num: Int64): string {
    ReadableFrom(IntToString(num as int), 0)
  }

  /** Commas between groups of three, counted from the right: the reference
      reading of a thousands-separated numeral. */
  function Group3(s: string): string
    decreases |s|
  {
    if |s| <= 3 then s else Group3(s[..|s| - 3]) + ("," + s[|s| - 3..])
  }

  lemma {:induction false} ReadableTail(s: string, c: nat)
    requires c <= |s| && |s| <= c + 3
    ensures ReadableFrom(s, c) == s[c..]
    decreases |s| - c
  {
    if c < |s| {
      ReadableTail(s, c + 1);
      assert Piece(s, c) == [s[c]];
      assert s[c..] == [s[c]] + s[c + 1..];
    }
  }

  /** Left of the last three characters the loop behaves as on the shorter
      string, plus the comma that now follows its last character. */
  lemma PieceDropLast3(s: string, c: nat)
    requires |s| > 3 && c < |s| - 3
    ensures Piece(s, c) == Piece(s[..|s| - 3], c) + (if c == |s| - 4 then "," else "")
  {
    var t := s[..|s| - 3];
    assert t[c] == s[c];
    if c < |s| - 4 {
      assert (|s| - 1 - c) % 3 == (|t| - 1 - c) % 3;
    }
  }

  lemma {:induction false} ReadableDropLast3(s: string, c: nat)
    requires |s| > 3 && c < |s| - 3
    ensures ReadableFrom(s, c) == ReadableFrom(s[..|s| - 3], c) + ("," + s[|s| - 3..])
    decreases |s| - c
  {
    if c == |s| - 4 {
      ReadableLast4(s);
    } else {
      ReadableDropLast3(s, c + 1);
      ReadableDropStep(s, s[..|s| - 3], "," + s[|s| - 3..], c);
    }
  }

  lemma ReadableDropStep(s: string, t: string, x: string, c: nat)
    requires |s| > 3 && c < |s| - 4 && t == s[..|s| - 3]
    requires ReadableFrom(s, c + 1) == ReadableFrom(t, c + 1) + x
    ensures ReadableFrom(s, c) == ReadableFrom(t, c) + x
  {
    PieceDropLast3(s, c);
    AppendAssoc(Piece(t, c), ReadableFrom(t, c + 1), x);
  }

  /** The step of the previous lemma at the character just before the last
      three. */
  lemma ReadableLast4(s: string)
    requires |s| > 3
    ensures ReadableFrom(s, |s| - 4) == ReadableFrom(s[..|s| - 3], |s| - 4) + ("," + s[|s| - 3..])
  {
    var c, t := |s| - 4, s[..|s| - 3];
    PieceDropLast3(s, c);
    ReadableTail(s, |s| - 3);
    ReadableTail(t, c);
    assert t[c..] == [t[c]];
    AppendAssoc([t[c]], ",", s[|s| - 3..]);
  }

  lemma AppendAssoc(a: string, b: string, c: string)
    ensures a + (b + c) == (a + b) + c
  {
  }

  /** The loop's left-to-right rule puts the commas exactly where grouping
      by threes from the right does. */
  lemma {:induction false} ReadableIsGrouped(s: string)
    ensures ReadableFrom(s, 0) == Group3(s)
    decreases |s|
  {
    if |s| <= 3 {
      ReadableTail(s, 0);
    } else {
      ReadableDropLast3(s, 0);
      ReadableIsGrouped(s[..|s| - 3]);
    }
  }

  /** Removes every comma. */
  function Uncomma(s: string): string {
    if |s| == 0 then "" else (if s[0] == ',' then "" else [s[0]]) + Uncomma(s[1..])
  }

  lemma {:induction false} UncommaAppend(a: string, b: string)
    ensures Uncomma(a + b) == Uncomma(a) + Uncomma(b)
    decreases |a|
  {
    if |a| > 0 {
      assert (a + b)[1..] == a[1..] + b;
      UncommaAppend(a[1..], b);
    } else {
      assert a + b == b;
    }
  }

  lemma {:induction false} UncommaNone(s: string)
    requires ',' !in s
    ensures Uncomma(s) == s
    decreases |s|
  {
    if |s| > 0 {
      assert s[0] in s;
      assert ',' !in s[1..] by {
        assert forall k :: 0 <= k < |s| - 1 ==> s[1..][k] == s[k + 1];
      }
      UncommaNone(s[1..]);
      assert s == [s[0]] + s[1..];
    }
  }

  /** Every comma stands between two digits. */
  predicate CommasBetweenDigits(r: string) {
    forall i :: 0 <= i < |r| && r[i] == ',' ==> 0 < i < |r| - 1 && IsDigit(r[i - 1]) && IsDigit(r[i + 1])
  }

  predicate DigitsAndCommas(r: string) {
    forall i :: 0 <= i < |r| ==> IsDigit(r[i]) || r[i] == ','
  }

  lemma {:induction false} Group3Uncomma(s: string)
    requires ',' !in s
    ensures Uncomma(Group3(s)) == s
    decreases |s|
  {
    if |s| <= 3 {
      UncommaNone(s);
    } else {
      var t, tail := s[..|s| - 3], s[|s| - 3..];
      assert ',' !in t && ',' !in tail by {
        assert forall k :: 0 <= k < |t| ==> t[k] == s[k];
        assert forall k :: 0 <= k < |tail| ==> tail[k] == s[|s| - 3 + k];
      }
      Group3Uncomma(t);
      UncommaJoin(Group3(t), t, tail);
      assert s == t + tail;
    }
  }

  /** Removing the commas from a group, a comma and a comma-free tail. */
  lemma UncommaJoin(g: string, t: string, tail: string)
    requires Uncomma(g) == t && ',' !in tail
    ensures Uncomma(g + ("," + tail)) == t + tail
  {
    UncommaAppend(g, "," + tail);
    UncommaLeadingComma(tail);
  }

  lemma UncommaLeadingComma(tail: string)
    requires ',' !in tail
    ensures Uncomma("," + tail) == tail
  {
    UncommaNone(tail);
    assert ("," + tail)[1..] == tail;
  }

  lemma {:induction false} Group3Ends(s: string)
    requires |s| > 0
    ensures |Group3(s)| > 0 && Group3(s)[0] == s[0] && Group3(s)[|Group3(s)| - 1] == s[|s| - 1]
    decreases |s|
  {
    if |s| > 3 {
      Group3Ends(s[..|s| - 3]);
    }
  }

  lemma {:induction false} Group3Commas(s: string)
    requires IsNumeral(s)
    ensures DigitsAndCommas(Group3(s))
    ensures CommasBetweenDigits(Group3(s))
    decreases |s|
  {
    if |s| <= 3 {
      NumeralHasNo(s, ',');
    } else {
      var t, tail := s[..|s| - 3], s[|s| - 3..];
      assert IsNumeral(t) && IsNumeral(tail);
      Group3Commas(t);
      Group3Ends(t);
      var g := Group3(t);
      var r := g + ("," + tail);
      assert Group3(s) == r;
      assert forall j :: |g| < j < |r| ==> r[j] == tail[j - |g| - 1];
      forall i | 0 <= i < |r| && r[i] == ','
        ensures 0 < i < |r| - 1 && IsDigit(r[i - 1]) && IsDigit(r[i + 1])
      {
        if i < |g| {
          assert r[i] == g[i];
          assert r[i - 1] == g[i - 1] && r[i + 1] == g[i + 1];
        } else {
          assert i == |g|;
          assert r[i - 1] == g[|g| - 1] && r[i + 1] == tail[0];
        }
      }
      forall i | 0 <= i < |r|
        ensures IsDigit(r[i]) || r[i] == ','
      {
        if i < |g| {
          assert r[i] == g[i];
        } else if i > |g| {
          assert r[i] == tail[i - |g| - 1];
        }
      }
    }
  }

  /** Grouping a numeral drops nothing but the commas it adds, keeps the
      first and the last digit in place and puts every comma between two
      digits. */
  lemma Group3Digits(s: string)
    requires IsNumeral(s)
    ensures Uncomma(Group3(s)) == s
    ensures |Group3(s)| > 0 && Group3(s)[0] == s[0] && Group3(s)[|Group3(s)| - 1] == s[|s| - 1]
    ensures DigitsAndCommas(Group3(s))
    ensures CommasBetweenDigits(Group3(s))
  {
    NumeralHasNo(s, ',');
    Group3Uncomma(s);
    Group3Ends(s);
    Group3Commas(s);
  }

  /** For a number that is not negative, removing the commas gives back its
      decimal digits, and every comma stands between two digits. */
  lemma ReadableLongIntegerNonNegative(num: Int64)
    requires num >= 0
    ensures Uncomma(ReadableLongInteger(num)) == NatToString(num as int)
    ensures CommasBetweenDigits(ReadableLongInteger(num))
    ensures ReadableLongInteger(num) == Group3(NatToString(num as int))
  {
    NatNumeral(num as int);
    ReadableIsGrouped(NatToString(num as int));
    Group3Digits(NatToString(num as int));
  }

  lemma RenderExample()
    ensures NatToString(15700900) == "15700900"
  {
    assert NatToString(157) == "157";
    assert NatToString(15700) == "15700";
    assert NatToString(1570090) == "1570090";
  }

  lemma GroupExample()
    ensures Group3("15700900") == "15,700,900"
  {
    var s := "15700900";
    assert s[..5] == "15700" && s[5..] == "900";
    assert "15700"[..2] == "15" && "15700"[2..] == "700";
    assert Group3("15700") == "15" + ("," + "700");
  }

  lemma ReadableExample()
    ensures ReadableLongInteger(15700900) == "15,700,900"
  {
    RenderExample();
    GroupExample();
    ReadableIsGrouped("15700900");
  }

  /** With a minus sign and a digit count that is a multiple of three the
      sign is followed by a comma. */
  lemma ReadableNegativeComma()
    ensures ReadableLongInteger(-123) == "-,123"
    ensures !CommasBetweenDigits(ReadableLongInteger(-123))
  {
    assert NatToString(123) == "123";
    assert IntToString(-123) == "-123";
    var r := ReadableLongInteger(-123);
    assert r[1] == ',' && !IsDigit(r[0]);
  }

  /** readableLongInteger with the sign set apart before grouping. */
  function ReadableLongIntegerSigned(num: Int64): string {
    if num < 0 then "-" + ReadableFrom(NatToString(-(num as int)), 0)
    else ReadableFrom(NatToString(num as int), 0)
  }

  /** For every number, removing the commas gives `String(num)`, and every
      comma stands between two digits. */
  lemma ReadableSignedCorrect(num: Int64)
    ensures Uncomma(ReadableLongIntegerSigned(num)) == IntToString(num as int)
    ensures CommasBetweenDigits(ReadableLongIntegerSigned(num))
  {
    var n := if num < 0 then -(num as int) else num as int;
    NatNumeral(n);
    ReadableIsGrouped(NatToString(n));
    Group3Digits(NatToString(n));
    if num < 0 {
      var g := Group3(NatToString(n));
      var r := "-" + g;
      UncommaAppend("-", g);
      assert Uncomma("-") == "-";
      forall i | 0 <= i < |r| && r[i] == ','
        ensures 0 < i < |r| - 1 && IsDigit(r[i - 1]) && IsDigit(r[i + 1])
      {
        assert r[i] == g[i - 1];
      }
    }
  }

  // ---------------------------------------------------------------------
  // Blank strings

  /** Unicode White_Space: `CharacterSet.whitespacesAndNewlines`. */
  predicate IsWhitespace(c: char) {
    var n := c as int;
    n == 0x20 || 0x09 <= n <= 0x0D || n == 0x85 || n == 0xA0 || n == 0x1680
    || 0x2000 <= n <= 0x200A || n == 0x2028 || n == 0x2029 || n == 0x202F
    || n == 0x205F || n == 0x3000
  }

  function TrimStart(s: string): (r: string)
    decreases |s|
  {
    if |s| > 0 && IsWhitespace(s[0]) then TrimStart(s[1..]) else s
  }

  function TrimEnd(s: string): (r: string)
    decreases |s|
  {
    if |s| > 0 && IsWhitespace(s[|s| - 1]) then TrimEnd(s[..|s| - 1]) else s
  }

  /** trimString: whitespace and newlines dropped from both ends. */
  function Trim(s: string): string {
    TrimEnd(TrimStart(s))
  }

  predicate AllWhitespace(s: string) {
    forall i :: 0 <= i < |s| ==> IsWhitespace(s[i])
  }

  /** Trimming the front leaves a suffix that is empty exactly when the
      string is all whitespace, and that otherwise starts with a
      non-whitespace character. */
  lemma {:induction false} TrimStartShape(s: string)
    ensures var r := TrimStart(s);
            |r| <= |s| && r == s[|s| - |r|..] && AllWhitespace(s[..|s| - |r|])
            && (|r| == 0 || !IsWhitespace(r[0]))
    decreases |s|
  {
    if |s| > 0 && IsWhitespace(s[0]) {
      TrimStartShape(s[1..]);
      var r := TrimStart(s[1..]);
      assert s[1..][|s| - 1 - |r|..] == s[|s| - |r|..];
      assert s[..|s| - |r|] == [s[0]] + s[1..][..|s| - 1 - |r|];
    }
  }

  lemma {:induction false} TrimEndShape(s: string)
    ensures var r := TrimEnd(s);
            |r| <= |s| && r == s[..|r|] && AllWhitespace(s[|r|..])
            && (|r| == 0 || !IsWhitespace(r[|r| - 1]))
    decreases |s|
  {
    if |s| > 0 && IsWhitespace(s[|s| - 1]) {
      var t := s[..|s| - 1];
      TrimEndShape(t);
      var r := TrimEnd(t);
      assert t[..|r|] == s[..|r|];
      assert s[|r|..] == t[|r|..] + [s[|s| - 1]];
    }
  }

  /** The trimmed text is a stretch of the original that neither starts nor
      ends with whitespace, and everything cut off is whitespace. */
  lemma TrimShape(s: string)
    ensures exists a, b :: 0 <= a <= b <= |s| && Trim(s) == s[a..b]
              && AllWhitespace(s[..a]) && AllWhitespace(s[b..])
    ensures var r := Trim(s);
            (|r| == 0 || (!IsWhitespace(r[0]) && !IsWhitespace(r[|r| - 1])))
            && (|r| == 0 <==> AllWhitespace(s))
  {
    TrimStartShape(s);
    var u := TrimStart(s);
    TrimEndShape(u);
    var r := TrimEnd(u);
    var a := |s| - |u|;
    assert r == s[a..a + |r|];
    assert s[a + |r|..] == u[|r|..];
    if |r| > 0 {
      assert r[0] == u[0];
      assert !AllWhitespace(s) by {
        assert s[|s| - |u|] == u[0];
      }
    } else {
      assert u[|r|..] == u;
      assert forall k :: 0 <= k < |s| ==> s[k] == s[..|s| - |u|][k];
    }
  }

  /** isStringEmpty. */
  function IsStringEmpty(s: Option<string>): bool {
    match s
    case None => true
    case Some(t) => Trim(t) == ""
  }

  /** A missing string is empty, and a present one is empty exactly when
      every character is whitespace or a newline. */
  lemma IsStringEmptySpec(s: Option<string>)
    ensures IsStringEmpty(s) <==> s.None? || AllWhitespace(s.value)
  {
    if s.Some? {
      TrimShape(s.value);
    }
  }
}

=== FILE: text.dfy ===
/** Shared text vocabulary: an optional value, ASCII case mapping,
    decimal rendering of integers and the prefix/suffix/substring tests
    that Swift's String offers. */
module Text {

  datatype Option<+T> = None | Some(value: T)

  predicate IsUpper(c: char) {
    'A' <= c <= 'Z'
  }

  predicate IsLower(c: char) {
    'a' <= c <= 'z'
  }

  /** Lower-cases one ASCII letter; every other character is unchanged. */
  function ToLower(c: char): (r: char)
    ensures IsUpper(c) ==> IsLower(r) && r as int == c as int + 32
    ensures !IsUpper(c) ==> r == c
  {
    if IsUpper(c) then (c as int + 32) as char else c
  }

  /** Upper-cases one ASCII letter; every other character is unchanged. */
  function ToUpper(c: char): (r: char)
    ensures IsLower(c) ==> IsUpper(r) && r as int + 32 == c as int
    ensures !IsLower(c) ==> r == c
  {
    if IsLower(c) then (c as int - 32) as char else c
  }

  function LowerString(s: string): (r: string)
    ensures |r| == |s|
    ensures forall i :: 0 <= i < |s| ==> r[i] == ToLower(s[i])
  {
    if |s| == 0 then "" else [ToLower(s[0])] + LowerString(s[1..])
  }

  lemma LowerOfUpper(c: char)
    requires !IsUpper(c)
    ensures ToLower(ToUpper(c)) == c
  {
  }

  // ---------------------------------------------------------------------
  // Decimal digits

  predicate IsDigit(c: char) {
    '0' <= c <= '9'
  }

  function DigitChar(d: nat): (c: char)
    requires d < 10
    ensures IsDigit(c) && c as int - '0' as int == d
  {
    ('0' as int + d) as char
  }

  function DigitValue(c: char): (d: nat)
    requires IsDigit(c)
    ensures d < 10 && DigitChar(d) == c
  {
    c as int - '0' as int
  }

  predicate AllDigits(s: string) {
    forall i :: 0 <= i < |s| ==> IsDigit(s[i])
  }

  /** The shortest decimal rendering of n, as `String(n)` prints it. */
  function NatToString(n: nat): (r: string)
    decreases n
  {
    if n < 10 then [DigitChar(n)] else NatToString(n / 10) + [DigitChar(n % 10)]
  }

  /** The value of a string of decimal digits (the empty string is 0). */
  function DigitsValue(s: string): (v: nat)
    requires AllDigits(s)
  {
    if |s| == 0 then 0 else DigitsValue(s[..|s| - 1]) * 10 + DigitValue(s[|s| - 1])
  }

  lemma {:induction false} NatToStringShape(n: nat)
    ensures 0 < |NatToString(n)| && AllDigits(NatToString(n))
    ensures n < 10 <==> |NatToString(n)| == 1
    ensures |NatToString(n)| > 1 ==> NatToString(n)[0] != '0'
    decreases n
  {
    if n >= 10 {
      NatToStringShape(n / 10);
    }
  }

  /** Reading the decimal rendering back gives the number. */
  lemma {:induction false} NatToStringRoundTrip(n: nat)
    ensures AllDigits(NatToString(n))
    ensures DigitsValue(NatToString(n)) == n
    decreases n
  {
    NatToStringShape(n);
    if n >= 10 {
      NatToStringRoundTrip(n / 10);
      var s := NatToString(n);
      assert s[..|s| - 1] == NatToString(n / 10);
    }
  }

  /** Rendering of a possibly negative integer, as `String(n)` and `%d` print it. */
  function IntToString(n: int): (r: string)
  {
    if n < 0 then "-" + NatToString(-n) else NatToString(n)
  }

  // ---------------------------------------------------------------------
  // Prefix, suffix and substring tests

  predicate HasPrefix(s: string, q: string) {
    |q| <= |s| && s[..|q|] == q
  }

  predicate HasSuffix(s: string, q: string) {
    |q| <= |s| && s[|s| - |q|..] == q
  }

  predicate ContainsAt(s: string, q: string, i: int) {
    0 <= i && i + |q| <= |s| && s[i..i + |q|] == q
  }

  predicate Contains(s: string, q: string) {
    exists i :: 0 <= i <= |s| - |q| && ContainsAt(s, q, i)
  }
}

=== FILE: time_presets.dfy ===
/** The registry of time-stretch effect presets: a map from display name to
    preset, seeded with eleven built-in presets and extended, pruned and
    renamed by the user. Rates and overlaps are floating-point values in
    the player; here they are whole hundredths. */
module TimePresets {
  import opened Text

  /** The state a preset puts the effects unit in. Only `.active` is named
      by the presets; every other state is told apart by a code. */
  datatype EffectsUnitState = Active | OtherState(code: nat)

  datatype TimePreset = TimePreset(
    name: string,
    state: EffectsUnitState,
    rate: int,        // hundredths
    overlap: int,     // hundredths
    pitchShift: bool,
    systemDefined: bool)

  datatype SystemPreset =
    | Normal | QuarterX | HalfX | ThreeFourthsX | TwoX | ThreeX | FourX
    | TooMuchCoffee | LaidBack | SpeedyGonzales | SlowLikeMolasses

  /** The display name of a built-in preset. */
  function RawValue(p: SystemPreset): string {
    match p
    case Normal => "Normal (1x)"
    case QuarterX => "0.25x"
    case HalfX => "0.5x"
    case ThreeFourthsX => "0.75x"
    case TwoX => "2x"
    case ThreeX => "3x"
    case FourX => "4x"
    case TooMuchCoffee => "Too much coffee"
    case LaidBack => "Laid back"
    case SpeedyGonzales => "Speedy Gonzales"
    case SlowLikeMolasses => "Slow like molasses"
  }

  const NormalName: string := "Normal (1x)"

  /** The built-in presets in the order they are registered. */
  const AllValues: seq<SystemPreset> :=
    [Normal, QuarterX, HalfX, ThreeFourthsX, TwoX, ThreeX, FourX,
     SpeedyGonzales, SlowLikeMolasses, TooMuchCoffee, LaidBack]

  /** Playback rate of a built-in preset, in hundredths. */
  function SystemRate(p: SystemPreset): int {
    match p
    case Normal => 100
    case QuarterX => 25
    case HalfX => 50
    case ThreeFourthsX => 75
    case TwoX => 200
    case ThreeX => 300
    case FourX => 400
    case TooMuchCoffee => 115
    case LaidBack => 90
    case SpeedyGonzales => 150
    case SlowLikeMolasses => 80
  }

  /** Every built-in preset has overlap 8, pitch shift on and an active unit. */
  const SystemOverlap: int := 800

  function SystemRecord(p: SystemPreset): TimePreset {
    TimePreset(RawValue(p), Active, SystemRate(p), SystemOverlap, true, true)
  }

  /** Different built-in presets have different display names. */
  lemma RawValueInjective(p: SystemPreset, q: SystemPreset)
    ensures RawValue(p) == RawValue(q) ==> p == q
  {
  }

  lemma AllValuesComplete(p: SystemPreset)
    ensures p in AllValues
  {
  }

  /** The built-in preset with display name `name` among `ps`, if any. */
  function FindByName(ps: seq<SystemPreset>, name: string): (r: Option<SystemPreset>)
    ensures r.Some? ==> r.value in ps && RawValue(r.value) == name
    ensures r.None? ==> forall p :: p in ps ==> RawValue(p) != name
  {
    if |ps| == 0 then None
    else if RawValue(ps[0]) == name then Some(ps[0])
    else FindByName(ps[1..], name)
  }

  /** fromDisplayName: the built-in preset with that display name, or
      `Normal` for any other name. */
  function FromDisplayName(displayName: string): SystemPreset {
    match FindByName(AllValues, displayName)
    case Some(p) => p
    case None => Normal
  }

  /** Display names read back as their presets, and any name that is not a
      display name reads as `Normal`. */
  lemma FromDisplayNameSpec(name: string)
    ensures forall p :: FromDisplayName(RawValue(p)) == p
    ensures (forall p :: RawValue(p) != name) ==> FromDisplayName(name) == Normal
    ensures FromDisplayName(name) == Normal || RawValue(FromDisplayName(name)) == name
  {
    forall p ensures FromDisplayName(RawValue(p)) == p {
      AllValuesComplete(p);
      var r := FindByName(AllValues, RawValue(p));
      if r.Some? {
        RawValueInjective(r.value, p);
      }
    }
  }

  // ---------------------------------------------------------------------
  // The registry

  type Presets = map<string, TimePreset>

  /** Every preset is stored under its own name. */
  predicate KeyedByName(m: Presets) {
    forall k :: k in m ==> m[k].name == k
  }

  /** Registers the built-in presets in order, each under its display name. */
  function Register(ps: seq<SystemPreset>, m: Presets): Presets
    decreases |ps|
  {
    if |ps| == 0 then m
    else Register(ps[1..], m[RawValue(ps[0]) := SystemRecord(ps[0])])
  }

  /** The registry as the player starts: the built-in presets only. */
  function InitialPresets(): Presets {
    Register(AllValues, map[])
  }

  /** Registering adds every listed preset under its display name and keeps
      every other entry. */
  lemma {:induction false} RegisterSpec(ps: seq<SystemPreset>, m: Presets)
    ensures var r := Register(ps, m);
            (forall p :: p in ps ==> RawValue(p) in r && r[RawValue(p)] == SystemRecord(p))
            && (forall k :: k in r <==> k in m || exists p :: p in ps && RawValue(p) == k)
            && (forall k :: k in m && (forall p :: p in ps ==> RawValue(p) != k) ==> r[k] == m[k])
    decreases |ps|
  {
    if |ps| > 0 {
      var a := ps[0];
      var rest := ps[1..];
      var m' := m[RawValue(a) := SystemRecord(a)];
      RegisterSpec(rest, m');
      assert forall p :: p in ps <==> p == a || p in rest;
      var r := Register(ps, m);
      assert r == Register(rest, m');
      if a !in rest {
        forall q | q in rest ensures RawValue(q) != RawValue(a) {
          RawValueInjective(q, a);
        }
      }
    }
  }

  /** Registering presets that are all different, under names not yet
      present, adds one entry per preset. */
  lemma {:induction false} RegisterCount(ps: seq<SystemPreset>, m: Presets)
    requires forall i, j :: 0 <= i < j < |ps| ==> ps[i] != ps[j]
    requires forall p :: p in ps ==> RawValue(p) !in m
    ensures |Register(ps, m)| == |m| + |ps|
    decreases |ps|
  {
    if |ps| > 0 {
      var a := ps[0];
      var rest := ps[1..];
      var m' := m[RawValue(a) := SystemRecord(a)];
      forall p | p in rest ensures RawValue(p) !in m' {
        RawValueInjective(p, a);
        var j :| 0 <= j < |rest| && rest[j] == p;
        assert ps[j + 1] == p;
      }
      assert forall i, j :: 0 <= i < j < |rest| ==> rest[i] == ps[i + 1] && rest[j] == ps[j + 1];
      RegisterCount(rest, m');
    }
  }

  /** The initial registry holds every built-in preset under its display
      name, and nothing else. */
  lemma InitialPresetsKeys()
    ensures forall p :: RawValue(p) in InitialPresets() && InitialPresets()[RawValue(p)] == SystemRecord(p)
    ensures forall k :: k in InitialPresets() <==> exists p :: RawValue(p) == k
  {
    RegisterSpec(AllValues, map[]);
    forall p ensures p in AllValues {
      AllValuesComplete(p);
    }
  }

  /** Every entry of the initial registry is built in and stored under its
      own name, and the default's name is among them. */
  lemma InitialPresetsSpec()
    ensures forall k :: k in InitialPresets() ==> InitialPresets()[k].systemDefined
    ensures KeyedByName(InitialPresets())
    ensures NormalName in InitialPresets()
    ensures InitialPresets()[NormalName] == SystemRecord(Normal)
  {
    InitialPresetsKeys();
    assert RawValue(Normal) == NormalName;
  }

  /** The initial registry has exactly eleven entries. */
  lemma InitialPresetsCount()
    ensures |InitialPresets()| == 11
  {
    RegisterCount(AllValues, map[]);
  }

  // ---------------------------------------------------------------------
  // Queries

  predicate PresetWithNameExists(m: Presets, name: string) {
    name in m
  }

  /** presetByName: the stored preset, or the default one. The default is
      itself looked up by name, so the lookup only ends while the default's
      name is registered. */
  function PresetByName(m: Presets, name: string): (r: TimePreset)
    requires name in m || NormalName in m
    ensures name in m ==> r == m[name]
    ensures name !in m ==> r == m[NormalName]
    ensures KeyedByName(m) ==> r.name == (if name in m then name else NormalName)
  {
    if name in m then m[name] else m[NormalName]
  }

  /** defaultPreset. */
  function DefaultPreset(m: Presets): (r: TimePreset)
    requires NormalName in m
    ensures r == m[NormalName]
    ensures KeyedByName(m) ==> r.name == NormalName
  {
    PresetByName(m, NormalName)
  }

  /** On the initial registry the default is the built-in 1x preset, and
      any unknown name falls back to it. */
  lemma DefaultIsNormal(name: string)
    ensures DefaultPreset(InitialPresets()) == SystemRecord(Normal)
    ensures name !in InitialPresets() ==> PresetByName(InitialPresets(), name) == SystemRecord(Normal)
  {
    InitialPresetsSpec();
  }

  /** userDefinedPresets: the entries not flagged as built in. */
  function UserDefinedPresets(m: Presets): (r: Presets)
    ensures forall k :: k in r <==> k in m && !m[k].systemDefined
    ensures forall k :: k in r ==> r[k] == m[k]
  {
    map k | k in m && !m[k].systemDefined :: m[k]
  }

  /** systemDefinedPresets: the entries flagged as built in. */
  function SystemDefinedPresets(m: Presets): (r: Presets)
    ensures forall k :: k in r <==> k in m && m[k].systemDefined
    ensures forall k :: k in r ==> r[k] == m[k]
  {
    map k | k in m && m[k].systemDefined :: m[k]
  }

  /** countUserDefinedPresets: the number of entries not flagged as built in. */
  function CountUserDefinedPresets(m: Presets): (n: nat)
    ensures n == |set k | k in m && !m[k].systemDefined|
  {
    var u := UserDefinedPresets(m);
    assert u.Keys == set k | k in m && !m[k].systemDefined;
    |u|
  }

  /** The two views split the registry: every entry is in exactly one, and
      their sizes add up to the registry's. */
  lemma ViewsPartition(m: Presets)
    ensures UserDefinedPresets(m).Keys !! SystemDefinedPresets(m).Keys
    ensures UserDefinedPresets(m).Keys + SystemDefinedPresets(m).Keys == m.Keys
    ensures CountUserDefinedPresets(m) + |SystemDefinedPresets(m)| == |m|
  {
    var u, s := UserDefinedPresets(m).Keys, SystemDefinedPresets(m).Keys;
    assert u + s == m.Keys;
    assert |u + s| == |u| + |s|;
  }

  /** The initial registry has no user presets. */
  lemma InitialHasNoUserPresets()
    ensures CountUserDefinedPresets(InitialPresets()) == 0
  {
    InitialPresetsSpec();
    assert UserDefinedPresets(InitialPresets()) == map[];
  }

  // ---------------------------------------------------------------------
  // Updates

  /** loadUserDefinedPresets: stores each preset under its name, in order. */
  function LoadUserDefinedPresets(m: Presets, ps: seq<TimePreset>): Presets
    decreases |ps|
  {
    if |ps| == 0 then m else LoadUserDefinedPresets(m[ps[0].name := ps[0]], ps[1..])
  }

  /** After loading, the registry holds exactly its old names and the
      loaded ones, and stays keyed by name. */
  lemma {:induction false} LoadKeys(m: Presets, ps: seq<TimePreset>)
    ensures var r := LoadUserDefinedPresets(m, ps);
            (forall k :: k in r <==> k in m || exists p :: p in ps && p.name == k)
            && (KeyedByName(m) ==> KeyedByName(r))
    decreases |ps|
  {
    if |ps| > 0 {
      LoadKeys(m[ps[0].name := ps[0]], ps[1..]);
      assert forall p :: p in ps <==> p == ps[0] || p in ps[1..];
    }
  }

  /** After loading, a loaded name holds the last preset of that name. */
  lemma {:induction false} LoadLastWins(m: Presets, ps: seq<TimePreset>, i: nat)
    requires i < |ps|
    requires forall j :: i < j < |ps| ==> ps[j].name != ps[i].name
    ensures ps[i].name in LoadUserDefinedPresets(m, ps)
    ensures LoadUserDefinedPresets(m, ps)[ps[i].name] == ps[i]
    decreases |ps|
  {
    var m' := m[ps[0].name := ps[0]];
    if i > 0 {
      assert ps[1..][i - 1] == ps[i];
      assert forall j :: i - 1 < j < |ps| - 1 ==> ps[1..][j] == ps[j + 1];
      LoadLastWins(m', ps[1..], i - 1);
    } else {
      forall p | p in ps[1..] ensures p.name != ps[0].name {
        var j :| 0 <= j < |ps| - 1 && ps[1..][j] == p;
        assert ps[j + 1] == p;
      }
      LoadKeepsOthers(m', ps[1..], ps[0].name);
    }
  }

  /** After loading, a name no loaded preset carries keeps its preset. */
  lemma {:induction false} LoadKeepsOthers(m: Presets, ps: seq<TimePreset>, k: string)
    requires k in m
    requires forall p :: p in ps ==> p.name != k
    ensures k in LoadUserDefinedPresets(m, ps)
    ensures LoadUserDefinedPresets(m, ps)[k] == m[k]
    decreases |ps|
  {
    if |ps| > 0 {
      assert ps[0] in ps;
      assert forall p :: p in ps[1..] ==> p in ps;
      LoadKeepsOthers(m[ps[0].name := ps[0]], ps[1..], k);
    }
  }

  /** addUserDefinedPreset: stores a user preset under `name`. The Swift code
      assumes the name is new; if it is not, the old entry is replaced. */
  function AddUserDefinedPreset(m: Presets, name: string, state: EffectsUnitState,
                                rate: int, overlap: int, pitchShift: bool): (r: Presets)
    ensures PresetWithNameExists(r, name)
    ensures r[name] == TimePreset(name, state, rate, overlap, pitchShift, false)
    ensures forall k :: k != name ==> (k in r <==> k in m)
    ensures forall k :: k != name && k in m ==> r[k] == m[k]
    ensures KeyedByName(m) ==> KeyedByName(r)
  {
    m[name := TimePreset(name, state, rate, overlap, pitchShift, false)]
  }

  /** Adding a new name adds one user preset. */
  lemma AddCountsOne(m: Presets, name: string, state: EffectsUnitState,
                     rate: int, overlap: int, pitchShift: bool)
    requires name !in m
    ensures CountUserDefinedPresets(AddUserDefinedPreset(m, name, state, rate, overlap, pitchShift))
            == CountUserDefinedPresets(m) + 1
  {
    var r := AddUserDefinedPreset(m, name, state, rate, overlap, pitchShift);
    var before := set k | k in m && !m[k].systemDefined;
    var after := set k | k in r && !r[k].systemDefined;
    assert after == before + {name};
  }

  /** deletePresets: removes each name in turn. */
  function DeletePresets(m: Presets, presetNames: seq<string>): Presets
    decreases |presetNames|
  {
    if |presetNames| == 0 then m else DeletePresets(m - {presetNames[0]}, presetNames[1..])
  }

  /** Deleting names one by one removes exactly those names and leaves every
      other entry as it was. */
  lemma {:induction false} DeleteSpec(m: Presets, presetNames: seq<string>)
    ensures DeletePresets(m, presetNames) == map k | k in m && k !in presetNames :: m[k]
    decreases |presetNames|
  {
    if |presetNames| > 0 {
      var n := presetNames[0];
      DeleteSpec(m - {n}, presetNames[1..]);
      var lhs := DeletePresets(m, presetNames);
      var rhs := map k | k in m && k !in presetNames :: m[k];
      assert forall k :: k in presetNames <==> k == n || k in presetNames[1..];
      assert lhs.Keys == rhs.Keys;
    }
  }

  lemma DeleteEffect(m: Presets, presetNames: seq<string>)
    ensures var r := DeletePresets(m, presetNames);
            (forall i :: 0 <= i < |presetNames| ==> !PresetWithNameExists(r, presetNames[i]))
            && (forall k :: k !in presetNames ==> (k in r <==> k in m))
            && (forall k :: k in r ==> r[k] == m[k])
            && (KeyedByName(m) ==> KeyedByName(r))
  {
    DeleteSpec(m, presetNames);
  }

  /** Adding a fresh preset and deleting it again gives the registry back. */
  lemma AddThenDelete(m: Presets, name: string, state: EffectsUnitState,
                      rate: int, overlap: int, pitchShift: bool)
    requires name !in m
    ensures DeletePresets(AddUserDefinedPreset(m, name, state, rate, overlap, pitchShift), [name]) == m
  {
    var r := AddUserDefinedPreset(m, name, state, rate, overlap, pitchShift);
    DeleteSpec(r, [name]);
    var d := DeletePresets(r, [name]);
    assert d.Keys == m.Keys;
  }

  /** renamePreset: with `oldName` present, its preset moves to `newName`
      and takes that name (replacing any preset already there); with
      `oldName` absent nothing happens. */
  function RenamePreset(m: Presets, oldName: string, newName: string): (r: Presets)
    ensures oldName !in m ==> r == m
    ensures oldName in m ==> newName in r && r[newName] == m[oldName].(name := newName)
    ensures oldName in m && oldName != newName ==> oldName !in r
    ensures forall k :: k != oldName && k != newName ==> (k in r <==> k in m)
    ensures forall k :: k != oldName && k != newName && k in m ==> r[k] == m[k]
    ensures KeyedByName(m) ==> KeyedByName(r)
  {
    if PresetWithNameExists(m, oldName) then
      var preset := PresetByName(m, oldName);
      var removed := m - {oldName};
      removed[newName := preset.(name := newName)]
    else m
  }

  /** Renaming to a fresh name and back gives the registry back. */
  lemma RenameBack(m: Presets, a: string, b: string)
    requires KeyedByName(m) && a in m && b !in m
    ensures RenamePreset(RenamePreset(m, a, b), b, a) == m
  {
    var back := RenamePreset(RenamePreset(m, a, b), b, a);
    assert back.Keys == m.Keys;
  }

  /** A rename to a fresh name keeps the number of user presets. */
  lemma RenameKeepsCount(m: Presets, a: string, b: string)
    requires a in m && b !in m
    ensures CountUserDefinedPresets(RenamePreset(m, a, b)) == CountUserDefinedPresets(m)
  {
    var r := RenamePreset(m, a, b);
    var u := UserDefinedPresets(m).Keys;
    var v := UserDefinedPresets(r).Keys;
    var w := if m[a].systemDefined then u else (u - {a}) + {b};
    forall k ensures k in v <==> k in w {
      if k != a && k != b {
        assert k in r <==> k in m;
      }
    }
    assert v == w;
    if !m[a].systemDefined {
      assert |u - {a}| == |u| - 1;
    }
  }
}
